=== FILE: README.md ===
# glTFast loader core in Dafny

This project models the non-engine core of the `GLTFast` loader class (`Runtime/Scripts/GltFast.cs`) and proves properties of that model. `GLTFast` turns a glTF 2.0 document into buffers, textures and mesh primitives. The document is either JSON (`LoadGltf`) or a GLB binary container (`LoadGlb`). The model covers:

- **The GLB container walk** (`Glb`, `Loader.GltFast.LoadGlb`). It reads the 12-byte header with magic `0x46546C67` and version 2, then the chunk headers from offset 12, following section 4.4 of the glTF 2.0 specification.
  - A BIN chunk becomes `glbBinChunk`.
  - A JSON chunk is decoded, parsed and its buffers resolved.
  - An encoder (`EncodeGlb`) states what the walk recovers from a well-formed file.
- **The extension gate** (`Extensions`) and **buffer resolution** (`ParseJsonAndLoadBuffers`, `WaitForBufferDownloads`, `GetBufferView`).
- **Data URIs** (`DataUri`): `data:<media type>;base64,<payload>` as in section 3 of RFC 2397.
- **Image routing** (`ImageTypes`, `LoadImages`, `CreateTexturesFromBuffers`). Each image is handled in one of these ways:
  - embedded and loaded at once;
  - downloaded;
  - copied from a buffer view;
  - skipped.
- **Accessor readers** (`Accessors`): the conversion job each `Get*Job` reader selects for an accessor, or none. The job records where it reads, how many elements, with what stride and what normalisation.
- **Primitive preparation** (`Primitives`, `PreparePrimitives`, `PreparePrimitive`, `Prepare`):
  - the draw-mode switch and the synthesised indices;
  - the job handles of one primitive;
  - the `meshPrimitiveIndex` prefix table and the slot of every primitive;
  - the assembly loop, which records a failed primitive in `loadingError` and carries on.

The loader object is `Loader.GltFast`, a class whose fields are the ones the C# methods update: `gltfRoot`, `buffers`, `binChunks`, `glbBinChunk`, `loadingError`, the download dictionaries, `images`, `imageCreateContexts` (here `imageCopies`), `meshPrimitiveIndex`, `primitiveContexts` and `primitives`. The loops of the source are methods with loop invariants, each proved against a specification function. The pure decisions are functions with lemmas about them.

Some collaborators are outside the model and appear only as their results:
- The JSON parser, UTF-8 decoding, `Convert.FromBase64String` and the mesh builder `CreatePrimitive` are function-valued constructor parameters.
- The base URI is a parameter.
- The data delivered by finished downloads is a parameter of `WaitForBufferDownloads`.

Exceptions the C# code would throw are explicit outcomes (`DotNet.Exception`), never preconditions:
- `BitConverter.ToUInt32` past the end of the array;
- `Substring` outside the string;
- a null buffer;
- allocating an array of negative length;
- the `fixed` statements of the accessor readers, of the synthesised indices and of the image copies: a null buffer, a start outside the buffer, or an empty result array.

A null array is the empty sequence. A C# string is a sequence of `char`s, each a Unicode scalar value, so lengths and positions count scalars where .NET counts UTF-16 code units. The two agree on text inside the Basic Multilingual Plane. Ignoring case folds the ASCII letters only.

Behaviour of the code worth knowing:
- Unity's `Assert` only logs. So a second BIN chunk replaces the first, and a second JSON chunk parses again; neither is an error. The last chunk of each type wins (`Glb.LastOfType`, `Loader.BinAfterIsLastBin`, `Loader.GltFast.RootAfterIsLastJson`).
- A header that is not all there throws `ArgumentException` (from `BitConverter`).
- A chunk of unknown type is skipped.
- A data URI buffer that does not decode sets `loadingError` and the loop goes on with the other buffers.
- Offsets are added in unchecked 32-bit `int` (:364, :634, :858, :1005, :1057, :1181, :1241, :1315, :1329). An accessor's start, an image copy's start, a buffer slice's start and the byte size of a plain colour copy are wrapped the same way here (`DotNet.WrapInt32`). Wrapping after each addition gives what wrapping the whole sum gives (`DotNet.WrapInt32Steps`).
- A reader that throws aborts `Prepare`; the exception is that of the first primitive, in slot order, and of its first reader, in scheduling order, that throws (`Primitives.MeshesFaultIsFirst`).

The code has three defects, listed under Findings. For each, the code as written is modelled and its behaviour exhibited, but the loader class `Loader.GltFast` is built on the corrected definition:
- A reader that selects no job fails only its primitive (`Primitives.BuildFailsOnlyUnreadable`). In the code, `jh.Value` throws and aborts `Prepare`.
- A data URI such as `data:;base6`, with fewer than seven characters after the `;`, decodes to null (`DataUri.DecodeEmbedBuffer`). In the code, `Substring` throws.
- A chunk length of 2^31 or more ends the walk outside the array (`Glb.ChunkWalk`). In the code the index wraps around in 32-bit `int`: a length within the header's offset plus 8 of 2^32 sends it back to an earlier header, so the loop can run forever; any other such length makes the index negative, and `BitConverter.ToUInt32` throws.

## Model

| member | source | states |
|---|---|---|
| DotNet.UInt32At | Runtime/Scripts/GltFast.cs:319 | `BitConverter.ToUInt32` throws exactly when fewer than four bytes remain from the index; otherwise the result is an unsigned 32-bit value |
| DotNet.UInt32RoundTrip | Runtime/Scripts/GltFast.cs:342-344 | the four little-endian bytes of any `uint`, wherever they sit in an array, read back as that `uint` |
| DotNet.ToInt32 | Runtime/Scripts/GltFast.cs:364 | the unchecked `(int)` cast of a `uint` lands in the `int` range and is either the value or the value minus 2^32 |
| DotNet.WrapInt32 | Runtime/Scripts/GltFast.cs:364 | unchecked `int` addition: the result is in range, congruent to the exact sum modulo 2^32, and equal to it when it fits |
| DotNet.WrapInt32Steps | Runtime/Scripts/GltFast.cs:1057 | adding offsets one at a time in unchecked `int` ends where adding them all and wrapping once does |
| DotNet.IndexOf | Runtime/Scripts/GltFast.cs:300 | throws exactly when the search window leaves the string; otherwise it returns the first position in the window holding the character, or -1 when none does; positions count Unicode scalars |
| DotNet.Substring | Runtime/Scripts/GltFast.cs:302-305 | throws exactly when the range leaves the string; otherwise it returns exactly the characters of the range |
| DotNet.ToUpperFolds | Runtime/Scripts/GltFast.cs:1369-1371 | ASCII case folding, as `OrdinalIgnoreCase` does it on the ASCII letters, is idempotent and never yields a lower-case ASCII letter |
| DotNet.ToUpperSameIff | Runtime/Scripts/GltFast.cs:1369-1371 | under ASCII case folding, two characters compare equal ignoring case exactly when they are the same character or the same ASCII letter in either case |
| Extensions.FirstUnsupported | Runtime/Scripts/GltFast.cs:168-176 | the scan of `extensionsRequired` stops at the first name off the allow-list; it finds none exactly when all are on it |
| Extensions.UnsupportedAmong | Runtime/Scripts/GltFast.cs:177-184 | the used extensions that draw a warning are exactly those off the allow-list |
| Extensions.CheckExtensionSupport | Runtime/Scripts/GltFast.cs:167-186 | fails exactly when some required extension is off the five-name allow-list (:24-30), logging one error, for the first such name in the required list; otherwise the log holds a warning for exactly the unsupported used extensions, which never change the result |
| DataUri.DecodeEmbedBufferAsWritten | Runtime/Scripts/GltFast.cs:297-306 | the code as written; a URI shorter than the `data:` prefix makes `IndexOf` throw |
| DataUri.DecodeEmbedBuffer | Runtime/Scripts/GltFast.cs:297-306 | throws `ArgumentException` exactly for a URI shorter than `data:`, otherwise only base64's `FormatException`; a returned media type holds no `;` and is shorter than the search window of 1000 characters, counted as Unicode scalars |
| DataUri.DecodeEmbedBufferNoMediaType | Runtime/Scripts/GltFast.cs:300-301 | null for want of a media type exactly when the window of up to 1000 characters (Unicode scalars) after `data:` holds no `;` |
| DataUri.DecodeEmbedBufferNotBase64 | Runtime/Scripts/GltFast.cs:302-304 | a null after the media type means the URI is `data:`, the media type, `;` and a rest that does not start with `base64,` |
| DataUri.DecodeEmbedBufferDecoded | Runtime/Scripts/GltFast.cs:302-305 | decoded bytes mean the URI is `data:`, exactly the returned media type, `;base64,` and a payload whose base64 decoding they are |
| DataUri.EmbedRoundTrip | Runtime/Scripts/GltFast.cs:297-306 | a URI written as RFC 2397 prescribes, with a media type free of `;` and shorter than 1000 characters (Unicode scalars), decodes to that media type and that payload's bytes |
| DataUri.AsWrittenDiffersOnlyOnShortMarker | Runtime/Scripts/GltFast.cs:303 | the code as written and the corrected decoder differ only where the code throws on fewer than seven characters after the `;`, where the corrected one returns null |
| DataUri.ShortMarkerThrows | Runtime/Scripts/GltFast.cs:303 | `data:;base6` throws in the code as written and returns null in the corrected decoder |
| ImageTypes.EqualsIgnoreCaseLowered | Runtime/Scripts/GltFast.cs:1369-1371 | comparing ordinally ignoring case with a lower-case string is comparing the lower-cased string with it |
| ImageTypes.EndsWithAsLoweredSuffix | Runtime/Scripts/GltFast.cs:1369-1371 | `EndsWith(ext, OrdinalIgnoreCase)` for a lower-case extension holds exactly when the lower-cased tail of the path is the extension |
| ImageTypes.KnownExtensionIffLoweredSuffix | Runtime/Scripts/GltFast.cs:1368-1375 | a path has a known image extension exactly when its lower-cased tail is one of `.png`, `.jpg`, `.jpeg` |
| ImageTypes.LoadImageRoute | Runtime/Scripts/GltFast.cs:203-230 | the only exception routing an image can raise is base64's `FormatException` |
| ImageTypes.LoadImageRouteCases | Runtime/Scripts/GltFast.cs:196-233 | exactly the data URIs are decoded, and only those decoding to a known mime type become textures, holding the decoded bytes; an external file of known type outside a buffer view is downloaded from the base URI plus its URI; a known type in a buffer view or without URI waits; anything else is of unknown type |
| ImageTypes.BufferImageCopy | Runtime/Scripts/GltFast.cs:611-643 | an image gets a copy job exactly when it is of known type and stored in a buffer view; the copy reads the view's `byteLength` bytes from the view's offset past its buffer region's start, that sum taken in 32-bit `int` |
| ImageTypes.ScheduledCopiesInOrder | Runtime/Scripts/GltFast.cs:605-646 | every scheduled copy is the one its image calls for, and the copies are in strictly increasing image order |
| ImageTypes.ScheduledCopiesCover | Runtime/Scripts/GltFast.cs:620-643 | every image of known type stored in a buffer view has a scheduled copy |
| ImageTypes.CopyFault | Runtime/Scripts/GltFast.cs:630-634 | scheduling a copy throws nothing exactly when the copy is non-empty and its first byte lies inside a non-null buffer |
| DotNet.AllocateAndPinFault | Runtime/Scripts/GltFast.cs:856-866 | allocating a result array and pinning a source element and the result's first element throws nothing exactly when the length is non-negative and, if anything is pinned, positive with the start inside a non-null source; a negative length overflows whether or not anything is pinned, and otherwise only a pin can throw |
| Glb.ChunkWalk | Runtime/Scripts/GltFast.cs:337-365 | the first chunk's body starts 8 bytes past the header the walk starts at; the walk ends where the last body ends, or where it started when it meets no chunk; it is truncated exactly when it stops before the end of the array, and then fewer than 8 bytes are left for a header |
| Glb.WalkReadsHeaders | Runtime/Scripts/GltFast.cs:342-345 | the length and type of every chunk met are the two `uint`s in the 8 bytes before its body |
| Glb.WalkContiguous | Runtime/Scripts/GltFast.cs:341-365 | each chunk header follows right after the previous chunk's body: the walk advances by 8 plus the chunk length |
| Glb.LastOfType | Runtime/Scripts/GltFast.cs:349-362 | the chunk found is one of the given type with none of that type after it; none is found exactly when no chunk has the type |
| Glb.SingleOfType | Runtime/Scripts/GltFast.cs:351-355 | with exactly one chunk of a type, as section 4.4 of the glTF 2.0 specification prescribes, that chunk is the one that wins |
| Glb.LastOfTypeAppend | Runtime/Scripts/GltFast.cs:349-362 | a new chunk becomes the last of its type; the other types keep theirs |
| Glb.EncodedBodies | Runtime/Scripts/GltFast.cs:349-356 | every body written after a chunk header lies exactly where the layout puts it, with its type and length |
| Glb.WalkEncodedChunks | Runtime/Scripts/GltFast.cs:341-365 | the walk over written chunks meets every header where it was written and ends at the end of the array, untruncated |
| Glb.GlbRoundTrip | Runtime/Scripts/GltFast.cs:318-365 | a written GLB passes the magic and version checks, and the walk from offset 12 meets every chunk in order with its type, length and body |
| Glb.NextHeaderAsWritten | Runtime/Scripts/GltFast.cs:342-364 | the code as written: the next header offset is computed with an `(int)` cast and 32-bit addition, and is None exactly when the header read throws |
| Glb.AsWrittenAgreesBelowTwoTo31 | Runtime/Scripts/GltFast.cs:364 | while the next offset fits an `int`, the code as written advances exactly as the walk does |
| Glb.HangingChunkLoops | Runtime/Scripts/GltFast.cs:341-365 | a valid GLB whose chunk declares length 0xFFFFFFF8 sends the code as written back to offset 12, so the loop never ends; the corrected walk leaves the array after that one chunk |
| Accessors.UvJob | Runtime/Scripts/GltFast.cs:844-963 | a job exactly for float, (un)signed byte and (un)signed short; it reads 2 components of the accessor's type; it starts at accessor offset + view offset + region start, added in 32-bit `int`, and covers `count` elements; the stride is the view's when interleaved, else the tight element size (4 for short, 2 for byte); normalisation comes from the accessor; unsigned short without interleave chooses the normalized job exactly when the accessor is normalized |
| Accessors.Vector3Job | Runtime/Scripts/GltFast.cs:1043-1168 | a job exactly for float, (un)signed byte and (un)signed short; it reads 3 components from the accessor's data; the fallback strides are 6 for short and 3 for bytes; no stride is given only to non-interleaved data |
| Accessors.TangentJob | Runtime/Scripts/GltFast.cs:1170-1232 | a job exactly for float, short and byte tangents; it reads 4 components from the accessor's data; the fallback strides are 8 for short and 4 for byte |
| Accessors.ColorJob | Runtime/Scripts/GltFast.cs:1234-1359 | `Color32` output exactly for unsigned bytes; a job exactly for non-interleaved RGB/RGBA of float, unsigned byte or unsigned short; a conversion job fits the accessor; RGBA float and byte are a plain copy of `count` × element-size bytes, that product taken in 32-bit `int`, from the accessor's start |
| Accessors.IndicesJob | Runtime/Scripts/GltFast.cs:991-1041 | a job exactly for unsigned byte, short and int indices, reading `count` scalars from the accessor's start without a stride |
| Accessors.ReadStartFromSlice | Runtime/Scripts/GltFast.cs:1057 | a reader that starts from a buffer slice of the view and adds the accessor's offset in `int` reads where the accessor's start, offsets added in `int`, says |
| Accessors.StrideIsElementStride | Runtime/Scripts/GltFast.cs:937-948 | for an accessor of the element type its reader expects, every stride a UV, position or tangent job steps by is the view's stride when interleaved, else the tightly packed element size |
| Primitives.TopologyOf | Runtime/Scripts/GltFast.cs:746-769 | triangles, points and lines keep their topology; line strip and line loop become a line strip; every other mode becomes triangles; all modes but triangles log an error |
| Primitives.CalculateIndices | Runtime/Scripts/GltFast.cs:965-989 | the flipped generator is chosen exactly for triangle topology; the synthesised index count is the vertex count, plus one for a line loop; the plain generator closes the loop exactly for a line loop |
| Primitives.LineLoopIndices | Runtime/Scripts/GltFast.cs:968-987 | with the topology the switch picks, a line loop gets the plain generator with vertexCount+1 indices, closing the loop |
| Primitives.OptionalJobMissingIff | Runtime/Scripts/GltFast.cs:784-816 | an optional attribute leaves a handle without a job exactly when the primitive has the attribute and its reader has no branch for the accessor |
| Primitives.PrimitiveJobs | Runtime/Scripts/GltFast.cs:738-816 | the jobs of a primitive fill exactly as many handles as were counted for it |
| Primitives.MissingJobIffUnreadable | Runtime/Scripts/GltFast.cs:740-816 | some handle of a primitive stays without a job exactly when one of its accessors has a component type, or for colours a layout, that its reader does not handle |
| Primitives.SelectsIffJob | Runtime/Scripts/GltFast.cs:844-963 | a reader selects a job exactly when the accessor's component type (for colours also its layout) has a branch in the reader's switch |
| Primitives.ReaderFaultAt | Runtime/Scripts/GltFast.cs:1043-1063 | a reader throws nothing exactly when the count is non-negative and, if it selects a job, positive with the accessor's start inside its non-null buffer |
| Primitives.IndexFaultOf | Runtime/Scripts/GltFast.cs:965-983 | synthesised indices throw nothing exactly when their count (vertices, plus one for a line loop) is positive, and overflow when it is negative |
| Primitives.CalculatedIndexCountIsJobCount | Runtime/Scripts/GltFast.cs:968-970 | the count that decides the synthesised indices' fault is the count of their job |
| Primitives.OptionalFault | Runtime/Scripts/GltFast.cs:784-816 | an optional attribute's reader runs, and can throw, exactly when the primitive has the attribute |
| Primitives.PrimitiveFaults | Runtime/Scripts/GltFast.cs:740-816 | one possible fault per handle of the primitive |
| Primitives.FirstFault | Runtime/Scripts/GltFast.cs:740-816 | steps run in order throw nothing exactly when none faults; otherwise they throw the fault of a step all of whose predecessors throw nothing |
| Primitives.FirstFaultAppend | Runtime/Scripts/GltFast.cs:740-816 | running two sequences of steps in turn throws what the first throws, or else what the second throws |
| Primitives.ContextFault | Runtime/Scripts/GltFast.cs:692-699 | a Draco primitive throws nothing here |
| Primitives.MeshFaultNone | Runtime/Scripts/GltFast.cs:686-705 | the primitives of a mesh from a given one on throw nothing exactly when none of them faults |
| Primitives.MeshFaultIsFirst | Runtime/Scripts/GltFast.cs:686-705 | when the primitives of a mesh throw, they throw the fault of the first that does |
| Primitives.MeshesFaultNone | Runtime/Scripts/GltFast.cs:683-706 | preparing all meshes throws nothing exactly when no primitive of any mesh faults |
| Primitives.MeshesFaultIsFirst | Runtime/Scripts/GltFast.cs:683-706 | when preparing the meshes throws, it throws the fault of a primitive before which, in slot order, no primitive throws |
| Primitives.JobHandlesAsWritten | Runtime/Scripts/GltFast.cs:742-815 | the code as written: reading the handles throws `InvalidOperationException` exactly when a reader selected no job; otherwise it yields every job in order |
| Primitives.BuildFailsOnlyUnreadable | Runtime/Scripts/GltFast.cs:444-450 | a primitive's context fails, and builds nothing, exactly when it is not Draco and one of its readers has no branch for its accessor; every other primitive, Draco ones included, is what the mesh builder makes of its context |
| Primitives.UIntPositionsThrow | Runtime/Scripts/GltFast.cs:741-742 | a primitive with 32-bit unsigned positions makes the code as written throw, while the corrected model fails only that primitive |
| Primitives.PrimitiveTable | Runtime/Scripts/GltFast.cs:672-678 | `meshPrimitiveIndex` has one entry per mesh plus one |
| Primitives.PrimitiveTableSteps | Runtime/Scripts/GltFast.cs:672-678 | the table starts at 0, entry m+1 is entry m plus mesh m's primitive count, and the last entry is the total |
| Primitives.PrimitiveTableMonotone | Runtime/Scripts/GltFast.cs:672-678 | the table never decreases |
| Primitives.SlotsNumberPrimitives | Runtime/Scripts/GltFast.cs:683-705 | primitive p of mesh m gets a slot in the slice `[idx[m], idx[m+1])` that `CreateGameObjects` reads (:552-554); different primitives get different slots; every slot below the total belongs to a primitive |
| Primitives.MeshOfSlot | Runtime/Scripts/GltFast.cs:552-554 | every slot below the total lies in the slice of some mesh |
| Primitives.MeshContexts | Runtime/Scripts/GltFast.cs:686-705 | one context per primitive of the mesh |
| Primitives.Contexts | Runtime/Scripts/GltFast.cs:684-706 | one context per primitive of all meshes together |
| Primitives.MeshContextsAt | Runtime/Scripts/GltFast.cs:686-704 | the q-th context of a mesh is the one made for its q-th primitive, in slot first + q |
| Primitives.ContextsAtPrefix | Runtime/Scripts/GltFast.cs:684-706 | primitive q of mesh m sits, with its own context, at the count of the earlier meshes' primitives plus q |
| Primitives.ContextsAt | Runtime/Scripts/GltFast.cs:684-706 | primitive q of mesh m has its own context in exactly the slot the table gives it |
| Primitives.ContextsRecordSlots | Runtime/Scripts/GltFast.cs:701-703 | every context records the slot it sits in |
| Primitives.Assembled | Runtime/Scripts/GltFast.cs:439-453 | the assembly loop leaves one entry per slot |
| Primitives.AssembledInSlots | Runtime/Scripts/GltFast.cs:444-450 | when every context records its own slot, slot k holds what its context builds, and is left as it was when that builds nothing |
| Loader.Unmeasured | Runtime/Scripts/GltFast.cs:89 | the freshly allocated regions: one per buffer |
| Loader.ResolvedEntries | Runtime/Scripts/GltFast.cs:92-105 | one entry per buffer of the document |
| Loader.ResolvedEntriesAt | Runtime/Scripts/GltFast.cs:92-105 | entry k is the decoding of buffer k's data URI, and null for any other buffer |
| Loader.AnyRejectedIff | Runtime/Scripts/GltFast.cs:96-100 | an error is recorded exactly when some buffer's data URI decodes to null |
| Loader.BufferUrlsExactly | Runtime/Scripts/GltFast.cs:101-103 | exactly the buffers with a URI other than a data URI are requested, each from the base URI followed by its own URI |
| Loader.LoadedTextures | Runtime/Scripts/GltFast.cs:199-200 | one texture entry per image |
| Loader.LoadedTexturesAt | Runtime/Scripts/GltFast.cs:203-212 | texture k is loaded exactly when image k is an embedded image of known type, and holds its decoded bytes; otherwise it is null |
| Loader.LoadedTexturesPointwise | Runtime/Scripts/GltFast.cs:200-231 | entries that each hold what the loop leaves for their image are exactly the loaded textures |
| Loader.ImageUrlsExactly | Runtime/Scripts/GltFast.cs:221-226 | exactly the images that are downloaded are requested, each from the base URI followed by its own URI |
| Loader.JsonChunksReadableIff | Runtime/Scripts/GltFast.cs:356 | every JSON chunk can be decoded exactly when each one's length fits an `int` and its body lies inside the array |
| Loader.JsonChunkAt | Runtime/Scripts/GltFast.cs:354-361 | a JSON chunk anywhere is found, and one that cannot be decoded makes the whole walk undecodable |
| Loader.BinAfterIsLastBin | Runtime/Scripts/GltFast.cs:349-353 | `glbBinChunk` ends as the region of the last BIN chunk, or stays as it was when there is none |
| Loader.HasChunkOfTypeIff | Runtime/Scripts/GltFast.cs:354 | a chunk of a type is present exactly when a last one of that type exists |
| Loader.FirstCopyFaultIsFirst | Runtime/Scripts/GltFast.cs:606-646 | scheduling the copies throws nothing exactly when no copy faults; otherwise it throws the fault of the first copy that does, and all earlier copies are fine |
| Loader.AllocatedImages | Runtime/Scripts/GltFast.cs:402-407 | `images` is allocated with one null entry per image when it was null, and kept otherwise |
| Loader.Put | Runtime/Scripts/GltFast.cs:742-743 | storing a handle at the counter appends it to the handles filled so far and moves the counter by one |
| Loader.GltFast.constructor | Runtime/Scripts/GltFast.cs:57-75 | a fresh loader holds no document, no buffers, no BIN chunk and no error, with empty download lists, and keeps its collaborators |
| Loader.GltFast.ParseJsonAndLoadBuffers | Runtime/Scripts/GltFast.cs:77-106 | the document is always stored. A failed extension gate sets the error and touches no buffer or download, and so does a document without buffers apart from the error. Otherwise the arrays are allocated with one entry and one unmeasured region per buffer, and every buffer gets its entry: the decoded data URI, or null; exactly the external buffers are requested; the error is set exactly when a data URI decodes to null; base64's exception escapes only for a data URI that throws |
| Loader.GltFast.LoadBuffer | Runtime/Scripts/GltFast.cs:93-104 | one buffer: throws exactly when its data URI's base64 throws; otherwise it stores the decoded entry, requests an external URI, and records an error for a data URI that yields null |
| Loader.GltFast.LoadBuffers | Runtime/Scripts/GltFast.cs:92-105 | the loop: the entries are the resolved entries in order, the downloads gain exactly the external buffers' URLs, and the error is set exactly when some data URI yields null |
| Loader.GltFast.LoadImage | Runtime/Scripts/GltFast.cs:201-230 | one image: throws exactly when its route fails; otherwise it stores the texture its route leaves and requests it exactly when it is downloaded |
| Loader.GltFast.LoadImages | Runtime/Scripts/GltFast.cs:196-233 | without an exception `images` are the loaded textures and the texture downloads gain exactly the downloaded images' URLs; an exception is base64's `FormatException` for some image whose data URI throws |
| Loader.GltFast.LoadImageList | Runtime/Scripts/GltFast.cs:200-231 | the loop of `LoadImages` over freshly allocated entries, with the same outcome |
| Loader.GltFast.LoadGltf | Runtime/Scripts/GltFast.cs:188-194 | the buffers as `ParseJsonAndLoadBuffers` leaves them: untouched for a failed extension gate or a document without buffers, else one entry and one unmeasured region per buffer, the resolved entries and the external buffers' downloads unless a data URI threw. Images are looked at only when the buffers resolved without error; otherwise they are untouched; without an exception they are the loaded textures. An exception is base64's, from a buffer or an image |
| Loader.GltFast.RootAfterIsLastJson | Runtime/Scripts/GltFast.cs:354-362 | `gltfRoot` ends as the document of the last JSON chunk, or stays as it was when there is none |
| Loader.GltFast.OneMoreChunk | Runtime/Scripts/GltFast.cs:349-362 | one more chunk: a JSON chunk replaces the document, its buffers (when it lists any) replace the buffer entries and regions, and its external buffers join the downloads; a BIN chunk replaces the region; any other chunk changes none of these |
| Loader.GltFast.RootAfterWithoutJson | Runtime/Scripts/GltFast.cs:368 | without a JSON chunk the document stays the one there was |
| Loader.GltFast.LoadJsonChunk | Runtime/Scripts/GltFast.cs:354-362 | decoding throws `ArgumentException` exactly when the length does not fit an `int` or the body leaves the array, and then the document, the error, the buffers, their regions and the downloads stay as they were; otherwise the chunk's document is stored; the walk stops with false only when an error is recorded and goes on only when none is; when it goes on, the buffers and regions are the document's when it lists buffers, else unchanged, and the downloads gain its external buffers |
| Loader.GltFast.LoadChunk | Runtime/Scripts/GltFast.cs:349-362 | a BIN chunk becomes `glbBinChunk` as (body start, length); a JSON chunk is parsed, with the buffer outcome `LoadJsonChunk` gives; only a JSON chunk can stop the walk or touch the buffers and downloads |
| Loader.WalkStops | Runtime/Scripts/GltFast.cs:341-362 | a turn of the chunk loop that stops does so on a header that is not all there, which truncates the walk, or on a JSON chunk, which the walk then holds; an undecodable one makes the walk's JSON undecodable |
| Loader.ReadInTurnWalk | Runtime/Scripts/GltFast.cs:341-364 | the chunks the loop reads one after another, each header where the previous body ends, are exactly the first chunks of the walk |
| Loader.GltFast.ArraysAfterAgree | Runtime/Scripts/GltFast.cs:86-90 | the buffer entries and their regions are always allocated together, so their counts stay equal |
| Loader.GltFast.ArraysAfterFollowRoot | Runtime/Scripts/GltFast.cs:86-90 | after a JSON chunk there is a document; when it lists buffers, the entries are its resolved entries and the regions one unmeasured region per buffer |
| Loader.GltFast.DownloadsAfterKeys | Runtime/Scripts/GltFast.cs:101-103 | a buffer download is only requested for an index below the most buffers a JSON chunk lists |
| Loader.GltFast.ReadNextChunk | Runtime/Scripts/GltFast.cs:342-362 | an unreadable header throws; otherwise the chunk starts 8 bytes past its header and is handled as `LoadChunk` says, keeping the loop's state equations |
| Loader.GltFast.ReadChunks | Runtime/Scripts/GltFast.cs:337-365 | a walk that runs to the end leaves the last JSON chunk's document and the last BIN chunk's region, and records an error only if one was recorded before and no JSON chunk came; the buffers and regions are those of the last JSON chunk that lists buffers (`BuffersAfter`, `BinChunksAfter`), and the downloads gain every JSON chunk's external buffers (`DownloadsAfter`); a throw means a truncated walk or an undecodable JSON chunk |
| Loader.GltFast.LoadGlb | Runtime/Scripts/GltFast.cs:318-381 | a wrong magic or version sets the error and returns false, and a short header throws. Success means an untruncated walk, the last JSON chunk's document, and the loaded images. The buffers and regions are then those of the last JSON chunk that lists buffers, the last BIN chunk replacing buffer 0 and its region; their counts agree, and equal the document's buffer count when it lists any; the downloads gain every JSON chunk's external buffers, all at indices below the most buffers a JSON chunk lists. Without a JSON chunk and with no document before, the result is false. Every returned value is "no error recorded" |
| Loader.GltFast.DeliverDownloads | Runtime/Scripts/GltFast.cs:236-247 | a download that delivered data for a key past the end of `buffers` throws `IndexOutOfRangeException`, which happens when a later JSON chunk of a GLB lists fewer buffers than an earlier one; otherwise each download that delivered data fills its own buffer entry, in any order, and failed downloads and other entries stay as they were |
| Loader.GltFast.MeasureBuffers | Runtime/Scripts/GltFast.cs:249-256 | every buffer except a GLB's buffer 0 gets the region (0, its length); a null buffer or no buffers throws `NullReferenceException` |
| Loader.GltFast.WaitForBufferDownloads | Runtime/Scripts/GltFast.cs:235-257 | throws `IndexOutOfRangeException` exactly when a download delivered data for a key past the end of `buffers`, setting no region; otherwise the downloaded data is stored, then every buffer but a GLB's buffer 0 gets the region (0, its length), throwing on a null buffer |
| Loader.GltFast.GetBufferView | Runtime/Scripts/GltFast.cs:387-394 | the slice of a null buffer throws; otherwise it has the view's length and starts at the view's offset past the buffer region's start; the start is the view's offset past the region's start in 32-bit `int`; every accessor of the view reads from its own offset past that start, as `ReadStart` computes it; a view that fits its region, at a start that fits an `int`, gives a slice inside it |
| Loader.GltFast.CreateTexturesFromBuffers | Runtime/Scripts/GltFast.cs:605-646 | throws exactly the first copy fault. Without one, the scheduled copies are exactly those of the known-type images in buffer views, in image order, and exactly those images get an empty texture awaiting its copy |
| Loader.GltFast.ScheduleImageCopy | Runtime/Scripts/GltFast.cs:610-643 | one image: its copy fault, if any; otherwise its copy is appended and its texture awaits it, exactly when it is of known type in a buffer view |
| Loader.GltFast.PreparePrimitives | Runtime/Scripts/GltFast.cs:670-708 | `meshPrimitiveIndex` is the prefix table; there is one empty slot per primitive; it throws exactly the first primitive fault in slot order; without one, the contexts are those of all primitives, mesh by mesh, in slot order |
| Loader.GltFast.NumberPrimitives | Runtime/Scripts/GltFast.cs:672-678 | the loop fills the prefix table and returns the total primitive count |
| Loader.GltFast.ScheduleContexts | Runtime/Scripts/GltFast.cs:683-706 | throws the fault of the first mesh whose preparation throws; without one, the contexts recorded are those of all primitives, in order |
| Loader.GltFast.ScheduleMeshContexts | Runtime/Scripts/GltFast.cs:686-705 | one mesh: throws the fault of its first primitive whose preparation throws; without one, a Draco or a standard context per primitive, in consecutive slots from the given one, and the next slot is returned |
| Loader.GltFast.Prepare | Runtime/Scripts/GltFast.cs:396-453 | a copy fault aborts with the first copy fault; failing that, a primitive fault aborts with the first primitive fault in slot order. Otherwise the table is the prefix table and every slot holds what its own primitive's context builds; `loadingError` is set exactly when it was set before or some slot stays empty; the contexts are dropped; images in buffer views await their scheduled copies |
| Loader.GltFast.ScheduleImageCopies | Runtime/Scripts/GltFast.cs:402-410 | allocates `images` if null, then schedules the copies, with `CreateTexturesFromBuffers`' outcome |
| Loader.GltFast.PrepareMeshes | Runtime/Scripts/GltFast.cs:414-453 | the table is always the prefix table; it throws exactly the first primitive fault in slot order; otherwise every slot holds what its own primitive's context builds, and `loadingError` is set exactly when it was before or some slot stays empty |
| Loader.GltFast.AssemblePrimitives | Runtime/Scripts/GltFast.cs:439-456 | each context's primitive is stored in the context's slot; a failed build sets `loadingError` and the loop carries on; the contexts are dropped |
| Loader.GltFast.PreparePrimitive | Runtime/Scripts/GltFast.cs:710-820 | throws exactly when some reader throws, with the fault of the first in scheduling order; otherwise the context holds the switch's topology and the jobs of all readers in scheduling order, filling exactly the counted handles |
| Loader.GltFast.CountJobHandles | Runtime/Scripts/GltFast.cs:716-731 | two handles plus one per present optional attribute, so between 2 and 7 |
| Loader.GltFast.PutRequiredJobs | Runtime/Scripts/GltFast.cs:740-782 | the position reader, then the indices (read, or synthesised by the draw-mode switch), fill the first two handles in that order; the first fault among them is returned |
| Loader.GltFast.PutAttributeJobs | Runtime/Scripts/GltFast.cs:784-816 | the optional readers run in the order normals, both UV sets, tangents, colours; the first fault among them is returned; without one they fill the handles after the counter in that order |
| Loader.GltFast.PutOptional | Runtime/Scripts/GltFast.cs:784-789 | a present attribute's reader either throws its fault or fills the next handle with its job and moves the counter; an absent one throws nothing and changes nothing |

## Left out

- `ParseJson` (:108-160) and `GetUriBase` (:68-71) are not modelled. The parser is the constructor parameter `parseJson` and the base URI is a parameter.
- The web requests of `LoadBuffer` and `LoadTexture` (:282-290, :308-316) are not modelled. Each is recorded as its URL in `downloads` or `textureDownloads`.
- The waits and `yield`s of the coroutines, and `WaitForTextureDownloads` (:259-272). The downloaded data is a parameter of `WaitForBufferDownloads`.
- Loading the copied images once their jobs complete (:417-427). `imageCopies` records the scheduled copies.
- Materials (:429-436), the `resources` list, `DisposeBuffers`, `Destroy`, `CreateEmptyTexture` and `Texture2D.LoadImage`. A loaded texture holds the bytes it was given.
- `CreateGameObjects` (:471-603), which is engine code; only the mesh slice it reads (:552-554) is modelled.
- `InstantiateGltf` (:274-280) and the driver in `Runtime/Scripts/GltfAsset.cs`.
- `PreparePrimitiveDraco` (:822-838), which calls a foreign decompressor. A Draco primitive gets a context without jobs, and the exceptions its buffer slice can raise are not modelled.
- The bodies of the conversion jobs and the flipped index order, which are float code not part of this model. Also job scheduling, `CombineDependencies`, pinned handles and native arrays.
- `GetBufferView`'s cache of native arrays, and the bounds check `NativeSlice` makes.
- A copy job that reads past the end of its buffer. Only its first byte is checked, as `fixed` does.
- `ArgumentOutOfRangeException` is folded into `ArgumentException`, of which it is a subclass.
- Loader.GltFast.Prepare requires a document whose accessor, buffer view and buffer indices all resolve (`Schema.Resolves`). `Loader.GltFast.PreparePrimitives` and `Loader.GltFast.CreateTexturesFromBuffers` require the same of what they read (`Primitives.MeshesResolve`, `ImageTypes.CopiesResolve`). The code throws `IndexOutOfRangeException` on a dangling reference; the model does not cover that.
- Loader.GltFast.Prepare requires that an already allocated `images` has at most one entry per image. The code only logs a mismatch.
- Loader.GltFast.CreateTexturesFromBuffers requires an empty copy list, which is what `Prepare` always passes.
- Loader.GltFast.WaitForBufferDownloads, after `IndexOutOfRangeException` from a delivered download past the end of `buffers`, does not describe which entries were stored before it. That depends on the dictionary's order. It keeps the count of entries and leaves the regions untouched.
- Loader.GltFast.DeliverDownloads likewise does not describe the entries stored before such a throw.
- Loader.GltFast.ScheduleContexts appends each context instead of writing it into a preallocated array. The slots are filled in order, so both give the same contents.
- Loader.GltFast.PreparePrimitive takes the slot as a parameter and stores it in the context. The code sets it in the caller.

- Accessors.UvJob gives only the job it selects. What the reader throws while allocating and pinning is `Primitives.ReaderFaultAt`, which `Loader.GltFast.PreparePrimitive` evaluates beside it.
- Accessors.Vector3Job gives only the job it selects. What the reader throws while allocating and pinning is `Primitives.ReaderFaultAt`, which `Loader.GltFast.PreparePrimitive` evaluates beside it.
- Accessors.TangentJob gives only the job it selects. What the reader throws while allocating and pinning is `Primitives.ReaderFaultAt`, which `Loader.GltFast.PreparePrimitive` evaluates beside it.
- Accessors.ColorJob gives only the job it selects. What the reader throws while allocating and pinning is `Primitives.ReaderFaultAt`, which `Loader.GltFast.PreparePrimitive` evaluates beside it.
- Accessors.IndicesJob gives only the job it selects. What the reader throws while allocating and pinning is `Primitives.ReaderFaultAt`, which `Loader.GltFast.PreparePrimitive` evaluates beside it.
- Primitives.CalculateIndices gives only the job. What allocating and pinning its indices throws is `Primitives.IndexFaultOf`.
- Loader.GltFast.LoadBuffer decodes data URIs with the corrected `DataUri.DecodeEmbedBuffer`: on `data:;base6` it records a null entry and an error, where the code throws from `Substring`. The same holds for Loader.GltFast.LoadBuffers and Loader.GltFast.ParseJsonAndLoadBuffers, which call it.
- Loader.GltFast.LoadImage routes images with the corrected decoder: an image whose URI is `data:;base6` is rejected, where the code throws.
- Loader.GltFast.LoadImages and Loader.GltFast.LoadImageList follow the corrected decoder in the same way.
- Loader.GltFast.LoadGltf follows the corrected decoder in the same way, through the buffers and images it loads.
- ImageTypes.LoadImageRoute uses the corrected decoder: `data:;base6` is an embedded image that does not decode, where the code throws.
- Loader.GltFast.ReadChunks walks with the corrected `Glb.ChunkWalk`: a chunk length of 2^31 or more, such as 0xFFFFFFF8, ends the walk past the array, where the code wraps the index around in 32-bit `int` and loops (a length within the header's offset plus 8 of 2^32) or throws from `BitConverter.ToUInt32` (any other such length).
- Loader.GltFast.LoadGlb inherits that from `ReadChunks`.
- Loader.GltFast.Prepare fails only the primitive whose reader selects no job, such as one with 32-bit unsigned positions, where the code throws `InvalidOperationException` from `jh.Value`.
- Loader.GltFast.PreparePrimitive stores a missing job as an empty handle instead of throwing from `jh.Value` (:742), so a primitive with 32-bit unsigned positions gets a context instead of aborting.
- Loader.GltFast.PutRequiredJobs stores a missing position or index job as an empty handle, where the code throws from `jh.Value` (:742).
- Loader.GltFast.PutOptional stores a missing job as an empty handle, where the code throws from `jh.Value`.
- Loader.GltFast.PutAttributeJobs inherits that from `PutOptional`.
- Loader.GltFast.ScheduleMeshContexts inherits that from `PreparePrimitive`: an unreadable primitive gets a context, where the code throws.
- Loader.GltFast.ScheduleContexts inherits that from `ScheduleMeshContexts`.
- Loader.GltFast.PreparePrimitives inherits that from `ScheduleContexts`.
- Loader.GltFast.PrepareMeshes inherits that from `PreparePrimitives`, and fails the unreadable primitive in the assembly loop.
- Loader.GltFast.Prepare, after an exception, leaves whatever copies and contexts were scheduled before it. That partial state is not described.
- ImageTypes.IsKnownImageType: a null string is the empty string, so for an image with neither `uri` nor `mimeType` the code throws `NullReferenceException` in `IsKnownImageFileExtension` (:216, :615), while the model finds the type unknown.
- DotNet.IndexOf counts positions and its window in Unicode scalars, where .NET counts UTF-16 code units, so on text outside the Basic Multilingual Plane the window reaches further than in C#. Strings as UTF-16 code units are not modelled.
- DotNet.Substring counts positions in Unicode scalars in the same way, where .NET counts UTF-16 code units.
- DataUri.DecodeEmbedBuffer searches for the `;` in 1000 Unicode scalars, where C# searches 1000 UTF-16 code units. A URI such as `data:` followed by 999 copies of U+1F600 and `;base64,QQ==` decodes here but is null in C#.
- DataUri.DecodeEmbedBufferNoMediaType states the 1000-character window in Unicode scalars, where C#'s window is 1000 UTF-16 code units.
- DataUri.DecodeEmbedBufferAsWritten counts its window and marker positions in Unicode scalars in the same way.
- DataUri.EmbedRoundTrip promises the round trip for media types shorter than 1000 Unicode scalars; C# refuses one whose UTF-16 length reaches 1000, such as 600 copies of U+1F600.
- DotNet.ToUpperSameIff states ASCII case folding only. .NET `OrdinalIgnoreCase` also equates non-ASCII case pairs such as é and É. The extensions the core compares (:1369-1371) are ASCII, so no result of the loader depends on the difference.
- DotNet.EqualsIgnoreCase folds the ASCII letters only, where .NET `OrdinalIgnoreCase` also folds non-ASCII letters.
- DotNet.StartsWith compares character by character. The C# `StartsWith(string)` at :95 and :203 compares by the current culture, which can differ on text with ignorable or combining characters.
- Schema.IsInterleaved assumes `IsAccessorInterleaved` means a view stride larger than the accessor's tightly packed element. `Runtime/Scripts/Schema/Root.cs` is not part of this model.

## Findings

| source | as written | input that shows it | evidently intended | confidence | as-written member | corrected member |
|---|---|---|---|---|---|---|
| Runtime/Scripts/GltFast.cs:364 | the chunk length is cast to `int` and added in 32-bit arithmetic, so a length of 2^31 or more moves the index backwards | a GLB with magic, version 2 and one chunk of unknown type whose length is 0xFFFFFFF8: the index returns to 12 and the loop never ends | advance by 8 plus the unsigned length, which leaves the array | not executed | Glb.NextHeaderAsWritten, Glb.HangingChunkLoops | Glb.ChunkWalk, Glb.WalkContiguous |
| Runtime/Scripts/GltFast.cs:303 | `Substring(mediaTypeEnd+1, 7)` throws when fewer than 7 characters follow the `;` | `data:;base6` | return null, as for any other rest that is not `base64,` | not executed | DataUri.DecodeEmbedBufferAsWritten, DataUri.ShortMarkerThrows | DataUri.DecodeEmbedBuffer, DataUri.DecodeEmbedBufferNotBase64 |
| Runtime/Scripts/GltFast.cs:742 | every reader's handle is read with `jh.Value`, which throws when the reader selected no job, aborting `Prepare` | a primitive whose positions are 32-bit unsigned integers | fail only that primitive and record `loadingError`, as the assembly loop does for a primitive it cannot build | not executed | Primitives.JobHandlesAsWritten, Primitives.UIntPositionsThrow | Primitives.BuildFailsOnlyUnreadable, Loader.GltFast.Prepare |

=== FILE: accessors.dfy ===
/**
 * The accessor readers `GetUvsJob`, `GetVector3sJob`, `GetTangentsJob`,
 * `GetColorsJob` and `GetIndicesJob`: which conversion job each schedules for
 * an accessor, reading from where, how many elements, with what stride and
 * normalisation, or no job at all. The jobs themselves are not modelled.
 */
module Accessors {
  import opened Wrappers
  import opened DotNet
  import opened Schema

  /** The conversion jobs the readers choose from, named as the `Jobs` classes. */
  datatype JobKind =
    | GetVector2sInterleaved | GetUVsFloat
    | GetUVsUInt8Interleaved | GetUVsUInt8
    | GetUVsUInt16Interleaved | GetUVsUInt16Normalized | GetUVsUInt16
    | GetUVsInt16Interleaved | GetUVsInt8Interleaved
    | GetVector3sInterleaved | GetVector3s
    | GetUInt16PositionsInterleaved | GetUInt16Positions
    | GetVector3FromInt16Interleaved | GetVector3FromSByteInterleaved | GetVector3FromByteInterleaved
    | GetVector4sInterleaved | GetVector4s
    | GetVector4sInt16NormalizedInterleaved | GetVector4sInt8NormalizedInterleaved
    | GetColorsVec3Float | GetColorsVec3UInt8 | GetColorsVec3UInt16 | GetColorsVec4UInt16
    | GetIndicesUInt8 | GetIndicesUInt16 | GetIndicesUInt32

  /** The component type a job decodes, as its name says. */
  function KindComponent(k: JobKind): ComponentType {
    match k
    case GetVector2sInterleaved | GetUVsFloat | GetVector3sInterleaved | GetVector3s
       | GetVector4sInterleaved | GetVector4s | GetColorsVec3Float => Float
    case GetUVsUInt8Interleaved | GetUVsUInt8 | GetVector3FromByteInterleaved
       | GetColorsVec3UInt8 | GetIndicesUInt8 => UnsignedByte
    case GetUVsUInt16Interleaved | GetUVsUInt16Normalized | GetUVsUInt16 | GetUInt16PositionsInterleaved
       | GetUInt16Positions | GetColorsVec3UInt16 | GetColorsVec4UInt16 | GetIndicesUInt16 => UnsignedShort
    case GetUVsInt16Interleaved | GetVector3FromInt16Interleaved | GetVector4sInt16NormalizedInterleaved => Short
    case GetUVsInt8Interleaved | GetVector3FromSByteInterleaved | GetVector4sInt8NormalizedInterleaved => Byte
    case GetIndicesUInt32 => UnsignedInt
  }

  /** Components per element a job reads: 2 for UVs, 3 for vectors and RGB, 4 for tangents and RGBA, 1 for indices. */
  function KindComponents(k: JobKind): nat {
    match k
    case GetVector2sInterleaved | GetUVsFloat | GetUVsUInt8Interleaved | GetUVsUInt8 | GetUVsUInt16Interleaved
       | GetUVsUInt16Normalized | GetUVsUInt16 | GetUVsInt16Interleaved | GetUVsInt8Interleaved => 2
    case GetVector3sInterleaved | GetVector3s | GetUInt16PositionsInterleaved | GetUInt16Positions
       | GetVector3FromInt16Interleaved | GetVector3FromSByteInterleaved | GetVector3FromByteInterleaved
       | GetColorsVec3Float | GetColorsVec3UInt8 | GetColorsVec3UInt16 => 3
    case GetVector4sInterleaved | GetVector4s | GetVector4sInt16NormalizedInterleaved
       | GetVector4sInt8NormalizedInterleaved | GetColorsVec4UInt16 => 4
    case GetIndicesUInt8 | GetIndicesUInt16 | GetIndicesUInt32 => 1
  }

  /** Size in bytes of one tightly packed element of what a job reads. */
  function KindElementSize(k: JobKind): nat {
    KindComponents(k) * ComponentSize(KindComponent(k))
  }

  /** The jobs that step through the input by a `byteStride`. */
  predicate Strided(k: JobKind) {
    k in {GetVector2sInterleaved, GetUVsUInt8Interleaved, GetUVsUInt16Interleaved, GetUVsInt16Interleaved,
          GetUVsInt8Interleaved, GetVector3sInterleaved, GetUInt16PositionsInterleaved,
          GetVector3FromInt16Interleaved, GetVector3FromSByteInterleaved, GetVector3FromByteInterleaved,
          GetVector4sInterleaved, GetVector4sInt16NormalizedInterleaved, GetVector4sInt8NormalizedInterleaved}
  }

  /** The jobs that take the accessor's `normalized` flag as a parameter. */
  predicate TakesNormalize(k: JobKind) {
    k in {GetUVsUInt8Interleaved, GetUVsUInt8, GetUVsUInt16Interleaved, GetUVsInt16Interleaved,
          GetUVsInt8Interleaved, GetUInt16PositionsInterleaved, GetUInt16Positions,
          GetVector3FromInt16Interleaved, GetVector3FromSByteInterleaved, GetVector3FromByteInterleaved}
  }

  /** A scheduled job, with the parameters the reader sets. */
  datatype Job =
    | Convert(kind: JobKind, start: int, count: int, byteStride: Option<int>, normalize: Option<bool>)
    | MemCopy(start: int, size: int)
    | CreateIndicesFlipped(count: int)
    | CreateIndices(count: int, lineLoop: bool)

  /**
   * Where an accessor's data starts in the array holding its buffer: the two
   * offsets and the region start added in unchecked 32-bit `int`, so a sum of
   * 2^31 or more turns negative. Wrapping after each addition is wrapping the
   * whole sum once (`WrapInt32Steps`).
   */
  function ReadStart(acc: Accessor, view: BufferView, chunk: GlbBinChunk): (r: int)
    ensures IsInt32(r)
    ensures IsInt32(acc.byteOffset + view.byteOffset + chunk.start) ==> r == acc.byteOffset + view.byteOffset + chunk.start
  {
    WrapInt32(acc.byteOffset + view.byteOffset + chunk.start)
  }

  /** Slicing the view at its start in the region, then reading at the accessor's offset, is reading at `ReadStart`. */
  lemma ReadStartFromSlice(view: BufferView, chunk: GlbBinChunk)
    ensures forall acc: Accessor ::
      ReadStart(acc, view, chunk) == WrapInt32(WrapInt32(chunk.start + view.byteOffset) + acc.byteOffset)
  {
    forall acc: Accessor
      ensures ReadStart(acc, view, chunk) == WrapInt32(WrapInt32(chunk.start + view.byteOffset) + acc.byteOffset)
    {
      WrapInt32Steps(chunk.start + view.byteOffset, acc.byteOffset);
      assert acc.byteOffset + view.byteOffset + chunk.start == chunk.start + view.byteOffset + acc.byteOffset;
    }
  }

  /** The stride that steps from one element of the accessor to the next. */
  function ElementStride(acc: Accessor, view: BufferView, k: JobKind): int {
    if IsInterleaved(acc, view) then view.byteStride else KindElementSize(k)
  }

  /**
   * A conversion job that fits the accessor: it starts at the accessor's data,
   * converts all its elements, decodes its component type, carries a stride
   * exactly when it is a strided job and its `normalized` flag exactly when it
   * takes one, and a stride steps from one element to the next.
   */
  predicate FitsAccessor(j: Job, acc: Accessor, view: BufferView, chunk: GlbBinChunk) {
    && j.Convert?
    && j.start == ReadStart(acc, view, chunk)
    && j.count == acc.count
    && KindComponent(j.kind) == acc.componentType
    && (j.byteStride.Some? <==> Strided(j.kind))
    && (j.byteStride.Some? ==> j.byteStride.value == ElementStride(acc, view, j.kind))
    && (j.normalize.Some? <==> TakesNormalize(j.kind))
    && (j.normalize.Some? ==> j.normalize.value == acc.normalized)
  }

  /** The component types all vertex attribute readers but the tangent one accept. */
  predicate IsAttributeComponent(t: ComponentType) {
    t in {Float, UnsignedByte, UnsignedShort, Short, Byte}
  }

  function Strides(acc: Accessor, view: BufferView, fallback: int): Option<int> {
    Some(if IsInterleaved(acc, view) then view.byteStride else fallback)
  }

  /** `GetUvsJob`: the texture-coordinate reader. */
  function UvJob(acc: Accessor, view: BufferView, chunk: GlbBinChunk): (r: Option<Job>)
    ensures r.Some? <==> IsAttributeComponent(acc.componentType)
    ensures r.Some? ==> FitsAccessor(r.value, acc, view, chunk) && KindComponents(r.value.kind) == 2
    ensures r.Some? && r.value.byteStride.None? ==> !IsInterleaved(acc, view)
    ensures r.Some? && acc.componentType == UnsignedShort && !IsInterleaved(acc, view) ==>
      (r.value.kind == GetUVsUInt16Normalized <==> acc.normalized)
  {
    var start := ReadStart(acc, view, chunk);
    var interleaved := IsInterleaved(acc, view);
    match acc.componentType
    case Float =>
      if interleaved then Some(Convert(GetVector2sInterleaved, start, acc.count, Some(view.byteStride), None))
      else Some(Convert(GetUVsFloat, start, acc.count, None, None))
    case UnsignedByte =>
      if interleaved then Some(Convert(GetUVsUInt8Interleaved, start, acc.count, Some(view.byteStride), Some(acc.normalized)))
      else Some(Convert(GetUVsUInt8, start, acc.count, None, Some(acc.normalized)))
    case UnsignedShort =>
      if interleaved then Some(Convert(GetUVsUInt16Interleaved, start, acc.count, Some(view.byteStride), Some(acc.normalized)))
      else if acc.normalized then Some(Convert(GetUVsUInt16Normalized, start, acc.count, None, None))
      else Some(Convert(GetUVsUInt16, start, acc.count, None, None))
    case Short => Some(Convert(GetUVsInt16Interleaved, start, acc.count, Strides(acc, view, 4), Some(acc.normalized)))
    case Byte => Some(Convert(GetUVsInt8Interleaved, start, acc.count, Strides(acc, view, 2), Some(acc.normalized)))
    case _ => None
  }

  /** `GetVector3sJob`: the reader of positions and normals. */
  function Vector3Job(acc: Accessor, view: BufferView, chunk: GlbBinChunk): (r: Option<Job>)
    ensures r.Some? <==> IsAttributeComponent(acc.componentType)
    ensures r.Some? ==> FitsAccessor(r.value, acc, view, chunk) && KindComponents(r.value.kind) == 3
    ensures r.Some? && r.value.byteStride.None? ==> !IsInterleaved(acc, view)
  {
    var start := ReadStart(acc, view, chunk);
    if IsInterleaved(acc, view) then
      var stride := Some(view.byteStride);
      match acc.componentType
      case Float => Some(Convert(GetVector3sInterleaved, start, acc.count, stride, None))
      case UnsignedShort => Some(Convert(GetUInt16PositionsInterleaved, start, acc.count, stride, Some(acc.normalized)))
      case Short => Some(Convert(GetVector3FromInt16Interleaved, start, acc.count, stride, Some(acc.normalized)))
      case Byte => Some(Convert(GetVector3FromSByteInterleaved, start, acc.count, stride, Some(acc.normalized)))
      case UnsignedByte => Some(Convert(GetVector3FromByteInterleaved, start, acc.count, stride, Some(acc.normalized)))
      case _ => None
    else
      match acc.componentType
      case Float => Some(Convert(GetVector3s, start, acc.count, None, None))
      case UnsignedShort => Some(Convert(GetUInt16Positions, start, acc.count, None, Some(acc.normalized)))
      case Short => Some(Convert(GetVector3FromInt16Interleaved, start, acc.count, Some(6), Some(acc.normalized)))
      case Byte => Some(Convert(GetVector3FromSByteInterleaved, start, acc.count, Some(3), Some(acc.normalized)))
      case UnsignedByte => Some(Convert(GetVector3FromByteInterleaved, start, acc.count, Some(3), Some(acc.normalized)))
      case _ => None
  }

  /** `GetTangentsJob`: only float, short and byte tangents are read. */
  function TangentJob(acc: Accessor, view: BufferView, chunk: GlbBinChunk): (r: Option<Job>)
    ensures r.Some? <==> acc.componentType in {Float, Short, Byte}
    ensures r.Some? ==> FitsAccessor(r.value, acc, view, chunk) && KindComponents(r.value.kind) == 4
    ensures r.Some? && r.value.byteStride.None? ==> !IsInterleaved(acc, view)
  {
    var start := ReadStart(acc, view, chunk);
    match acc.componentType
    case Float =>
      if IsInterleaved(acc, view) then Some(Convert(GetVector4sInterleaved, start, acc.count, Some(view.byteStride), None))
      else Some(Convert(GetVector4s, start, acc.count, None, None))
    case Short => Some(Convert(GetVector4sInt16NormalizedInterleaved, start, acc.count, Strides(acc, view, 8), None))
    case Byte => Some(Convert(GetVector4sInt8NormalizedInterleaved, start, acc.count, Strides(acc, view, 4), None))
    case _ => None
  }

  /** The colour array `GetColorsJob` allocates, and the job it schedules, if any. */
  datatype ColorRead = ColorRead(colors32: bool, job: Option<Job>)

  /**
   * `GetColorsJob`: byte colours go to a `Color32` array, all others to a
   * `Color` array; only non-interleaved RGB and RGBA of float, unsigned byte or
   * unsigned short are read, RGBA float and byte by a plain copy.
   */
  function ColorJob(acc: Accessor, view: BufferView, chunk: GlbBinChunk): (r: ColorRead)
    ensures r.colors32 <==> acc.componentType == UnsignedByte
    ensures r.job.Some? <==>
      && acc.attributeType in {Vec3, Vec4}
      && acc.componentType in {Float, UnsignedByte, UnsignedShort}
      && !IsInterleaved(acc, view)
    ensures r.job.Some? && r.job.value.Convert? ==>
      FitsAccessor(r.job.value, acc, view, chunk) && KindComponents(r.job.value.kind) == ComponentCount(acc.attributeType)
    ensures r.job.Some? && r.job.value.MemCopy? ==>
      && acc.attributeType == Vec4 && acc.componentType in {Float, UnsignedByte}
      && r.job.value.start == ReadStart(acc, view, chunk)
      && r.job.value.size == WrapInt32(acc.count * ElementSize(acc))
  {
    var start := ReadStart(acc, view, chunk);
    var colors32 := acc.componentType == UnsignedByte;
    if IsInterleaved(acc, view) then ColorRead(colors32, None)
    else if acc.attributeType == Vec3 then
      match acc.componentType
      case Float => ColorRead(colors32, Some(Convert(GetColorsVec3Float, start, acc.count, None, None)))
      case UnsignedByte => ColorRead(colors32, Some(Convert(GetColorsVec3UInt8, start, acc.count, None, None)))
      case UnsignedShort => ColorRead(colors32, Some(Convert(GetColorsVec3UInt16, start, acc.count, None, None)))
      case _ => ColorRead(colors32, None)
    else if acc.attributeType == Vec4 then
      match acc.componentType
      case Float => ColorRead(colors32, Some(MemCopy(start, WrapInt32(acc.count * 16))))
      case UnsignedByte => ColorRead(colors32, Some(MemCopy(start, WrapInt32(acc.count * 4))))
      case UnsignedShort => ColorRead(colors32, Some(Convert(GetColorsVec4UInt16, start, acc.count, None, None)))
      case _ => ColorRead(colors32, None)
    else ColorRead(colors32, None)
  }

  /** `GetIndicesJob`: unsigned byte, short and int indices, read without a stride. */
  function IndicesJob(acc: Accessor, view: BufferView, chunk: GlbBinChunk): (r: Option<Job>)
    ensures r.Some? <==> acc.componentType in {UnsignedByte, UnsignedShort, UnsignedInt}
    ensures r.Some? ==> FitsAccessor(r.value, acc, view, chunk) && KindComponents(r.value.kind) == 1
  {
    var start := ReadStart(acc, view, chunk);
    match acc.componentType
    case UnsignedByte => Some(Convert(GetIndicesUInt8, start, acc.count, None, None))
    case UnsignedShort => Some(Convert(GetIndicesUInt16, start, acc.count, None, None))
    case UnsignedInt => Some(Convert(GetIndicesUInt32, start, acc.count, None, None))
    case _ => None
  }

  /**
   * For an accessor of the element type a reader expects, a stride a job steps
   * by is the accessor's own element stride: the view's stride when interleaved,
   * otherwise the tightly packed element size.
   */
  lemma {:induction false} StrideIsElementStride(acc: Accessor, view: BufferView, chunk: GlbBinChunk)
    ensures acc.attributeType == Vec2 && UvJob(acc, view, chunk).Some? ==>
      var j := UvJob(acc, view, chunk).value;
      j.byteStride.Some? ==> j.byteStride.value == (if IsInterleaved(acc, view) then view.byteStride else ElementSize(acc))
    ensures acc.attributeType == Vec3 && Vector3Job(acc, view, chunk).Some? ==>
      var j := Vector3Job(acc, view, chunk).value;
      j.byteStride.Some? ==> j.byteStride.value == (if IsInterleaved(acc, view) then view.byteStride else ElementSize(acc))
    ensures acc.attributeType == Vec4 && TangentJob(acc, view, chunk).Some? ==>
      var j := TangentJob(acc, view, chunk).value;
      j.byteStride.Some? ==> j.byteStride.value == (if IsInterleaved(acc, view) then view.byteStride else ElementSize(acc))
  {
    if UvJob(acc, view, chunk).Some? {
      assert KindElementSize(UvJob(acc, view, chunk).value.kind) == 2 * ComponentSize(acc.componentType);
    }
    if Vector3Job(acc, view, chunk).Some? {
      assert KindElementSize(Vector3Job(acc, view, chunk).value.kind) == 3 * ComponentSize(acc.componentType);
    }
    if TangentJob(acc, view, chunk).Some? {
      assert KindElementSize(TangentJob(acc, view, chunk).value.kind) == 4 * ComponentSize(acc.componentType);
    }
  }
}

=== FILE: datauri.dfy ===
/**
 * `DecodeEmbedBuffer`: the `data:<media type>;base64,<payload>` URIs of
 * section 3 of RFC 2397 that embed a buffer or an image in the JSON.
 * Base64 decoding (`Convert.FromBase64String`) is a parameter; None stands for
 * the `FormatException` it throws on text that is not base64.
 */
module DataUri {
  import opened Wrappers
  import opened DotNet

  /** Length of the `data:` scheme prefix, skipped without being looked at. */
  const SchemePrefixLength: int := 5
  /** How many characters after the prefix are searched for the `;` that ends the media type. */
  const MediaTypeSearchLimit: int := 1000
  const Base64Marker: string := "base64,"

  /** The outcome of one call: the returned array (null or not), the `mimeType` out value, or an exception. */
  datatype EmbedResult =
    | NoMediaType                           // null; no `;` in the searched window
    | NotBase64(mimeType: string)           // null; the `;` is not followed by `base64,`
    | Decoded(mimeType: string, data: Bytes)
    | Thrown(error: Exception)

  function Min(a: int, b: int): int { if a < b then a else b }

  /** The searched window holds no `;`. */
  predicate NoSeparator(uri: string) {
    forall k :: SchemePrefixLength <= k < SchemePrefixLength + Min(|uri| - SchemePrefixLength, MediaTypeSearchLimit) ==>
      uri[k] != ';'
  }

  /**
   * The code as written: the 7-character `Substring` after the `;` throws when
   * fewer than 7 characters remain (see the findings in the README).
   */
  function DecodeEmbedBufferAsWritten(uri: string, fromBase64: string -> Option<Bytes>): (r: EmbedResult)
    ensures r == Thrown(ArgumentException) <== |uri| < SchemePrefixLength
  {
    match IndexOf(uri, ';', SchemePrefixLength, Min(|uri| - SchemePrefixLength, MediaTypeSearchLimit))
    case Failure(e) => Thrown(e)
    case Success(mediaTypeEnd) =>
      if mediaTypeEnd < 0 then NoMediaType
      else
        var mimeType := uri[SchemePrefixLength..mediaTypeEnd];
        match Substring(uri, mediaTypeEnd + 1, |Base64Marker|)
        case Failure(e) => Thrown(e)
        case Success(marker) =>
          if marker != Base64Marker then NotBase64(mimeType)
          else match fromBase64(uri[mediaTypeEnd + 1 + |Base64Marker|..])
            case None => Thrown(FormatException)
            case Some(data) => Decoded(mimeType, data)
  }

  /**
   * `DecodeEmbedBuffer` as the rest of the model uses it: identical to the code
   * except that a URI too short to hold `base64,` after the `;` returns null.
   */
  function DecodeEmbedBuffer(uri: string, fromBase64: string -> Option<Bytes>): (r: EmbedResult)
    ensures r == Thrown(ArgumentException) <==> |uri| < SchemePrefixLength
    ensures r.Thrown? && |uri| >= SchemePrefixLength ==> r.error == FormatException
    ensures r.Decoded? || r.NotBase64? ==>
      ';' !in r.mimeType && |r.mimeType| < MediaTypeSearchLimit
  {
    if |uri| < SchemePrefixLength then Thrown(ArgumentException)
    else
      var window := Min(|uri| - SchemePrefixLength, MediaTypeSearchLimit);
      var mediaTypeEnd := FirstFrom(uri, ';', SchemePrefixLength, SchemePrefixLength + window);
      if mediaTypeEnd < 0 then NoMediaType
      else
        var mimeType := uri[SchemePrefixLength..mediaTypeEnd];
        assert ';' !in mimeType by {
          forall k | 0 <= k < |mimeType| ensures mimeType[k] != ';' {
            assert mimeType[k] == uri[SchemePrefixLength + k];
          }
        }
        var rest := uri[mediaTypeEnd + 1..];
        if !StartsWith(rest, Base64Marker) then NotBase64(mimeType)
        else
          match fromBase64(rest[|Base64Marker|..])
          case None => Thrown(FormatException)
          case Some(data) => Decoded(mimeType, data)
  }

  /** The result is null for want of a media type exactly when the searched window holds no `;`. */
  lemma DecodeEmbedBufferNoMediaType(uri: string, fromBase64: string -> Option<Bytes>)
    ensures DecodeEmbedBuffer(uri, fromBase64).NoMediaType? <==> |uri| >= SchemePrefixLength && NoSeparator(uri)
  {
    if |uri| >= SchemePrefixLength {
      var window := Min(|uri| - SchemePrefixLength, MediaTypeSearchLimit);
      var mediaTypeEnd := FirstFrom(uri, ';', SchemePrefixLength, SchemePrefixLength + window);
      if mediaTypeEnd >= 0 {
        assert uri[mediaTypeEnd] == ';';
      }
    }
  }

  /** A null result after the media type: the URI is `data:`, the media type, `;`, and a rest not starting with `base64,`. */
  lemma DecodeEmbedBufferNotBase64(uri: string, fromBase64: string -> Option<Bytes>)
    requires DecodeEmbedBuffer(uri, fromBase64).NotBase64?
    ensures var r := DecodeEmbedBuffer(uri, fromBase64);
      exists rest :: uri == uri[..SchemePrefixLength] + r.mimeType + ";" + rest && !StartsWith(rest, Base64Marker)
  {
    var window := Min(|uri| - SchemePrefixLength, MediaTypeSearchLimit);
    var mediaTypeEnd := FirstFrom(uri, ';', SchemePrefixLength, SchemePrefixLength + window);
    var rest := uri[mediaTypeEnd + 1..];
    assert uri == uri[..SchemePrefixLength] + uri[SchemePrefixLength..mediaTypeEnd] + ";" + rest;
  }

  /** Decoded bytes: the URI is `data:`, the media type, `;base64,` and a payload whose base64 decoding they are. */
  lemma DecodeEmbedBufferDecoded(uri: string, fromBase64: string -> Option<Bytes>)
    requires DecodeEmbedBuffer(uri, fromBase64).Decoded?
    ensures var r := DecodeEmbedBuffer(uri, fromBase64);
      exists payload :: uri == uri[..SchemePrefixLength] + r.mimeType + ";" + Base64Marker + payload &&
        fromBase64(payload) == Some(r.data)
  {
    var window := Min(|uri| - SchemePrefixLength, MediaTypeSearchLimit);
    var mediaTypeEnd := FirstFrom(uri, ';', SchemePrefixLength, SchemePrefixLength + window);
    var rest := uri[mediaTypeEnd + 1..];
    var payload := rest[|Base64Marker|..];
    assert rest == Base64Marker + payload;
    assert uri == uri[..SchemePrefixLength] + uri[SchemePrefixLength..mediaTypeEnd] + ";" + Base64Marker + payload;
  }

  /** An embedded buffer written as RFC 2397 prescribes decodes to its media type and payload. */
  lemma {:induction false} EmbedRoundTrip(mimeType: string, payload: string, data: Bytes, fromBase64: string -> Option<Bytes>)
    requires ';' !in mimeType && |mimeType| < MediaTypeSearchLimit
    requires fromBase64(payload) == Some(data)
    ensures DecodeEmbedBuffer("data:" + mimeType + ";" + Base64Marker + payload, fromBase64) == Decoded(mimeType, data)
  {
    var uri := "data:" + mimeType + ";" + Base64Marker + payload;
    var e := SchemePrefixLength + |mimeType|;
    assert uri[e] == ';';
    forall k | SchemePrefixLength <= k < e ensures uri[k] != ';' {
      assert uri[k] == mimeType[k - SchemePrefixLength];
    }
    assert IndexOf(uri, ';', SchemePrefixLength, Min(|uri| - SchemePrefixLength, MediaTypeSearchLimit)) == Success(e);
    assert uri[SchemePrefixLength..e] == mimeType;
    assert uri[e + 1..] == Base64Marker + payload;
    assert (Base64Marker + payload)[|Base64Marker|..] == payload;
  }

  /** The two versions differ only where the code as written throws on a short marker. */
  lemma AsWrittenDiffersOnlyOnShortMarker(uri: string, fromBase64: string -> Option<Bytes>)
    ensures DecodeEmbedBufferAsWritten(uri, fromBase64) != DecodeEmbedBuffer(uri, fromBase64) ==>
      && |uri| >= SchemePrefixLength
      && DecodeEmbedBufferAsWritten(uri, fromBase64) == Thrown(ArgumentException)
      && DecodeEmbedBuffer(uri, fromBase64).NotBase64?
  {
  }

  /** The input that shows it: `data:;base6` throws instead of returning null. */
  lemma ShortMarkerThrows(fromBase64: string -> Option<Bytes>)
    ensures DecodeEmbedBufferAsWritten("data:;base6", fromBase64) == Thrown(ArgumentException)
    ensures DecodeEmbedBuffer("data:;base6", fromBase64) == NotBase64("")
  {
    var uri := "data:;base6";
    assert uri[5] == ';';
    assert IndexOf(uri, ';', 5, 6) == Success(5);
    assert !StartsWith(uri[6..], Base64Marker);
  }
}

=== FILE: dotnet.dfy ===
/**
 * The pieces of the .NET base library that the loader relies on, written out:
 * byte arrays, `BitConverter.ToUInt32`, the unchecked `(int)` cast of a `uint`,
 * 32-bit wrap-around of `int` addition, and the string operations
 * `StartsWith`, `IndexOf(char, int, int)`, `Substring` and
 * `EndsWith(…, StringComparison.OrdinalIgnoreCase)`.
 *
 * A string is a sequence of `char`s, each a Unicode scalar value, so lengths
 * and positions count scalars where .NET counts UTF-16 code units; the two
 * agree on text inside the Basic Multilingual Plane. Ignoring case folds the
 * ASCII letters only.
 */
module DotNet {
  import opened Wrappers

  type uint8 = x: int | 0 <= x < 0x100
  type Bytes = seq<uint8>

  /** The exceptions the modelled code can raise. */
  datatype Exception =
    | ArgumentException          // BitConverter, Substring, IndexOf and GetString given a range outside the array or string
    | NullReferenceException     // a member access through a null array
    | IndexOutOfRangeException   // an array index outside the array
    | InvalidOperationException  // `Value` of a nullable that holds no value
    | FormatException            // Convert.FromBase64String given text that is not base64
    | ArgumentNullException      // a `NativeArray` made from a null array
    | OverflowException          // an array allocated with a negative length

  const TwoTo31: int := 0x8000_0000
  const TwoTo32: int := 0x1_0000_0000

  predicate IsUInt32(x: int) { 0 <= x < TwoTo32 }
  predicate IsInt32(x: int) { -TwoTo31 <= x < TwoTo31 }

  /** 256 to the power `n`: one more than the largest number `n` bytes hold. */
  function ByteRange(n: nat): (r: nat)
    ensures r >= 1
  {
    if n == 0 then 1 else 0x100 * ByteRange(n - 1)
  }

  /** The number whose little-endian bytes are `s`, least significant first. */
  function LittleEndian(s: Bytes): (r: nat)
    ensures r < ByteRange(|s|)
  {
    if s == [] then 0 else s[0] + 0x100 * LittleEndian(s[1..])
  }

  /** `BitConverter.ToUInt32(bytes, index)` on a little-endian machine; None when it throws. */
  function UInt32At(bytes: Bytes, index: int): (r: Option<int>)
    ensures r.Some? <==> 0 <= index && index + 4 <= |bytes|
    ensures r.Some? ==> IsUInt32(r.value)
  {
    if 0 <= index && index + 4 <= |bytes| then
      assert ByteRange(4) == TwoTo32;
      Some(LittleEndian(bytes[index..index + 4]))
    else
      None
  }

  /** The four little-endian bytes of a `uint`, as `BitConverter.GetBytes` writes them. */
  function UInt32Bytes(x: int): (r: Bytes)
    requires IsUInt32(x)
    ensures |r| == 4
  {
    var q1 := x / 0x100;
    var q2 := q1 / 0x100;
    var q3 := q2 / 0x100;
    [x % 0x100, q1 % 0x100, q2 % 0x100, q3]
  }

  /** Four bytes laid out as `UInt32Bytes(x)` read back as `x`. */
  lemma UInt32AtEncoded(bytes: Bytes, index: int, x: int)
    requires IsUInt32(x) && 0 <= index && index + 4 <= |bytes|
    requires bytes[index..index + 4] == UInt32Bytes(x)
    ensures UInt32At(bytes, index) == Some(x)
  {
    var e := UInt32Bytes(x);
    var q1 := x / 0x100;
    var q2 := q1 / 0x100;
    var q3 := q2 / 0x100;
    assert x == x % 0x100 + 0x100 * q1;
    assert q1 == q1 % 0x100 + 0x100 * q2;
    assert q2 == q2 % 0x100 + 0x100 * q3;
    assert LittleEndian(e[3..]) == q3 by {
      assert e[3..][1..] == [];
    }
    assert LittleEndian(e[2..]) == q2 by {
      assert e[2..][1..] == e[3..];
    }
    assert LittleEndian(e[1..]) == q1 by {
      assert e[1..][1..] == e[2..];
    }
    assert LittleEndian(e) == x;
  }

  /** Reading back the bytes of a `uint`, wherever they sit in an array, yields the `uint`. */
  lemma UInt32RoundTrip(prefix: Bytes, x: int, suffix: Bytes)
    requires IsUInt32(x)
    ensures UInt32At(prefix + UInt32Bytes(x) + suffix, |prefix|) == Some(x)
  {
    var s := prefix + UInt32Bytes(x) + suffix;
    assert s[|prefix|..|prefix| + 4] == UInt32Bytes(x);
    UInt32AtEncoded(s, |prefix|, x);
  }

  /** The unchecked C# cast `(int)u` of a `uint`: values of 2^31 and above turn negative. */
  function ToInt32(u: int): (r: int)
    requires IsUInt32(u)
    ensures IsInt32(r)
    ensures r == u || r == u - TwoTo32
  {
    if u < TwoTo31 then u else u - TwoTo32
  }

  /** Unchecked C# `int` arithmetic: the mathematical result taken modulo 2^32 into the `int` range. */
  function WrapInt32(x: int): (r: int)
    ensures IsInt32(r)
    ensures (r - x) % TwoTo32 == 0
    ensures IsInt32(x) ==> r == x
  {
    (x + TwoTo31) % TwoTo32 - TwoTo31
  }

  /** Wrapping after each addition of a sum gives what wrapping the whole sum once gives. */
  lemma WrapInt32Steps(x: int, y: int)
    ensures WrapInt32(WrapInt32(x) + y) == WrapInt32(x + y)
  {
    var a, b := WrapInt32(WrapInt32(x) + y), WrapInt32(x + y);
    assert (a - b) % TwoTo32 == 0 by {
      assert a - b == (a - (WrapInt32(x) + y)) + (WrapInt32(x) - x) + ((x + y) - b);
    }
    assert -TwoTo32 < a - b < TwoTo32;
  }

  /**
   * `s.StartsWith(prefix)`, compared character by character. The .NET call
   * with one string argument compares by the current culture; on the
   * prefixes the loader passes (`data:`, `base64,`) the two agree for text
   * without ignorable or combining characters.
   */
  predicate StartsWith(s: string, prefix: string) {
    |prefix| <= |s| && s[..|prefix|] == prefix
  }

  /**
   * `s.IndexOf(c, start, count)`: the first position in `[start, start + count)` holding `c`,
   * or -1; it throws when the window does not lie inside `s`. Positions and
   * the window count Unicode scalars, not UTF-16 code units.
   */
  function IndexOf(s: string, c: char, start: int, count: int): (r: Result<int, Exception>)
    ensures r.Failure? <==> start < 0 || count < 0 || start + count > |s|
    ensures r.Success? && r.value >= 0 ==>
      start <= r.value < start + count && s[r.value] == c &&
      forall k :: start <= k < r.value ==> s[k] != c
    ensures r.Success? && r.value < 0 ==>
      r.value == -1 && forall k :: start <= k < start + count ==> s[k] != c
  {
    if start < 0 || count < 0 || start + count > |s| then Failure(ArgumentException)
    else Success(FirstFrom(s, c, start, start + count))
  }

  /** The first index in `[i, end)` holding `c`, or -1. */
  function FirstFrom(s: string, c: char, i: int, end: int): (r: int)
    requires 0 <= i <= end <= |s|
    ensures r == -1 || i <= r < end
    ensures r >= 0 ==> s[r] == c && forall k :: i <= k < r ==> s[k] != c
    ensures r == -1 ==> forall k :: i <= k < end ==> s[k] != c
    decreases end - i
  {
    if i == end then -1
    else if s[i] == c then i
    else FirstFrom(s, c, i + 1, end)
  }

  /** `s.Substring(start, length)`; it throws when the range does not lie inside `s`. */
  function Substring(s: string, start: int, length: int): (r: Result<string, Exception>)
    ensures r.Success? <==> 0 <= start && 0 <= length && start + length <= |s|
    ensures r.Success? ==> |r.value| == length && forall k :: 0 <= k < length ==> r.value[k] == s[start + k]
  {
    if 0 <= start && 0 <= length && start + length <= |s| then Success(s[start..start + length])
    else Failure(ArgumentException)
  }

  /** The upper-case form `OrdinalIgnoreCase` compares, folding the ASCII letters only. */
  function ToUpper(c: char): (r: char)
    ensures 'a' <= c <= 'z' ==> r as int == c as int - 32
    ensures !('a' <= c <= 'z') ==> r == c
  {
    if 'a' <= c <= 'z' then (c as int - 32) as char else c
  }

  /** Folding a folded character changes nothing, and nothing folds to a lower-case ASCII letter. */
  lemma ToUpperFolds(c: char)
    ensures ToUpper(ToUpper(c)) == ToUpper(c)
    ensures !('a' <= ToUpper(c) <= 'z')
  {
  }

  predicate IsAsciiLetter(c: char) {
    'a' <= c <= 'z' || 'A' <= c <= 'Z'
  }

  /** The place of an ASCII letter in the alphabet, whatever its case. */
  function LetterIndex(c: char): (r: int)
    requires IsAsciiLetter(c)
    ensures 0 <= r < 26
  {
    if 'a' <= c <= 'z' then c as int - 'a' as int else c as int - 'A' as int
  }

  /**
   * Two characters fold to the same one exactly when they are the same
   * character, or the same letter of the alphabet in either case.
   */
  lemma ToUpperSameIff(a: char, b: char)
    ensures ToUpper(a) == ToUpper(b) <==>
      a == b || (IsAsciiLetter(a) && IsAsciiLetter(b) && LetterIndex(a) == LetterIndex(b))
  {
  }

  /** `string.Equals(a, b, StringComparison.OrdinalIgnoreCase)` with ASCII case folding only. */
  predicate EqualsIgnoreCase(a: string, b: string) {
    |a| == |b| && forall k :: 0 <= k < |a| ==> ToUpper(a[k]) == ToUpper(b[k])
  }

  /** `s.EndsWith(suffix, StringComparison.OrdinalIgnoreCase)` with ASCII case folding only. */
  predicate EndsWithIgnoreCase(s: string, suffix: string) {
    |suffix| <= |s| && EqualsIgnoreCase(s[|s| - |suffix|..], suffix)
  }

  /**
   * Allocating `new T[length]` and then, when `pinned`, pinning
   * `&(source[start])` and the new array's `&(result[0])` in one `fixed`
   * statement: a negative length overflows before anything is pinned, the
   * source element cannot be taken in a null array or outside it, and the
   * result's first element does not exist when the array is empty.
   */
  function AllocateAndPinFault(length: int, pinned: bool, source: Option<Bytes>, start: int): (r: Option<Exception>)
    ensures r.None? <==> length >= 0 && (pinned ==> length > 0 && source.Some? && 0 <= start < |source.value|)
    ensures length < 0 ==> r == Some(OverflowException)
    ensures r.Some? && length >= 0 ==> pinned && r.value in {NullReferenceException, IndexOutOfRangeException}
    ensures pinned && length >= 0 && source.None? ==> r == Some(NullReferenceException)
  {
    if length < 0 then Some(OverflowException)
    else if !pinned then None
    else if source.None? then Some(NullReferenceException)
    else if !(0 <= start < |source.value|) then Some(IndexOutOfRangeException)
    else if length == 0 then Some(IndexOutOfRangeException)
    else None
  }
}

=== FILE: extensions.dfy ===
/** The extension gate: `extensionsRequired` and `extensionsUsed` against a fixed allow-list. */
module Extensions {
  import opened Wrappers

  /** The process-wide allow-list `supportedExtensions`. */
  const SupportedExtensions: set<string> := {
    "KHR_draco_mesh_compression",
    "KHR_materials_pbrSpecularGlossiness",
    "KHR_materials_unlit",
    "KHR_texture_transform",
    "KHR_mesh_quantization"
  }

  /** What the check logs: an error for the required extension it stops at, a warning per unsupported used one. */
  datatype Diagnostic = RequiredNotSupported(name: string) | UsedNotSupported(name: string)

  datatype ExtensionReport = ExtensionReport(supported: bool, log: seq<Diagnostic>)

  /** Position of the first name outside the allow-list, where the scan of `extensionsRequired` returns. */
  function FirstUnsupported(names: seq<string>): (r: Option<nat>)
    ensures r.None? <==> forall k :: 0 <= k < |names| ==> names[k] in SupportedExtensions
    ensures r.Some? ==>
      && r.value < |names|
      && names[r.value] !in SupportedExtensions
      && forall k :: 0 <= k < r.value ==> names[k] in SupportedExtensions
  {
    if names == [] then None
    else if names[0] !in SupportedExtensions then Some(0)
    else match FirstUnsupported(names[1..])
      case None => None
      case Some(k) => Some(k + 1)
  }

  /** The names outside the allow-list, in order, one warning each. */
  function UnsupportedAmong(names: seq<string>): (r: seq<string>)
    ensures forall x :: x in r <==> x in names && x !in SupportedExtensions
    ensures |r| <= |names|
  {
    if names == [] then []
    else (if names[0] in SupportedExtensions then [] else [names[0]]) + UnsupportedAmong(names[1..])
  }

  function Warnings(names: seq<string>): (r: seq<Diagnostic>)
    ensures |r| == |names|
    ensures forall k :: 0 <= k < |r| ==> r[k] == UsedNotSupported(names[k])
  {
    seq(|names|, k requires 0 <= k < |names| => UsedNotSupported(names[k]))
  }

  /**
   * `CheckExtensionSupport`: fails exactly when some required extension is not
   * on the allow-list; the used list only ever adds warnings.
   */
  function CheckExtensionSupport(required: seq<string>, used: seq<string>): (r: ExtensionReport)
    ensures r.supported <==> forall k :: 0 <= k < |required| ==> required[k] in SupportedExtensions
    ensures !r.supported ==>
      |r.log| == 1 && r.log[0].RequiredNotSupported? && r.log[0].name in required &&
      r.log[0].name !in SupportedExtensions
    ensures !r.supported ==>
      exists k :: 0 <= k < |required| && r.log[0].name == required[k] && required[k] !in SupportedExtensions &&
        forall j :: 0 <= j < k ==> required[j] in SupportedExtensions
    ensures r.supported ==>
      forall x :: UsedNotSupported(x) in r.log <==> x in used && x !in SupportedExtensions
    ensures r.supported ==> forall d :: d in r.log ==> d.UsedNotSupported?
  {
    match FirstUnsupported(required)
    case Some(k) => ExtensionReport(false, [RequiredNotSupported(required[k])])
    case None =>
      var log := Warnings(UnsupportedAmong(used));
      assert forall x :: UsedNotSupported(x) in log <==> x in UnsupportedAmong(used) by {
        forall x ensures UsedNotSupported(x) in log <==> x in UnsupportedAmong(used) {
          if x in UnsupportedAmong(used) {
            var k :| 0 <= k < |UnsupportedAmong(used)| && UnsupportedAmong(used)[k] == x;
            assert log[k] == UsedNotSupported(x);
          }
        }
      }
      ExtensionReport(true, log)
  }
}

=== FILE: glb.dfy ===
/**
 * The binary container of section 4.4 of the glTF 2.0 specification ("GLB File
 * Format Specification"): a 12-byte header (magic, version, total length)
 * followed by chunks, each an 8-byte header (length, type) and its body.
 * `ChunkWalk` is the sequence of chunk headers `LoadGlb` visits from offset 12.
 */
module Glb {
  import opened Wrappers
  import opened DotNet
  import opened Schema

  const GlbMagic: int := 0x46546C67
  const GlbVersion: int := 2
  /** Offset of the first chunk header. */
  const FirstChunk: int := 12
  const ChunkHeaderLength: int := 8
  /** Chunk type `JSON`. */
  const ChunkJson: int := 0x4E4F534A
  /** Chunk type `BIN\0`. */
  const ChunkBin: int := 0x004E4942

  /** One chunk as the walk meets it: where its body starts, its declared length and its type. */
  datatype Chunk = Chunk(start: int, length: int, chunkType: int)

  /**
   * The chunks met from some offset on, where the walk stopped, and whether it
   * stopped because fewer than 8 bytes were left for a chunk header (the read
   * that throws in `LoadGlb`) rather than by reaching the end of the array.
   */
  datatype Walk = Walk(chunks: seq<Chunk>, truncated: bool, end: int)

  /** The offset of the chunk header after a chunk whose header is at `index`. */
  function NextHeader(index: int, chunkLength: int): (r: int)
    requires IsUInt32(chunkLength)
    ensures r >= index + ChunkHeaderLength
  {
    index + ChunkHeaderLength + chunkLength
  }

  /**
   * The walk from the chunk header at `index`: each header is read where the
   * previous chunk's body ends, until the end of the array is reached or passed.
   */
  function ChunkWalk(bytes: Bytes, index: int): (w: Walk)
    requires index >= 0
    ensures w.end >= index
    ensures w.truncated <==> w.end < |bytes|
    ensures w.truncated ==> w.end + ChunkHeaderLength > |bytes|
    ensures w.chunks != [] ==> w.chunks[0].start == index + ChunkHeaderLength
    ensures w.chunks == [] ==> w.end == index
    ensures w.chunks != [] ==> w.end == w.chunks[|w.chunks| - 1].start + w.chunks[|w.chunks| - 1].length
    decreases |bytes| - index
  {
    if index >= |bytes| then Walk([], false, index)
    else match (UInt32At(bytes, index), UInt32At(bytes, index + 4))
      case (Some(length), Some(chunkType)) =>
        var rest := ChunkWalk(bytes, NextHeader(index, length));
        Walk([Chunk(index + ChunkHeaderLength, length, chunkType)] + rest.chunks, rest.truncated, rest.end)
      case _ => Walk([], true, index)
  }

  /** The 8 bytes before the body of `c` hold its length and type. */
  predicate HeaderBefore(bytes: Bytes, c: Chunk) {
    && c.start <= |bytes|
    && UInt32At(bytes, c.start - ChunkHeaderLength) == Some(c.length)
    && UInt32At(bytes, c.start - 4) == Some(c.chunkType)
  }

  /** Every chunk the walk meets has its header in the 8 bytes before its body. */
  lemma {:induction false} WalkReadsHeaders(bytes: Bytes, index: int)
    requires index >= 0
    ensures forall c :: c in ChunkWalk(bytes, index).chunks ==> HeaderBefore(bytes, c)
    decreases |bytes| - index
  {
    if index < |bytes| && UInt32At(bytes, index).Some? && UInt32At(bytes, index + 4).Some? {
      var length := UInt32At(bytes, index).value;
      var next := NextHeader(index, length);
      WalkReadsHeaders(bytes, next);
      var first := Chunk(index + ChunkHeaderLength, length, UInt32At(bytes, index + 4).value);
      assert ChunkWalk(bytes, index).chunks == [first] + ChunkWalk(bytes, next).chunks;
      assert HeaderBefore(bytes, first);
    }
  }

  /** Each chunk header follows right after the previous chunk's body. */
  predicate Contiguous(chunks: seq<Chunk>) {
    forall k :: 0 <= k < |chunks| - 1 ==>
      chunks[k + 1].start == chunks[k].start + chunks[k].length + ChunkHeaderLength
  }

  /** The walk advances by 8 plus the chunk length from one chunk to the next. */
  lemma {:induction false} WalkContiguous(bytes: Bytes, index: int)
    requires index >= 0
    ensures Contiguous(ChunkWalk(bytes, index).chunks)
    decreases |bytes| - index
  {
    if index < |bytes| && UInt32At(bytes, index).Some? && UInt32At(bytes, index + 4).Some? {
      var length := UInt32At(bytes, index).value;
      var next := NextHeader(index, length);
      WalkContiguous(bytes, next);
      var first := Chunk(index + ChunkHeaderLength, length, UInt32At(bytes, index + 4).value);
      var rest := ChunkWalk(bytes, next).chunks;
      var w := [first] + rest;
      assert ChunkWalk(bytes, index).chunks == w;
      forall k | 0 <= k < |w| - 1
        ensures w[k + 1].start == w[k].start + w[k].length + ChunkHeaderLength
      {
        if k > 0 {
          assert w[k] == rest[k - 1] && w[k + 1] == rest[k];
        }
      }
    }
  }

  /** The buffer region a BIN chunk stands for: its body, inside the GLB array. */
  function BinRegion(c: Chunk): GlbBinChunk { GlbBinChunk(c.start, c.length) }

  /**
   * The last chunk of a type, if any. Each BIN chunk overwrites `glbBinChunk`
   * and each JSON chunk re-parses the document (the "only one" assertions only
   * log), so the last one of each type wins.
   */
  function LastOfType(chunks: seq<Chunk>, chunkType: int): (r: Option<Chunk>)
    ensures r.None? <==> forall k :: 0 <= k < |chunks| ==> chunks[k].chunkType != chunkType
    ensures r.Some? ==>
      exists k :: 0 <= k < |chunks| && chunks[k] == r.value && r.value.chunkType == chunkType &&
        forall j :: k < j < |chunks| ==> chunks[j].chunkType != chunkType
  {
    if chunks == [] then None
    else if chunks[|chunks| - 1].chunkType == chunkType then Some(chunks[|chunks| - 1])
    else LastOfType(chunks[..|chunks| - 1], chunkType)
  }

  /**
   * A document with exactly one chunk of a type, as section 4.4 of the glTF 2.0
   * specification prescribes for JSON and BIN, gets that chunk.
   */
  lemma {:induction false} SingleOfType(chunks: seq<Chunk>, chunkType: int, k: nat)
    requires k < |chunks| && chunks[k].chunkType == chunkType
    requires forall j :: 0 <= j < |chunks| && j != k ==> chunks[j].chunkType != chunkType
    ensures LastOfType(chunks, chunkType) == Some(chunks[k])
  {
    var r := LastOfType(chunks, chunkType);
    assert r.Some?;
    var i :| 0 <= i < |chunks| && chunks[i] == r.value && r.value.chunkType == chunkType &&
      forall j :: i < j < |chunks| ==> chunks[j].chunkType != chunkType;
    assert i == k;
  }

  /** Appending a chunk: it becomes the last of its type, and the others keep theirs. */
  lemma LastOfTypeAppend(chunks: seq<Chunk>, c: Chunk, chunkType: int)
    ensures LastOfType(chunks + [c], chunkType) ==
      if c.chunkType == chunkType then Some(c) else LastOfType(chunks, chunkType)
  {
    assert (chunks + [c])[..|chunks|] == chunks;
  }

  // --- Writing a GLB, to state what the walk recovers ---

  /** The content of one chunk: its type and its body. */
  datatype ChunkData = ChunkData(chunkType: int, body: Bytes)

  predicate ValidChunk(c: ChunkData) {
    IsUInt32(c.chunkType) && IsUInt32(|c.body|)
  }

  predicate ValidChunkData(cs: seq<ChunkData>) {
    forall k :: 0 <= k < |cs| ==> ValidChunk(cs[k])
  }

  /** One chunk as written: length, type, body. */
  function EncodeChunk(c: ChunkData): (r: Bytes)
    requires ValidChunk(c)
    ensures |r| == ChunkHeaderLength + |c.body|
  {
    UInt32Bytes(|c.body|) + UInt32Bytes(c.chunkType) + c.body
  }

  function EncodeChunks(cs: seq<ChunkData>): (r: Bytes)
    requires ValidChunkData(cs)
  {
    if cs == [] then [] else EncodeChunk(cs[0]) + EncodeChunks(cs[1..])
  }

  /** The chunks written in order, with the header of the first one at `at`. */
  function Layout(cs: seq<ChunkData>, at: int): (r: seq<Chunk>)
    ensures |r| == |cs|
  {
    if cs == [] then []
    else
      var first := Chunk(at + ChunkHeaderLength, |cs[0].body|, cs[0].chunkType);
      [first] + Layout(cs[1..], at + ChunkHeaderLength + |cs[0].body|)
  }

  /** A GLB file: header with magic, version 2 and total length, then the chunks. */
  function EncodeGlb(cs: seq<ChunkData>): (r: Bytes)
    requires ValidChunkData(cs)
    requires IsUInt32(FirstChunk + |EncodeChunks(cs)|)
  {
    UInt32Bytes(GlbMagic) + UInt32Bytes(GlbVersion) + UInt32Bytes(FirstChunk + |EncodeChunks(cs)|) + EncodeChunks(cs)
  }

  /** One step of the walk: a readable header at `index` yields a chunk, and the walk goes on after its body. */
  lemma WalkStep(bytes: Bytes, index: int, length: int, chunkType: int)
    requires 0 <= index < |bytes|
    requires UInt32At(bytes, index) == Some(length) && UInt32At(bytes, index + 4) == Some(chunkType)
    ensures ChunkWalk(bytes, index) ==
      var rest := ChunkWalk(bytes, NextHeader(index, length));
      Walk([Chunk(index + ChunkHeaderLength, length, chunkType)] + rest.chunks, rest.truncated, rest.end)
  {
  }

  /**
   * Reading one more header: if the walk from `from` is the chunks `seen`
   * followed by the walk from `index`, it is also `seen` and the chunk at
   * `index` followed by the walk from where that chunk's body ends.
   */
  lemma WalkAdvance(bytes: Bytes, from: int, seen: seq<Chunk>, index: int, length: int, chunkType: int)
    requires 0 <= from && 0 <= index < |bytes|
    requires ChunkWalk(bytes, from).chunks == seen + ChunkWalk(bytes, index).chunks
    requires ChunkWalk(bytes, from).truncated == ChunkWalk(bytes, index).truncated
    requires UInt32At(bytes, index) == Some(length) && UInt32At(bytes, index + 4) == Some(chunkType)
    ensures ChunkWalk(bytes, from).chunks ==
      (seen + [Chunk(index + ChunkHeaderLength, length, chunkType)]) + ChunkWalk(bytes, NextHeader(index, length)).chunks
    ensures ChunkWalk(bytes, from).truncated == ChunkWalk(bytes, NextHeader(index, length)).truncated
    ensures ChunkWalk(bytes, from).chunks[|seen|] == Chunk(index + ChunkHeaderLength, length, chunkType)
  {
    WalkStep(bytes, index, length, chunkType);
    var c := Chunk(index + ChunkHeaderLength, length, chunkType);
    var rest := ChunkWalk(bytes, NextHeader(index, length)).chunks;
    assert seen + ([c] + rest) == (seen + [c]) + rest;
  }

  /** Reading a header that is not all there: the walk is truncated. */
  lemma WalkUnreadable(bytes: Bytes, index: int)
    requires 0 <= index < |bytes|
    requires UInt32At(bytes, index).None? || UInt32At(bytes, index + 4).None?
    ensures ChunkWalk(bytes, index) == Walk([], true, index)
  {
  }

  /** A written chunk read back from where it sits: its header fields, and its body after them. */
  lemma ReadChunk(bytes: Bytes, index: int, c: ChunkData)
    requires ValidChunk(c)
    requires 0 <= index && index + ChunkHeaderLength + |c.body| <= |bytes|
    requires bytes[index..index + ChunkHeaderLength + |c.body|] == EncodeChunk(c)
    ensures UInt32At(bytes, index) == Some(|c.body|)
    ensures UInt32At(bytes, index + 4) == Some(c.chunkType)
    ensures bytes[index + ChunkHeaderLength..index + ChunkHeaderLength + |c.body|] == c.body
  {
    var n := ChunkHeaderLength + |c.body|;
    EncodeChunkParts(c);
    SubSlice(bytes, index, index + n, 0, 4);
    UInt32AtEncoded(bytes, index, |c.body|);
    SubSlice(bytes, index, index + n, 4, 8);
    UInt32AtEncoded(bytes, index + 4, c.chunkType);
    SubSlice(bytes, index, index + n, 8, n);
  }

  lemma EncodeChunkParts(c: ChunkData)
    requires ValidChunk(c)
    ensures EncodeChunk(c)[..4] == UInt32Bytes(|c.body|)
    ensures EncodeChunk(c)[4..8] == UInt32Bytes(c.chunkType)
    ensures EncodeChunk(c)[8..] == c.body
  {
    var e := EncodeChunk(c);
    assert e == UInt32Bytes(|c.body|) + UInt32Bytes(c.chunkType) + c.body;
  }

  lemma SubSlice(s: Bytes, lo: int, hi: int, i: int, j: int)
    requires 0 <= lo <= hi <= |s| && 0 <= i <= j <= hi - lo
    ensures s[lo..hi][i..j] == s[lo + i..lo + j]
  {
    assert forall k :: 0 <= k < j - i ==> s[lo..hi][i..j][k] == s[lo + i..lo + j][k];
  }

  /** The written chunks at the end of an array split into the first one and the rest. */
  lemma SplitChunks(bytes: Bytes, at: int, cs: seq<ChunkData>)
    requires cs != [] && ValidChunkData(cs)
    requires 0 <= at <= |bytes| && bytes[at..] == EncodeChunks(cs)
    ensures ValidChunk(cs[0]) && ValidChunkData(cs[1..])
    ensures at + ChunkHeaderLength + |cs[0].body| <= |bytes|
    ensures bytes[at..at + ChunkHeaderLength + |cs[0].body|] == EncodeChunk(cs[0])
    ensures bytes[at + ChunkHeaderLength + |cs[0].body|..] == EncodeChunks(cs[1..])
  {
    assert ValidChunk(cs[0]);
    assert ValidChunkData(cs[1..]) by {
      forall k | 0 <= k < |cs[1..]| ensures ValidChunk(cs[1..][k]) {
        assert cs[1..][k] == cs[k + 1];
      }
    }
    var n := ChunkHeaderLength + |cs[0].body|;
    assert bytes[at..] == EncodeChunk(cs[0]) + EncodeChunks(cs[1..]);
    assert bytes[at..at + n] == bytes[at..][..n];
    assert bytes[at + n..] == bytes[at..][n..];
  }

  /** Walking chunks written at the end of an array meets each header where it was written. */
  lemma {:induction false} WalkEncodedChunks(bytes: Bytes, at: int, cs: seq<ChunkData>)
    requires ValidChunkData(cs)
    requires 0 <= at <= |bytes| && bytes[at..] == EncodeChunks(cs)
    ensures ChunkWalk(bytes, at) == Walk(Layout(cs, at), false, |bytes|)
    decreases |cs|
  {
    if cs == [] {
      assert |bytes[at..]| == 0;
    } else {
      var next := at + ChunkHeaderLength + |cs[0].body|;
      SplitChunks(bytes, at, cs);
      ReadChunk(bytes, at, cs[0]);
      WalkStep(bytes, at, |cs[0].body|, cs[0].chunkType);
      WalkEncodedChunks(bytes, next, cs[1..]);
      assert Layout(cs, at) == [Chunk(at + ChunkHeaderLength, |cs[0].body|, cs[0].chunkType)] + Layout(cs[1..], next);
    }
  }

  /** Each body written at the end of an array lies exactly where the layout puts it. */
  lemma {:induction false} EncodedBodies(bytes: Bytes, at: int, cs: seq<ChunkData>)
    requires ValidChunkData(cs)
    requires 0 <= at <= |bytes| && bytes[at..] == EncodeChunks(cs)
    ensures forall k :: 0 <= k < |cs| ==>
      var c := Layout(cs, at)[k];
      && 0 <= c.start <= c.start + c.length <= |bytes|
      && bytes[c.start..c.start + c.length] == cs[k].body
      && c.chunkType == cs[k].chunkType
      && c.length == |cs[k].body|
    decreases |cs|
  {
    if cs != [] {
      SplitChunks(bytes, at, cs);
      ReadChunk(bytes, at, cs[0]);
      var next := at + ChunkHeaderLength + |cs[0].body|;
      EncodedBodies(bytes, next, cs[1..]);
      var rest := Layout(cs[1..], next);
      assert Layout(cs, at) == [Chunk(at + ChunkHeaderLength, |cs[0].body|, cs[0].chunkType)] + rest;
      forall k | 1 <= k < |cs|
        ensures var c := Layout(cs, at)[k];
          && 0 <= c.start <= c.start + c.length <= |bytes|
          && bytes[c.start..c.start + c.length] == cs[k].body
          && c.chunkType == cs[k].chunkType
          && c.length == |cs[k].body|
      {
        assert Layout(cs, at)[k] == rest[k - 1];
        assert cs[1..][k - 1] == cs[k];
      }
    }
  }

  /**
   * Round trip: the header of a written GLB passes both checks, and the walk from
   * offset 12 meets every chunk with its type, its length and its body, in order.
   */
  lemma GlbRoundTrip(cs: seq<ChunkData>, bytes: Bytes)
    requires ValidChunkData(cs)
    requires IsUInt32(FirstChunk + |EncodeChunks(cs)|)
    requires bytes == EncodeGlb(cs)
    ensures UInt32At(bytes, 0) == Some(GlbMagic)
    ensures UInt32At(bytes, 4) == Some(GlbVersion)
    ensures var w := ChunkWalk(bytes, FirstChunk);
      && !w.truncated
      && w.end == |bytes|
      && |w.chunks| == |cs|
      && forall k :: 0 <= k < |cs| ==>
        && w.chunks[k].chunkType == cs[k].chunkType
        && w.chunks[k].length == |cs[k].body|
        && 0 <= w.chunks[k].start <= w.chunks[k].start + w.chunks[k].length <= |bytes|
        && bytes[w.chunks[k].start..w.chunks[k].start + w.chunks[k].length] == cs[k].body
  {
    GlbHeaderReads(cs);
    WalkEncodedChunks(bytes, FirstChunk, cs);
    EncodedBodies(bytes, FirstChunk, cs);
  }

  /** The header of a written GLB reads back as the magic and version 2, and the chunks follow it. */
  lemma GlbHeaderReads(cs: seq<ChunkData>)
    requires ValidChunkData(cs)
    requires IsUInt32(FirstChunk + |EncodeChunks(cs)|)
    ensures UInt32At(EncodeGlb(cs), 0) == Some(GlbMagic)
    ensures UInt32At(EncodeGlb(cs), 4) == Some(GlbVersion)
    ensures |EncodeGlb(cs)| == FirstChunk + |EncodeChunks(cs)|
    ensures EncodeGlb(cs)[FirstChunk..] == EncodeChunks(cs)
  {
    var bytes := EncodeGlb(cs);
    GlbParts(cs);
    UInt32AtEncoded(bytes, 0, GlbMagic);
    UInt32AtEncoded(bytes, 4, GlbVersion);
  }

  lemma GlbParts(cs: seq<ChunkData>)
    requires ValidChunkData(cs)
    requires IsUInt32(FirstChunk + |EncodeChunks(cs)|)
    ensures |EncodeGlb(cs)| == FirstChunk + |EncodeChunks(cs)|
    ensures EncodeGlb(cs)[..4] == UInt32Bytes(GlbMagic)
    ensures EncodeGlb(cs)[4..8] == UInt32Bytes(GlbVersion)
    ensures EncodeGlb(cs)[FirstChunk..] == EncodeChunks(cs)
  {
  }

  // --- The advance past a chunk as written ---

  /**
   * Where the loop of `LoadGlb` reads the next chunk header after a chunk that
   * is neither JSON nor BIN, as written: the `uint` length is cast to `int` and
   * added in 32-bit arithmetic, so a length of 2^31 or more moves the index
   * backwards. None when reading the header throws.
   */
  function NextHeaderAsWritten(bytes: Bytes, index: int): (r: Option<int>)
    ensures r.Some? <==> 0 <= index && index + ChunkHeaderLength <= |bytes|
    ensures r.Some? ==> IsInt32(r.value)
  {
    match (UInt32At(bytes, index), UInt32At(bytes, index + 4))
    case (Some(length), Some(_)) => Some(WrapInt32(index + ChunkHeaderLength + ToInt32(length)))
    case _ => None
  }

  /** While the next offset fits an `int`, the code as written goes where the walk goes. */
  lemma AsWrittenAgreesBelowTwoTo31(bytes: Bytes, index: int)
    requires 0 <= index && index + ChunkHeaderLength <= |bytes|
    requires UInt32At(bytes, index).value < TwoTo31 - index - ChunkHeaderLength
    ensures NextHeaderAsWritten(bytes, index) == Some(NextHeader(index, UInt32At(bytes, index).value))
  {
  }

  /** A GLB whose only chunk (of an unknown type) declares the length 0xFFFFFFF8. */
  function HangingGlb(): Bytes {
    UInt32Bytes(GlbMagic) + UInt32Bytes(GlbVersion) + UInt32Bytes(20) + UInt32Bytes(0xFFFF_FFF8) + UInt32Bytes(0)
  }

  /**
   * The input that shows it: past the header of that chunk the code as written
   * comes back to offset 12, the same header, with nothing else changed, so the
   * loop never ends; the walk with an unsigned advance leaves the array after
   * this one chunk.
   */
  lemma HangingChunkLoops()
    ensures UInt32At(HangingGlb(), 0) == Some(GlbMagic)
    ensures UInt32At(HangingGlb(), 4) == Some(GlbVersion)
    ensures NextHeaderAsWritten(HangingGlb(), FirstChunk) == Some(FirstChunk)
    ensures ChunkWalk(HangingGlb(), FirstChunk) == Walk([Chunk(20, 0xFFFF_FFF8, 0)], false, 20 + 0xFFFF_FFF8)
  {
    var b := HangingGlb();
    assert b[..4] == UInt32Bytes(GlbMagic);
    UInt32AtEncoded(b, 0, GlbMagic);
    assert b[4..8] == UInt32Bytes(GlbVersion);
    UInt32AtEncoded(b, 4, GlbVersion);
    assert b[12..16] == UInt32Bytes(0xFFFF_FFF8);
    UInt32AtEncoded(b, 12, 0xFFFF_FFF8);
    assert b[16..20] == UInt32Bytes(0);
    UInt32AtEncoded(b, 16, 0);
    assert ChunkWalk(b, NextHeader(FirstChunk, 0xFFFF_FFF8)) == Walk([], false, 20 + 0xFFFF_FFF8);
  }
}

=== FILE: imagetypes.dfy ===
/**
 * `IsKnownImageMimeType` and `IsKnownImageFileExtension`, and the route each
 * image takes in `LoadImages` and `CreateTexturesFromBuffers`.
 */
module ImageTypes {
  import opened Wrappers
  import opened DotNet
  import opened Schema
  import DataUri

  const KnownExtensions: set<string> := {".png", ".jpg", ".jpeg"}

  predicate IsKnownImageMimeType(mimeType: string) {
    mimeType == "image/jpeg" || mimeType == "image/png"
  }

  predicate IsKnownImageFileExtension(path: string) {
    EndsWithIgnoreCase(path, ".png") || EndsWithIgnoreCase(path, ".jpg") || EndsWithIgnoreCase(path, ".jpeg")
  }

  /** ASCII lower case, the form the extensions are listed in. */
  function ToLower(c: char): char {
    if 'A' <= c <= 'Z' then (c as int + 32) as char else c
  }

  function Lowered(s: string): (r: string)
    ensures |r| == |s| && forall k :: 0 <= k < |s| ==> r[k] == ToLower(s[k])
  {
    seq(|s|, k requires 0 <= k < |s| => ToLower(s[k]))
  }

  /** For a lower-case `b`, comparing with upper-casing on both sides is comparing with lower-casing `a`. */
  lemma EqualsIgnoreCaseLowered(a: string, b: string)
    requires Lowered(b) == b
    ensures EqualsIgnoreCase(a, b) <==> Lowered(a) == b
  {
    if |a| == |b| {
      forall k | 0 <= k < |a| ensures ToUpper(a[k]) == ToUpper(b[k]) <==> ToLower(a[k]) == b[k] {
        assert ToLower(b[k]) == b[k];
      }
      if Lowered(a) != b {
        var k :| 0 <= k < |a| && Lowered(a)[k] != b[k];
      }
    }
  }

  /** The last characters of `path`, lower-cased, are `ext`. */
  predicate HasLoweredSuffix(path: string, ext: string) {
    |ext| <= |path| && Lowered(path[|path| - |ext|..]) == ext
  }

  lemma EndsWithAsLoweredSuffix(path: string, ext: string)
    requires Lowered(ext) == ext
    ensures EndsWithIgnoreCase(path, ext) <==> HasLoweredSuffix(path, ext)
  {
    if |ext| <= |path| {
      EqualsIgnoreCaseLowered(path[|path| - |ext|..], ext);
    }
  }

  /**
   * A path has a known image extension exactly when its last characters,
   * lower-cased, are one of `.png`, `.jpg`, `.jpeg`.
   */
  lemma {:induction false} KnownExtensionIffLoweredSuffix(path: string)
    ensures IsKnownImageFileExtension(path) <==>
      exists ext :: ext in KnownExtensions && HasLoweredSuffix(path, ext)
  {
    ExtensionsLowerCase();
    EndsWithAsLoweredSuffix(path, ".png");
    EndsWithAsLoweredSuffix(path, ".jpg");
    EndsWithAsLoweredSuffix(path, ".jpeg");
    SuffixAmongExtensions(path);
  }

  lemma ExtensionsLowerCase()
    ensures Lowered(".png") == ".png" && Lowered(".jpg") == ".jpg" && Lowered(".jpeg") == ".jpeg"
  {
    assert Lowered(".png") == ".png";
    assert Lowered(".jpg") == ".jpg";
    assert Lowered(".jpeg") == ".jpeg";
  }

  lemma SuffixAmongExtensions(path: string)
    ensures (exists ext :: ext in KnownExtensions && HasLoweredSuffix(path, ext)) <==>
      HasLoweredSuffix(path, ".png") || HasLoweredSuffix(path, ".jpg") || HasLoweredSuffix(path, ".jpeg")
  {
    if exists ext :: ext in KnownExtensions && HasLoweredSuffix(path, ext) {
      var ext :| ext in KnownExtensions && HasLoweredSuffix(path, ext);
      assert ext == ".png" || ext == ".jpg" || ext == ".jpeg";
    }
    if HasLoweredSuffix(path, ".png") { assert ".png" in KnownExtensions; }
    if HasLoweredSuffix(path, ".jpg") { assert ".jpg" in KnownExtensions; }
    if HasLoweredSuffix(path, ".jpeg") { assert ".jpeg" in KnownExtensions; }
  }

  /** The type test both loaders apply: the declared mime type, or the URI's extension when none is declared. */
  predicate IsKnownImageType(img: Image) {
    if img.mimeType == "" then IsKnownImageFileExtension(img.uri) else IsKnownImageMimeType(img.mimeType)
  }

  /** An image `LoadImages` requests from its URL: a file of known type that is neither embedded nor in a buffer view. */
  predicate IsDownloaded(img: Image) {
    !StartsWith(img.uri, "data:") && IsKnownImageType(img) && img.bufferView < 0 && img.uri != ""
  }

  /** What `LoadImages` does with one image. */
  datatype ImageRoute =
    | EmbeddedTexture(data: Bytes)   // decoded from the data URI and loaded at once
    | EmbeddedRejected               // data URI that does not decode to a known type: logged and skipped
    | Download(url: string)          // external file, requested with `LoadTexture`
    | Deferred                       // known type stored in a buffer view: left for `CreateTexturesFromBuffers`
    | UnknownType                    // logged and skipped
    | Fails(error: Exception)        // decoding the data URI threw

  function LoadImageRoute(img: Image, baseUri: string, fromBase64: string -> Option<Bytes>): (r: ImageRoute)
    ensures r.Fails? ==> r.error == FormatException
  {
    if img.uri != "" && StartsWith(img.uri, "data:") then
      match DataUri.DecodeEmbedBuffer(img.uri, fromBase64)
      case Thrown(e) => Fails(e)
      case Decoded(mimeType, data) =>
        if IsKnownImageMimeType(mimeType) then EmbeddedTexture(data) else EmbeddedRejected
      case _ => EmbeddedRejected
    else if IsKnownImageType(img) then
      if img.bufferView < 0 && img.uri != "" then Download(baseUri + img.uri) else Deferred
    else UnknownType
  }

  /**
   * Exactly the data URIs are decoded, and only those of a known type become
   * textures; an external file of known type outside a buffer view is
   * downloaded from the base URI; a known type in a buffer view waits for its
   * copy; everything else is of unknown type.
   */
  lemma LoadImageRouteCases(img: Image, baseUri: string, fromBase64: string -> Option<Bytes>)
    ensures var r := LoadImageRoute(img, baseUri, fromBase64);
      && (r.EmbeddedTexture? || r.EmbeddedRejected? || r.Fails? <==> StartsWith(img.uri, "data:"))
      && (r.EmbeddedTexture? ==>
            var decoded := DataUri.DecodeEmbedBuffer(img.uri, fromBase64);
            decoded.Decoded? && IsKnownImageMimeType(decoded.mimeType) && decoded.data == r.data)
      && (r.Download? <==> IsDownloaded(img))
      && (r.Download? ==> r.url == baseUri + img.uri)
      && (r.Deferred? <==>
            !StartsWith(img.uri, "data:") && IsKnownImageType(img) && (img.bufferView >= 0 || img.uri == ""))
      && (r.UnknownType? <==> !StartsWith(img.uri, "data:") && !IsKnownImageType(img))
  {
  }

  /** A `MemCopyJob` that copies the bytes of an image stored in a buffer view. */
  datatype ImageCopy = ImageCopy(imageIndex: nat, buffer: int, start: int, size: int)

  /**
   * The copy `CreateTexturesFromBuffers` schedules for image `i`, if any: only an
   * image of known type stored in a buffer view gets one, and it copies the
   * whole view from where the view starts inside its buffer's region, that
   * sum taken in unchecked 32-bit `int`.
   */
  function BufferImageCopy(i: nat, img: Image, views: seq<BufferView>, chunks: seq<GlbBinChunk>): (r: Option<ImageCopy>)
    requires img.bufferView >= 0 ==>
      img.bufferView < |views| && 0 <= views[img.bufferView].buffer < |chunks|
    ensures r.Some? <==> IsKnownImageType(img) && img.bufferView >= 0
    ensures r.Some? ==>
      var view := views[img.bufferView];
      && r.value.imageIndex == i
      && r.value.buffer == view.buffer
      && r.value.start == WrapInt32(chunks[view.buffer].start + view.byteOffset)
      && r.value.size == view.byteLength
  {
    if IsKnownImageType(img) && img.bufferView >= 0 then
      var view := views[img.bufferView];
      Some(ImageCopy(i, view.buffer, WrapInt32(view.byteOffset + chunks[view.buffer].start), view.byteLength))
    else None
  }

  /** The references `BufferImageCopy` follows resolve for the first `n` images. */
  predicate CopiesResolve(imgs: seq<Image>, views: seq<BufferView>, chunks: seq<GlbBinChunk>, n: nat) {
    n <= |imgs| &&
    forall i | 0 <= i < n && imgs[i].bufferView >= 0 ::
      imgs[i].bufferView < |views| && 0 <= views[imgs[i].bufferView].buffer < |chunks|
  }

  /** The copies `CreateTexturesFromBuffers` schedules for the first `n` images, in image order. */
  function ScheduledCopies(imgs: seq<Image>, views: seq<BufferView>, chunks: seq<GlbBinChunk>, n: nat): seq<ImageCopy>
    requires CopiesResolve(imgs, views, chunks, n)
  {
    if n == 0 then []
    else
      ScheduledCopies(imgs, views, chunks, n - 1) +
        match BufferImageCopy(n - 1, imgs[n - 1], views, chunks)
        case Some(copy) => [copy]
        case None => []
  }

  /** Each scheduled copy is `BufferImageCopy`'s for its image, and the images strictly increase. */
  lemma {:induction false} ScheduledCopiesInOrder(imgs: seq<Image>, views: seq<BufferView>, chunks: seq<GlbBinChunk>, n: nat)
    requires CopiesResolve(imgs, views, chunks, n)
    ensures forall c | c in ScheduledCopies(imgs, views, chunks, n) ::
      c.imageIndex < n && BufferImageCopy(c.imageIndex, imgs[c.imageIndex], views, chunks) == Some(c)
    ensures forall k, l | 0 <= k < l < |ScheduledCopies(imgs, views, chunks, n)| ::
      ScheduledCopies(imgs, views, chunks, n)[k].imageIndex < ScheduledCopies(imgs, views, chunks, n)[l].imageIndex
  {
    if n > 0 {
      ScheduledCopiesInOrder(imgs, views, chunks, n - 1);
      var earlier := ScheduledCopies(imgs, views, chunks, n - 1);
      var last := BufferImageCopy(n - 1, imgs[n - 1], views, chunks);
      var r := ScheduledCopies(imgs, views, chunks, n);
      assert r == earlier + (if last.Some? then [last.value] else []);
      forall k, l | 0 <= k < l < |r| ensures r[k].imageIndex < r[l].imageIndex {
        if l < |earlier| {
          assert r[k] == earlier[k] && r[l] == earlier[l];
        } else {
          assert r[k] == earlier[k] && earlier[k] in earlier && r[l] == last.value;
        }
      }
    }
  }

  /** Every image of known type stored in a buffer view has a scheduled copy. */
  lemma {:induction false} ScheduledCopiesCover(imgs: seq<Image>, views: seq<BufferView>, chunks: seq<GlbBinChunk>, n: nat, i: nat)
    requires CopiesResolve(imgs, views, chunks, n)
    requires i < n && IsKnownImageType(imgs[i]) && imgs[i].bufferView >= 0
    ensures exists k ::
      0 <= k < |ScheduledCopies(imgs, views, chunks, n)| && ScheduledCopies(imgs, views, chunks, n)[k].imageIndex == i
  {
    var earlier := ScheduledCopies(imgs, views, chunks, n - 1);
    var last := BufferImageCopy(n - 1, imgs[n - 1], views, chunks);
    var r := ScheduledCopies(imgs, views, chunks, n);
    assert r == earlier + (if last.Some? then [last.value] else []);
    if i < n - 1 {
      ScheduledCopiesCover(imgs, views, chunks, n - 1, i);
      var k :| 0 <= k < |earlier| && earlier[k].imageIndex == i;
      assert r[k] == earlier[k];
    } else {
      assert r[|earlier|].imageIndex == i;
    }
  }

  /**
   * What scheduling a copy throws, if anything: the destination array of a
   * negative size cannot be allocated; the address of the first byte to copy
   * cannot be taken in a null buffer or outside it; the address of the
   * destination's first byte cannot be taken when the copy is empty.
   */
  function CopyFault(copy: ImageCopy, buffer: Option<Bytes>): (r: Option<Exception>)
    ensures r.None? <==> copy.size > 0 && buffer.Some? && 0 <= copy.start < |buffer.value|
  {
    AllocateAndPinFault(copy.size, true, buffer, copy.start)
  }
}

=== FILE: loader.dfy ===
/**
 * The loader object `GLTFast`: its fields and the steps that fill them, from a
 * JSON document or a GLB array to the prepared primitives. The JSON parser,
 * UTF-8 decoding, base64 decoding and the mesh builder are collaborators given
 * at construction; downloads are given to the step that waits for them.
 */
module Loader {
  import opened Wrappers
  import opened DotNet
  import opened Schema
  import opened Extensions
  import DataUri
  import opened ImageTypes
  import opened Glb
  import opened Accessors
  import opened Primitives

  /** How a call ended: it returned a value, or it threw. */
  datatype Completion = Returned(value: bool) | Threw(error: Exception)

  /** One entry of the `images` array. */
  datatype Texture =
    | NoTexture                 // null
    | LoadedTexture(data: Bytes) // created and loaded from an embedded image
    | AwaitingCopy              // created empty, to be loaded once its copy job has run

  /** The document passes the extension gate. */
  predicate Supported(root: Root) {
    CheckExtensionSupport(root.extensionsRequired, root.extensionsUsed).supported
  }

  /** A buffer with a URI that is not a data URI: it is downloaded. */
  predicate IsExternal(b: Buffer) {
    b.uri != "" && !StartsWith(b.uri, "data:")
  }

  predicate IsEmbedded(b: Buffer) {
    b.uri != "" && StartsWith(b.uri, "data:")
  }

  /** What `buffers[i]` holds once the document's buffers are resolved: the decoded bytes of a data URI, else null. */
  function EmbeddedData(b: Buffer, fromBase64: string -> Option<Bytes>): Option<Bytes> {
    if IsEmbedded(b) then
      match DataUri.DecodeEmbedBuffer(b.uri, fromBase64)
      case Decoded(_, data) => Some(data)
      case _ => None
    else None
  }

  /** A data URI that yields null: "Error loading embed buffer!" and `loadingError`. */
  predicate EmbedRejected(b: Buffer, fromBase64: string -> Option<Bytes>) {
    IsEmbedded(b) &&
      var decoded := DataUri.DecodeEmbedBuffer(b.uri, fromBase64);
      decoded.NoMediaType? || decoded.NotBase64?
  }

  /** A data URI whose base64 decoding throws. */
  predicate EmbedThrows(b: Buffer, fromBase64: string -> Option<Bytes>) {
    IsEmbedded(b) && DataUri.DecodeEmbedBuffer(b.uri, fromBase64).Thrown?
  }

  /** The entries `buffers` holds once the buffers `bs` are resolved, in order. */
  function ResolvedEntries(bs: seq<Buffer>, fromBase64: string -> Option<Bytes>): (r: seq<Option<Bytes>>)
    ensures |r| == |bs|
  {
    if bs == [] then []
    else ResolvedEntries(bs[..|bs| - 1], fromBase64) + [EmbeddedData(bs[|bs| - 1], fromBase64)]
  }

  /** Entry `k` is the decoding of buffer `k` and of no other. */
  lemma {:induction false} ResolvedEntriesAt(bs: seq<Buffer>, fromBase64: string -> Option<Bytes>, k: int)
    requires 0 <= k < |bs|
    ensures ResolvedEntries(bs, fromBase64)[k] == EmbeddedData(bs[k], fromBase64)
  {
    if k < |bs| - 1 {
      ResolvedEntriesAt(bs[..|bs| - 1], fromBase64, k);
    }
  }

  /** Some data URI among `bs` yields null. */
  predicate AnyRejected(bs: seq<Buffer>, fromBase64: string -> Option<Bytes>) {
    bs != [] && (AnyRejected(bs[..|bs| - 1], fromBase64) || EmbedRejected(bs[|bs| - 1], fromBase64))
  }

  lemma {:induction false} AnyRejectedIff(bs: seq<Buffer>, fromBase64: string -> Option<Bytes>)
    ensures AnyRejected(bs, fromBase64) <==> exists k :: 0 <= k < |bs| && EmbedRejected(bs[k], fromBase64)
  {
    if bs != [] {
      var front := bs[..|bs| - 1];
      AnyRejectedIff(front, fromBase64);
      if exists k :: 0 <= k < |bs| && EmbedRejected(bs[k], fromBase64) {
        var k :| 0 <= k < |bs| && EmbedRejected(bs[k], fromBase64);
        if k < |bs| - 1 {
          assert front[k] == bs[k];
        }
      }
      if AnyRejected(front, fromBase64) {
        var k :| 0 <= k < |front| && EmbedRejected(front[k], fromBase64);
        assert bs[k] == front[k];
      }
    }
  }

  /** The downloads requested for the buffers before index `n`: every buffer with a URI other than a data URI, by index. */
  function BufferUrls(bs: seq<Buffer>, baseUri: string, n: nat): (r: map<int, string>)
    requires n <= |bs|
  {
    if n == 0 then map[]
    else
      var earlier := BufferUrls(bs, baseUri, n - 1);
      if IsExternal(bs[n - 1]) then earlier[n - 1 := baseUri + bs[n - 1].uri] else earlier
  }

  /** Exactly the external buffers before `n` are requested, each from the base URI followed by its own URI. */
  lemma {:induction false} BufferUrlsExactly(bs: seq<Buffer>, baseUri: string, n: nat)
    requires n <= |bs|
    ensures forall k :: k in BufferUrls(bs, baseUri, n) <==> 0 <= k < n && IsExternal(bs[k])
    ensures forall k :: k in BufferUrls(bs, baseUri, n) ==> BufferUrls(bs, baseUri, n)[k] == baseUri + bs[k].uri
  {
    if n > 0 {
      BufferUrlsExactly(bs, baseUri, n - 1);
    }
  }

  lemma UpdateUnion<K, V>(a: map<K, V>, b: map<K, V>, k: K, v: V)
    ensures (a + b)[k := v] == a + b[k := v]
  {
  }

  lemma UnionAssociates<K, V>(a: map<K, V>, b: map<K, V>, c: map<K, V>)
    ensures (a + b) + c == a + (b + c)
  {
  }

  /** The regions `binChunks` holds right after it is allocated: `n` default entries, measured later. */
  function Unmeasured(n: nat): (r: seq<GlbBinChunk>)
    ensures |r| == n
  {
    seq(n, _ => GlbBinChunk(0, 0))
  }

  /** The texture an image has once `LoadImages` has handled it. */
  function TextureAfterLoad(route: ImageRoute): Texture {
    if route.EmbeddedTexture? then LoadedTexture(route.data) else NoTexture
  }

  /** The entries `images` holds once `LoadImages` has handled the images `imgs`, in order. */
  function LoadedTextures(imgs: seq<Image>, baseUri: string, fromBase64: string -> Option<Bytes>): (r: seq<Texture>)
    ensures |r| == |imgs|
  {
    if imgs == [] then []
    else
      LoadedTextures(imgs[..|imgs| - 1], baseUri, fromBase64) +
        [TextureAfterLoad(LoadImageRoute(imgs[|imgs| - 1], baseUri, fromBase64))]
  }

  /** Texture `k` is loaded exactly when image `k` is an embedded image of known type, and holds its bytes. */
  lemma {:induction false} LoadedTexturesAt(imgs: seq<Image>, baseUri: string, fromBase64: string -> Option<Bytes>, k: int)
    requires 0 <= k < |imgs|
    ensures var t := LoadedTextures(imgs, baseUri, fromBase64)[k];
      var route := LoadImageRoute(imgs[k], baseUri, fromBase64);
      && (t.LoadedTexture? <==> route.EmbeddedTexture?)
      && (t.LoadedTexture? ==> t.data == route.data)
      && (!t.LoadedTexture? ==> t == NoTexture)
      && t == TextureAfterLoad(route)
  {
    if k < |imgs| - 1 {
      LoadedTexturesAt(imgs[..|imgs| - 1], baseUri, fromBase64, k);
    }
  }

  /** Entries that each hold what `LoadImages` leaves for their image are `LoadedTextures`. */
  lemma LoadedTexturesPointwise(imgs: seq<Image>, baseUri: string, fromBase64: string -> Option<Bytes>,
                                textures: seq<Texture>)
    requires |textures| == |imgs|
    requires forall k | 0 <= k < |imgs| :: textures[k] == TextureAfterLoad(LoadImageRoute(imgs[k], baseUri, fromBase64))
    ensures textures == LoadedTextures(imgs, baseUri, fromBase64)
  {
    forall k | 0 <= k < |imgs| ensures textures[k] == LoadedTextures(imgs, baseUri, fromBase64)[k] {
      LoadedTexturesAt(imgs, baseUri, fromBase64, k);
    }
  }

  /** The texture downloads requested for the images before index `n`, by image index. */
  function ImageUrls(imgs: seq<Image>, baseUri: string, n: nat): (r: map<int, string>)
    requires n <= |imgs|
  {
    if n == 0 then map[]
    else
      var earlier := ImageUrls(imgs, baseUri, n - 1);
      if IsDownloaded(imgs[n - 1]) then earlier[n - 1 := baseUri + imgs[n - 1].uri] else earlier
  }

  /** Exactly the images before `n` that `LoadImages` downloads are requested, each from the base URI followed by its own URI. */
  lemma {:induction false} ImageUrlsExactly(imgs: seq<Image>, baseUri: string, n: nat)
    requires n <= |imgs|
    ensures forall k :: k in ImageUrls(imgs, baseUri, n) <==> 0 <= k < n && IsDownloaded(imgs[k])
    ensures forall k :: k in ImageUrls(imgs, baseUri, n) ==> ImageUrls(imgs, baseUri, n)[k] == baseUri + imgs[k].uri
  {
    if n > 0 {
      ImageUrlsExactly(imgs, baseUri, n - 1);
      var earlier := ImageUrls(imgs, baseUri, n - 1);
      var r := ImageUrls(imgs, baseUri, n);
      forall k
        ensures k in r <==> 0 <= k < n && IsDownloaded(imgs[k])
        ensures k in r ==> r[k] == baseUri + imgs[k].uri
      {
        if IsDownloaded(imgs[n - 1]) {
          assert r == earlier[n - 1 := baseUri + imgs[n - 1].uri];
        } else {
          assert r == earlier;
        }
        if k != n - 1 {
          assert k in r <==> k in earlier;
        }
      }
    }
  }

  /** `Encoding.UTF8.GetString(bytes, c.start, (int)c.length)` does not throw: the count is not negative and the range lies inside `bytes`. */
  predicate JsonReadable(bytes: Bytes, c: Chunk) {
    0 <= c.start && 0 <= c.length < TwoTo31 && c.start + c.length <= |bytes|
  }

  /** Every JSON chunk among `chunks` can be decoded. */
  predicate JsonChunksReadable(bytes: Bytes, chunks: seq<Chunk>) {
    chunks != [] ==>
      && JsonChunksReadable(bytes, chunks[..|chunks| - 1])
      && (chunks[|chunks| - 1].chunkType == ChunkJson ==> JsonReadable(bytes, chunks[|chunks| - 1]))
  }

  lemma {:induction false} JsonChunksReadableIff(bytes: Bytes, chunks: seq<Chunk>)
    ensures JsonChunksReadable(bytes, chunks) <==>
      forall k :: 0 <= k < |chunks| && chunks[k].chunkType == ChunkJson ==> JsonReadable(bytes, chunks[k])
  {
    if chunks != [] {
      var front := chunks[..|chunks| - 1];
      JsonChunksReadableIff(bytes, front);
      assert forall k :: 0 <= k < |front| ==> front[k] == chunks[k];
    }
  }

  /**
   * A JSON chunk anywhere in `chunks` is found by `HasChunkOfType`, and if it
   * cannot be decoded, neither can the whole sequence.
   */
  lemma JsonChunkAt(bytes: Bytes, chunks: seq<Chunk>, k: int)
    requires 0 <= k < |chunks| && chunks[k].chunkType == ChunkJson
    ensures HasChunkOfType(chunks, ChunkJson)
    ensures !JsonReadable(bytes, chunks[k]) ==> !JsonChunksReadable(bytes, chunks)
  {
    HasChunkOfTypeIff(chunks, ChunkJson);
    JsonChunksReadableIff(bytes, chunks);
  }

  /** The walk of the chunks from the first header is `seen` and then the walk from the header at `index`. */
  predicate WalkedTo(bytes: Bytes, seen: seq<Chunk>, index: int) {
    && FirstChunk <= index
    && ChunkWalk(bytes, FirstChunk).chunks == seen + ChunkWalk(bytes, index).chunks
    && ChunkWalk(bytes, FirstChunk).truncated == ChunkWalk(bytes, index).truncated
  }

  /**
   * The chunks `seen` were read one after another, the first header at
   * `FirstChunk` and each next header where the previous body ends, and the
   * next header to read is at `index`.
   */
  predicate ReadInTurn(bytes: Bytes, seen: seq<Chunk>, index: int)
    decreases |seen|
  {
    if seen == [] then index == FirstChunk
    else
      var c := seen[|seen| - 1];
      var at := c.start - ChunkHeaderLength;
      && index == c.start + c.length
      && 0 <= at < |bytes|
      && UInt32At(bytes, at) == Some(c.length) && UInt32At(bytes, at + 4) == Some(c.chunkType)
      && ReadInTurn(bytes, seen[..|seen| - 1], at)
  }

  /** Reading the header at `index` as `c` extends the chunks read in turn. */
  lemma ReadInTurnStep(bytes: Bytes, seen: seq<Chunk>, index: int, c: Chunk)
    requires ReadInTurn(bytes, seen, index) && 0 <= index < |bytes|
    requires UInt32At(bytes, index) == Some(c.length) && UInt32At(bytes, index + 4) == Some(c.chunkType)
    requires c.start == index + ChunkHeaderLength
    ensures ReadInTurn(bytes, seen + [c], c.start + c.length)
  {
    assert (seen + [c])[..|seen|] == seen;
  }

  /** Chunks read in turn are exactly the start of the walk `ChunkWalk` makes from the first header. */
  lemma {:induction false} ReadInTurnWalk(bytes: Bytes, seen: seq<Chunk>, index: int)
    requires ReadInTurn(bytes, seen, index)
    ensures WalkedTo(bytes, seen, index)
    decreases |seen|
  {
    if seen == [] {
      assert [] + ChunkWalk(bytes, FirstChunk).chunks == ChunkWalk(bytes, FirstChunk).chunks;
    } else {
      var prefix, c := seen[..|seen| - 1], seen[|seen| - 1];
      var at := c.start - ChunkHeaderLength;
      assert ReadInTurn(bytes, prefix, at) && 0 <= at < |bytes| && index == c.start + c.length;
      assert UInt32At(bytes, at) == Some(c.length) && UInt32At(bytes, at + 4) == Some(c.chunkType);
      ReadInTurnWalk(bytes, prefix, at);
      WalkAdvance(bytes, FirstChunk, prefix, at, c.length, c.chunkType);
      assert Chunk(at + ChunkHeaderLength, c.length, c.chunkType) == c;
      assert NextHeader(at, c.length) == index;
      assert prefix + [c] == seen;
    }
  }

  /**
   * A turn of the chunk loop that stops: either the header at `index` is not
   * all there, so the walk is truncated, or it is a JSON chunk `c`, so the
   * walk holds one, and an unreadable `c` makes the walk's JSON unreadable.
   */
  lemma WalkStops(bytes: Bytes, seen: seq<Chunk>, index: int, c: Chunk)
    requires WalkedTo(bytes, seen, index) && index < |bytes|
    requires UInt32At(bytes, index).Some? && UInt32At(bytes, index + 4).Some? ==>
      c == Chunk(index + ChunkHeaderLength, UInt32At(bytes, index).value, UInt32At(bytes, index + 4).value)
      && c.chunkType == ChunkJson
    ensures UInt32At(bytes, index).None? || UInt32At(bytes, index + 4).None? ==> ChunkWalk(bytes, FirstChunk).truncated
    ensures HasChunkOfType(ChunkWalk(bytes, FirstChunk).chunks, ChunkJson) || ChunkWalk(bytes, FirstChunk).truncated
    ensures UInt32At(bytes, index).Some? && UInt32At(bytes, index + 4).Some? && !JsonReadable(bytes, c) ==>
      !JsonChunksReadable(bytes, ChunkWalk(bytes, FirstChunk).chunks)
  {
    if UInt32At(bytes, index).None? || UInt32At(bytes, index + 4).None? {
      WalkUnreadable(bytes, index);
    } else {
      WalkAdvance(bytes, FirstChunk, seen, index, c.length, c.chunkType);
      JsonChunkAt(bytes, ChunkWalk(bytes, FirstChunk).chunks, |seen|);
    }
  }

  /** The BIN region `LoadGlb` leaves in `glbBinChunk` after the chunks `chunks`: the last BIN chunk's, else what was there. */
  function BinAfter(chunks: seq<Chunk>, before: Option<GlbBinChunk>): Option<GlbBinChunk> {
    if chunks == [] then before
    else
      var last := chunks[|chunks| - 1];
      if last.chunkType == ChunkBin then Some(BinRegion(last)) else BinAfter(chunks[..|chunks| - 1], before)
  }

  /** So the region is the last BIN chunk's, or the one there was when there is no BIN chunk. */
  lemma {:induction false} BinAfterIsLastBin(chunks: seq<Chunk>, before: Option<GlbBinChunk>)
    ensures BinAfter(chunks, before) ==
      match LastOfType(chunks, ChunkBin)
      case Some(c) => Some(BinRegion(c))
      case None => before
  {
    if chunks != [] && chunks[|chunks| - 1].chunkType != ChunkBin {
      BinAfterIsLastBin(chunks[..|chunks| - 1], before);
    }
  }

  /** Some chunk among `chunks` has type `chunkType`. */
  predicate HasChunkOfType(chunks: seq<Chunk>, chunkType: int) {
    chunks != [] && (chunks[|chunks| - 1].chunkType == chunkType || HasChunkOfType(chunks[..|chunks| - 1], chunkType))
  }

  lemma {:induction false} HasChunkOfTypeIff(chunks: seq<Chunk>, chunkType: int)
    ensures HasChunkOfType(chunks, chunkType) <==> LastOfType(chunks, chunkType).Some?
  {
    if chunks != [] && chunks[|chunks| - 1].chunkType != chunkType {
      HasChunkOfTypeIff(chunks[..|chunks| - 1], chunkType);
    }
  }

  /** Every buffer `WaitForBufferDownloads` measures holds data: all but buffer 0 of a GLB. */
  predicate AllMeasurable(buffers: seq<Option<Bytes>>, glb: bool) {
    forall i | 0 <= i < |buffers| && !(i == 0 && glb) :: buffers[i].Some?
  }

  /** A `NativeSlice`: `length` bytes of `data` from `start` on. */
  datatype BufferSlice = BufferSlice(data: Bytes, start: int, length: int)

  /** What scheduling the copy of image `i` throws, if it gets one. */
  function CopyFaultAt(i: nat, imgs: seq<Image>, views: seq<BufferView>, chunks: seq<GlbBinChunk>,
                       buffers: seq<Option<Bytes>>): Option<Exception>
    requires CopiesResolve(imgs, views, chunks, i + 1) && |buffers| == |chunks|
  {
    match BufferImageCopy(i, imgs[i], views, chunks)
    case Some(copy) => CopyFault(copy, buffers[copy.buffer])
    case None => None
  }

  /** `images` once `Prepare` has allocated it: one empty texture per image of the document if it was still null. */
  function AllocatedImages(rootImages: seq<Image>, images: seq<Texture>): (r: seq<Texture>)
    ensures images != [] ==> r == images
    ensures images == [] ==> |r| == |rootImages| && forall i | 0 <= i < |r| :: r[i] == NoTexture
  {
    if images == [] then seq(|rootImages|, _ => NoTexture) else images
  }

  /**
   * The exception scheduling the copies of images `i` to `n` throws, if any:
   * that of the first of them whose copy faults.
   */
  function FirstCopyFault(imgs: seq<Image>, views: seq<BufferView>, chunks: seq<GlbBinChunk>,
                          buffers: seq<Option<Bytes>>, i: nat, n: nat): (r: Option<Exception>)
    requires CopiesResolve(imgs, views, chunks, n) && |buffers| == |chunks| && i <= n
    decreases n - i
  {
    if i == n then None
    else
      var fault := CopyFaultAt(i, imgs, views, chunks, buffers);
      if fault.Some? then fault else FirstCopyFault(imgs, views, chunks, buffers, i + 1, n)
  }

  /** Nothing is thrown exactly when no copy faults; otherwise what is thrown is the fault of the first copy that does. */
  lemma {:induction false} FirstCopyFaultIsFirst(imgs: seq<Image>, views: seq<BufferView>, chunks: seq<GlbBinChunk>,
                                                 buffers: seq<Option<Bytes>>, i: nat, n: nat)
    requires CopiesResolve(imgs, views, chunks, n) && |buffers| == |chunks| && i <= n
    ensures FirstCopyFault(imgs, views, chunks, buffers, i, n).None? <==>
      forall k | i <= k < n :: CopyFaultAt(k, imgs, views, chunks, buffers).None?
    ensures FirstCopyFault(imgs, views, chunks, buffers, i, n).Some? ==> exists k | i <= k < n ::
      && CopyFaultAt(k, imgs, views, chunks, buffers) == FirstCopyFault(imgs, views, chunks, buffers, i, n)
      && forall l | i <= l < k :: CopyFaultAt(l, imgs, views, chunks, buffers).None?
    decreases n - i
  {
    if i < n && CopyFaultAt(i, imgs, views, chunks, buffers).None? {
      FirstCopyFaultIsFirst(imgs, views, chunks, buffers, i + 1, n);
    }
  }

  /** The textures once each image of known type stored in a buffer view has been created empty to await its copy. */
  function TexturesAfterCopies(rootImages: seq<Image>, images: seq<Texture>): (r: seq<Texture>)
    requires |images| <= |rootImages|
    ensures |r| == |images|
    ensures forall i | 0 <= i < |r| ::
      r[i] == if IsKnownImageType(rootImages[i]) && rootImages[i].bufferView >= 0 then AwaitingCopy else images[i]
  {
    seq(|images|, i requires 0 <= i < |images| =>
      if IsKnownImageType(rootImages[i]) && rootImages[i].bufferView >= 0 then AwaitingCopy else images[i])
  }

  /** Some element of a non-empty set: the next entry a dictionary enumeration yields. */
  method AnyElement<K>(keys: set<K>) returns (k: K)
    requires keys != {}
    ensures k in keys
  {
    k :| k in keys;
  }

  /** `jobHandles[count] = jh; count++`. */
  method Put(handles: array<Option<Job>>, count: nat, job: Option<Job>) returns (next: nat)
    requires count < handles.Length
    modifies handles
    ensures next == count + 1
    ensures handles[..next] == old(handles[..count]) + [job]
  {
    handles[count] := job;
    next := count + 1;
  }

  class GltFast {
    const parseJson: string -> Root
    const decodeUtf8: Bytes -> string
    const fromBase64: string -> Option<Bytes>
    const createPrimitive: PrimitiveContext -> Option<Primitive>

    var gltfRoot: Option<Root>
    /**
     * One entry per buffer of the document, null until resolved. The array
     * itself is null until a document with buffers is parsed; it is never
     * allocated empty, so the empty sequence stands for null.
     */
    var buffers: seq<Option<Bytes>>
    /** Where each buffer's data starts inside its entry of `buffers`, and how long it is. */
    var binChunks: seq<GlbBinChunk>
    var glbBinChunk: Option<GlbBinChunk>
    var loadingError: bool
    /** Pending buffer downloads: buffer index to URL. */
    var downloads: map<int, string>
    var images: seq<Texture>
    /** Pending texture downloads: image index to URL. */
    var textureDownloads: map<int, string>
    /** `imageCreateContexts`: the copies that fill the textures stored in buffer views. */
    var imageCopies: seq<ImageCopy>
    var meshPrimitiveIndex: array<int>
    var primitiveContexts: seq<PrimitiveContext>
    var primitives: seq<Option<Primitive>>

    /** `buffers` and `binChunks` are allocated together, with one entry per buffer. */
    predicate Valid()
      reads this
    {
      |buffers| == |binChunks|
    }

    constructor (parseJson: string -> Root, decodeUtf8: Bytes -> string, fromBase64: string -> Option<Bytes>,
                 createPrimitive: PrimitiveContext -> Option<Primitive>)
      ensures Valid()
      ensures this.parseJson == parseJson && this.decodeUtf8 == decodeUtf8
      ensures this.fromBase64 == fromBase64 && this.createPrimitive == createPrimitive
      ensures gltfRoot.None? && buffers == [] && glbBinChunk.None? && !loadingError
      ensures downloads == map[] && textureDownloads == map[] && images == [] && imageCopies == []
      ensures primitiveContexts == [] && primitives == []
    {
      this.parseJson := parseJson;
      this.decodeUtf8 := decodeUtf8;
      this.fromBase64 := fromBase64;
      this.createPrimitive := createPrimitive;
      gltfRoot := None;
      buffers := [];
      binChunks := [];
      glbBinChunk := None;
      loadingError := false;
      downloads := map[];
      images := [];
      textureDownloads := map[];
      imageCopies := [];
      meshPrimitiveIndex := new int[0];
      primitiveContexts := [];
      primitives := [];
    }

    /**
     * `ParseJsonAndLoadBuffers`: parse, pass the extension gate, then allocate
     * one entry per buffer and resolve each: a data URI is decoded at once, any
     * other URI is requested, a buffer without URI is left null (the GLB's BIN
     * chunk fills buffer 0 later).
     */
    method ParseJsonAndLoadBuffers(json: string, baseUri: string) returns (thrown: Option<Exception>)
      requires Valid()
      modifies this`gltfRoot, this`loadingError, this`buffers, this`binChunks, this`downloads
      ensures Valid()
      ensures gltfRoot == Some(parseJson(json))
      ensures old(loadingError) ==> loadingError
      ensures var root := parseJson(json);
        !Supported(root) ==>
          && thrown.None? && loadingError
          && unchanged(this`buffers) && unchanged(this`binChunks)
          && unchanged(this`downloads)
      ensures var root := parseJson(json);
        Supported(root) && root.buffers == [] ==>
          && thrown.None? && loadingError == old(loadingError)
          && unchanged(this`buffers) && unchanged(this`binChunks)
          && unchanged(this`downloads)
      ensures var root := parseJson(json);
        Supported(root) && root.buffers != [] ==> |buffers| == |root.buffers| && binChunks == Unmeasured(|root.buffers|)
      ensures var root := parseJson(json);
        Supported(root) && root.buffers != [] && thrown.None? ==>
          && buffers == ResolvedEntries(root.buffers, fromBase64)
          && downloads == old(downloads) + BufferUrls(root.buffers, baseUri, |root.buffers|)
          && loadingError == (old(loadingError) || AnyRejected(root.buffers, fromBase64))
      ensures thrown.Some? ==>
        var root := parseJson(json);
        && thrown.value == FormatException
        && Supported(root) && exists i :: 0 <= i < |root.buffers| && EmbedThrows(root.buffers[i], fromBase64)
    {
      var root := parseJson(json);
      gltfRoot := Some(root);
      if !CheckExtensionSupport(root.extensionsRequired, root.extensionsUsed).supported {
        loadingError := true;
        return None;
      }
      var bufferCount := |root.buffers|;
      if bufferCount > 0 {
        buffers := seq(bufferCount, _ => None);
        binChunks := Unmeasured(bufferCount);
        thrown := LoadBuffers(root.buffers, baseUri);
      } else {
        thrown := None;
      }
    }

    /** One iteration of the loop of `LoadBuffers`: buffer `i` of the document, `buffer`. */
    method LoadBuffer(i: int, buffer: Buffer, baseUri: string) returns (thrown: Option<Exception>)
      requires 0 <= i < |buffers| && buffers[i] == None
      modifies this`loadingError, this`buffers, this`downloads
      ensures |buffers| == |old(buffers)|
      ensures old(loadingError) ==> loadingError
      ensures thrown.Some? <==> EmbedThrows(buffer, fromBase64)
      ensures thrown.Some? ==> thrown.value == FormatException
      ensures thrown.None? ==>
        && buffers == old(buffers)[i := EmbeddedData(buffer, fromBase64)]
        && downloads == (if IsExternal(buffer) then old(downloads)[i := baseUri + buffer.uri] else old(downloads))
        && loadingError == (old(loadingError) || EmbedRejected(buffer, fromBase64))
    {
      if IsEmbedded(buffer) {
        var decoded := DataUri.DecodeEmbedBuffer(buffer.uri, fromBase64);
        if decoded.Thrown? {
          return Some(decoded.error);
        }
        if decoded.Decoded? {
          buffers := buffers[i := Some(decoded.data)];
        } else {
          loadingError := true;
        }
      } else if IsExternal(buffer) {
        downloads := downloads[i := baseUri + buffer.uri];
      }
      return None;
    }

    /**
     * The loop over the buffers in `ParseJsonAndLoadBuffers`, once the arrays are
     * allocated: decode each data URI into its entry, request every other URI.
     */
    method LoadBuffers(bs: seq<Buffer>, baseUri: string) returns (thrown: Option<Exception>)
      requires |buffers| == |bs| && forall k :: 0 <= k < |bs| ==> buffers[k] == None
      modifies this`loadingError, this`buffers, this`downloads
      ensures old(loadingError) ==> loadingError
      ensures |buffers| == |bs|
      ensures thrown.None? ==>
        && buffers == ResolvedEntries(bs, fromBase64)
        && downloads == old(downloads) + BufferUrls(bs, baseUri, |bs|)
        && loadingError == (old(loadingError) || AnyRejected(bs, fromBase64))
      ensures thrown.Some? ==> thrown.value == FormatException && exists i :: 0 <= i < |bs| && EmbedThrows(bs[i], fromBase64)
    {
      ghost var error0 := loadingError;
      ghost var downloads0 := downloads;
      var i := 0;
      while i < |bs|
        invariant 0 <= i <= |bs| && |buffers| == |bs|
        invariant buffers[..i] == ResolvedEntries(bs[..i], fromBase64)
        invariant forall k :: i <= k < |bs| ==> buffers[k] == None
        invariant downloads == downloads0 + BufferUrls(bs, baseUri, i)
        invariant loadingError == (error0 || AnyRejected(bs[..i], fromBase64))
        invariant error0 ==> loadingError
      {
        var buffer := bs[i];
        ghost var entry := EmbeddedData(buffer, fromBase64);
        assert bs[..i + 1][..i] == bs[..i];
        assert ResolvedEntries(bs[..i + 1], fromBase64) == ResolvedEntries(bs[..i], fromBase64) + [entry];
        assert AnyRejected(bs[..i + 1], fromBase64) == (AnyRejected(bs[..i], fromBase64) || EmbedRejected(buffer, fromBase64));
        ghost var done := buffers[..i];
        ghost var urls := BufferUrls(bs, baseUri, i);
        thrown := LoadBuffer(i, buffer, baseUri);
        if thrown.Some? {
          return;
        }
        if IsExternal(buffer) {
          UpdateUnion(downloads0, urls, i, baseUri + buffer.uri);
        }
        assert buffers[i] == entry;
        assert buffers[..i + 1] == done + [entry];
        i := i + 1;
      }
      assert bs[..i] == bs;
      assert buffers[..i] == buffers;
      return None;
    }

    /** One iteration of the loop of `LoadImages`: image `i` of the document, `img`. */
    method LoadImage(i: int, img: Image, baseUri: string) returns (thrown: Option<Exception>)
      requires 0 <= i < |images| && images[i] == NoTexture
      modifies this`images, this`textureDownloads
      ensures var route := LoadImageRoute(img, baseUri, fromBase64);
        && (thrown.Some? <==> route.Fails?)
        && (thrown.Some? ==> thrown.value == route.error)
        && (thrown.None? ==> images == old(images)[i := TextureAfterLoad(route)])
      ensures thrown.None? ==>
        textureDownloads == (if IsDownloaded(img) then old(textureDownloads)[i := baseUri + img.uri] else old(textureDownloads))
    {
      var route := LoadImageRoute(img, baseUri, fromBase64);
      if route.Fails? {
        return Some(route.error);
      } else if route.EmbeddedTexture? {
        images := images[i := LoadedTexture(route.data)];
      } else if route.Download? {
        textureDownloads := textureDownloads[i := route.url];
      }
      return None;
    }

    /**
     * `LoadImages`: one entry per image; an embedded image of known type is
     * decoded and loaded at once, an external file of known type is requested,
     * every other image is left for later or skipped.
     */
    method LoadImages(baseUri: string) returns (thrown: Option<Exception>)
      requires gltfRoot.Some?
      modifies this`images, this`textureDownloads
      ensures var imgs := gltfRoot.value.images;
        thrown.None? ==>
          && images == LoadedTextures(imgs, baseUri, fromBase64)
          && textureDownloads == old(textureDownloads) + ImageUrls(imgs, baseUri, |imgs|)
      ensures var imgs := gltfRoot.value.images;
        thrown.Some? ==>
          && thrown.value == FormatException
          && exists i :: 0 <= i < |imgs| && LoadImageRoute(imgs[i], baseUri, fromBase64) == Fails(thrown.value)
    {
      var imgs := gltfRoot.value.images;
      images := seq(|imgs|, _ => NoTexture);
      thrown := LoadImageList(imgs, baseUri);
    }

    /** The loop of `LoadImages`, once `images` is allocated. */
    method LoadImageList(imgs: seq<Image>, baseUri: string) returns (thrown: Option<Exception>)
      requires |images| == |imgs| && forall k :: 0 <= k < |imgs| ==> images[k] == NoTexture
      modifies this`images, this`textureDownloads
      ensures thrown.None? ==>
        && images == LoadedTextures(imgs, baseUri, fromBase64)
        && textureDownloads == old(textureDownloads) + ImageUrls(imgs, baseUri, |imgs|)
      ensures thrown.Some? ==>
        && thrown.value == FormatException
        && exists i :: 0 <= i < |imgs| && LoadImageRoute(imgs[i], baseUri, fromBase64) == Fails(thrown.value)
    {
      ghost var downloads0 := textureDownloads;
      var i := 0;
      while i < |imgs|
        invariant 0 <= i <= |imgs| && |images| == |imgs|
        invariant forall k | 0 <= k < i :: images[k] == TextureAfterLoad(LoadImageRoute(imgs[k], baseUri, fromBase64))
        invariant forall k :: i <= k < |imgs| ==> images[k] == NoTexture
        invariant textureDownloads == downloads0 + ImageUrls(imgs, baseUri, i)
      {
        ghost var urls := ImageUrls(imgs, baseUri, i);
        thrown := LoadImage(i, imgs[i], baseUri);
        if thrown.Some? {
          assert LoadImageRoute(imgs[i], baseUri, fromBase64) == Fails(thrown.value);
          return;
        }
        if IsDownloaded(imgs[i]) {
          UpdateUnion(downloads0, urls, i, baseUri + imgs[i].uri);
        }
        i := i + 1;
      }
      LoadedTexturesPointwise(imgs, baseUri, fromBase64, images);
      return None;
    }

    /** `LoadGltf`: a JSON document; its images are looked at only when its buffers resolved without error. */
    method LoadGltf(json: string, baseUri: string) returns (thrown: Option<Exception>)
      requires Valid()
      modifies this`gltfRoot, this`loadingError, this`buffers, this`binChunks, this`downloads
      modifies this`images, this`textureDownloads
      ensures Valid()
      ensures gltfRoot == Some(parseJson(json))
      ensures !Supported(parseJson(json)) ==> thrown.None? && loadingError && unchanged(this`images)
      ensures old(loadingError) ==> loadingError
      // the buffers, as `ParseJsonAndLoadBuffers` leaves them
      ensures var root := parseJson(json);
        !Supported(root) || root.buffers == [] ==>
          unchanged(this`buffers) && unchanged(this`binChunks) && unchanged(this`downloads)
      ensures var root := parseJson(json);
        Supported(root) && root.buffers != [] ==> |buffers| == |root.buffers| && binChunks == Unmeasured(|root.buffers|)
      ensures var root := parseJson(json);
        && Supported(root) && root.buffers != []
        && (thrown.None? || forall i | 0 <= i < |root.buffers| :: !EmbedThrows(root.buffers[i], fromBase64)) ==>
          && buffers == ResolvedEntries(root.buffers, fromBase64)
          && downloads == old(downloads) + BufferUrls(root.buffers, baseUri, |root.buffers|)
          && loadingError == (old(loadingError) || AnyRejected(root.buffers, fromBase64))
      // the images, looked at only when no error was recorded
      ensures loadingError ==> unchanged(this`images) && unchanged(this`textureDownloads)
      ensures thrown.None? && !loadingError ==>
        && images == LoadedTextures(parseJson(json).images, baseUri, fromBase64)
        && textureDownloads == old(textureDownloads) + ImageUrls(parseJson(json).images, baseUri, |parseJson(json).images|)
      ensures thrown.Some? ==>
        var root := parseJson(json);
        && thrown.value == FormatException
        && ((exists i :: 0 <= i < |root.buffers| && EmbedThrows(root.buffers[i], fromBase64))
            || (exists i :: 0 <= i < |root.images| && LoadImageRoute(root.images[i], baseUri, fromBase64) == Fails(thrown.value)))
    {
      thrown := ParseJsonAndLoadBuffers(json, baseUri);
      if thrown.None? && !loadingError {
        thrown := LoadImages(baseUri);
      }
    }

    /** The document in a JSON chunk: its bytes decoded as UTF-8, then parsed. */
    function DocumentOf(bytes: Bytes, c: Chunk): Root
      requires JsonReadable(bytes, c)
    {
      parseJson(decodeUtf8(bytes[c.start..c.start + c.length]))
    }

    /** The document `LoadGlb` leaves in `gltfRoot` after the chunks `chunks`: each JSON chunk replaces the one before. */
    function RootAfter(bytes: Bytes, chunks: seq<Chunk>, before: Option<Root>): Option<Root>
      requires JsonChunksReadable(bytes, chunks)
    {
      if chunks == [] then before
      else
        var last := chunks[|chunks| - 1];
        if last.chunkType == ChunkJson then Some(DocumentOf(bytes, last))
        else RootAfter(bytes, chunks[..|chunks| - 1], before)
    }

    /** So the document is the last JSON chunk's, or the one there was when there is no JSON chunk. */
    lemma {:induction false} RootAfterIsLastJson(bytes: Bytes, chunks: seq<Chunk>, before: Option<Root>)
      requires JsonChunksReadable(bytes, chunks)
      ensures LastOfType(chunks, ChunkJson).Some? ==> JsonReadable(bytes, LastOfType(chunks, ChunkJson).value)
      ensures RootAfter(bytes, chunks, before) ==
        match LastOfType(chunks, ChunkJson)
        case Some(c) => Some(DocumentOf(bytes, c))
        case None => before
    {
      if chunks != [] && chunks[|chunks| - 1].chunkType != ChunkJson {
        RootAfterIsLastJson(bytes, chunks[..|chunks| - 1], before);
      }
    }

    /** One more chunk `c` after the chunks `seen`, in the terms the chunk loop keeps. */
    lemma {:induction false} OneMoreChunk(bytes: Bytes, seen: seq<Chunk>, c: Chunk, root0: Option<Root>,
                                          bin0: Option<GlbBinChunk>, buffers0: seq<Option<Bytes>>,
                                          binChunks0: seq<GlbBinChunk>, baseUri: string)
      requires JsonChunksReadable(bytes, seen) && (c.chunkType == ChunkJson ==> JsonReadable(bytes, c))
      ensures JsonChunksReadable(bytes, seen + [c])
      ensures RootAfter(bytes, seen + [c], root0) ==
        if c.chunkType == ChunkJson then Some(DocumentOf(bytes, c)) else RootAfter(bytes, seen, root0)
      ensures BuffersAfter(bytes, seen + [c], buffers0) ==
        if c.chunkType == ChunkJson && DocumentOf(bytes, c).buffers != [] then ResolvedEntries(DocumentOf(bytes, c).buffers, fromBase64)
        else BuffersAfter(bytes, seen, buffers0)
      ensures BinChunksAfter(bytes, seen + [c], binChunks0) ==
        if c.chunkType == ChunkJson && DocumentOf(bytes, c).buffers != [] then Unmeasured(|DocumentOf(bytes, c).buffers|)
        else BinChunksAfter(bytes, seen, binChunks0)
      ensures DownloadsAfter(bytes, seen + [c], baseUri) ==
        if c.chunkType == ChunkJson then
          DownloadsAfter(bytes, seen, baseUri) + BufferUrls(DocumentOf(bytes, c).buffers, baseUri, |DocumentOf(bytes, c).buffers|)
        else DownloadsAfter(bytes, seen, baseUri)
      ensures BinAfter(seen + [c], bin0) == if c.chunkType == ChunkBin then Some(BinRegion(c)) else BinAfter(seen, bin0)
      ensures HasChunkOfType(seen + [c], ChunkJson) == (c.chunkType == ChunkJson || HasChunkOfType(seen, ChunkJson))
    {
      assert (seen + [c])[..|seen|] == seen;
    }

    /** Without a JSON chunk the document stays the one there was. */
    lemma {:induction false} RootAfterWithoutJson(bytes: Bytes, chunks: seq<Chunk>, before: Option<Root>)
      requires JsonChunksReadable(bytes, chunks)
      ensures !HasChunkOfType(chunks, ChunkJson) ==> RootAfter(bytes, chunks, before) == before
    {
      if chunks != [] {
        RootAfterWithoutJson(bytes, chunks[..|chunks| - 1], before);
      }
    }

    /**
     * The entries `buffers` holds after the chunks `chunks`, from `before`:
     * those of the last JSON chunk that lists buffers, since a document
     * without buffers leaves the array as it was.
     */
    function BuffersAfter(bytes: Bytes, chunks: seq<Chunk>, before: seq<Option<Bytes>>): seq<Option<Bytes>>
      requires JsonChunksReadable(bytes, chunks)
    {
      if chunks == [] then before
      else
        var last := chunks[|chunks| - 1];
        if last.chunkType == ChunkJson && DocumentOf(bytes, last).buffers != [] then
          ResolvedEntries(DocumentOf(bytes, last).buffers, fromBase64)
        else BuffersAfter(bytes, chunks[..|chunks| - 1], before)
    }

    /** The regions `binChunks` holds after the chunks `chunks`, from `before`, allocated with `buffers`. */
    function BinChunksAfter(bytes: Bytes, chunks: seq<Chunk>, before: seq<GlbBinChunk>): seq<GlbBinChunk>
      requires JsonChunksReadable(bytes, chunks)
    {
      if chunks == [] then before
      else
        var last := chunks[|chunks| - 1];
        if last.chunkType == ChunkJson && DocumentOf(bytes, last).buffers != [] then
          Unmeasured(|DocumentOf(bytes, last).buffers|)
        else BinChunksAfter(bytes, chunks[..|chunks| - 1], before)
    }

    /** The two arrays stay allocated together: one region per buffer entry. */
    lemma {:induction false} ArraysAfterAgree(bytes: Bytes, chunks: seq<Chunk>, buffers0: seq<Option<Bytes>>,
                                              binChunks0: seq<GlbBinChunk>)
      requires JsonChunksReadable(bytes, chunks) && |buffers0| == |binChunks0|
      ensures |BuffersAfter(bytes, chunks, buffers0)| == |BinChunksAfter(bytes, chunks, binChunks0)|
    {
      if chunks != [] {
        ArraysAfterAgree(bytes, chunks[..|chunks| - 1], buffers0, binChunks0);
      }
    }

    /**
     * When the document kept is a JSON chunk's and lists buffers, the arrays
     * were last allocated for it: its resolved entries and one unmeasured
     * region per buffer it lists.
     */
    lemma {:induction false} ArraysAfterFollowRoot(bytes: Bytes, chunks: seq<Chunk>, before: Option<Root>,
                                                   buffers0: seq<Option<Bytes>>, binChunks0: seq<GlbBinChunk>)
      requires JsonChunksReadable(bytes, chunks)
      ensures HasChunkOfType(chunks, ChunkJson) ==> RootAfter(bytes, chunks, before).Some?
      ensures HasChunkOfType(chunks, ChunkJson) && RootAfter(bytes, chunks, before).value.buffers != [] ==>
        var root := RootAfter(bytes, chunks, before).value;
        && BuffersAfter(bytes, chunks, buffers0) == ResolvedEntries(root.buffers, fromBase64)
        && BinChunksAfter(bytes, chunks, binChunks0) == Unmeasured(|root.buffers|)
    {
      if chunks != [] && chunks[|chunks| - 1].chunkType != ChunkJson {
        ArraysAfterFollowRoot(bytes, chunks[..|chunks| - 1], before, buffers0, binChunks0);
      }
    }

    /**
     * The buffer downloads the JSON chunks among `chunks` request: each
     * chunk's document adds its own over those of the chunks before it.
     */
    function DownloadsAfter(bytes: Bytes, chunks: seq<Chunk>, baseUri: string): map<int, string>
      requires JsonChunksReadable(bytes, chunks)
    {
      if chunks == [] then map[]
      else
        var earlier := DownloadsAfter(bytes, chunks[..|chunks| - 1], baseUri);
        var last := chunks[|chunks| - 1];
        if last.chunkType == ChunkJson then
          var doc := DocumentOf(bytes, last);
          earlier + BufferUrls(doc.buffers, baseUri, |doc.buffers|)
        else earlier
    }

    /** The most buffers any JSON chunk among `chunks` lists. */
    function MostBuffers(bytes: Bytes, chunks: seq<Chunk>): nat
      requires JsonChunksReadable(bytes, chunks)
    {
      if chunks == [] then 0
      else
        var earlier := MostBuffers(bytes, chunks[..|chunks| - 1]);
        var last := chunks[|chunks| - 1];
        if last.chunkType == ChunkJson && |DocumentOf(bytes, last).buffers| > earlier then |DocumentOf(bytes, last).buffers|
        else earlier
    }

    /** A download is requested only for a buffer some JSON chunk's document lists. */
    lemma {:induction false} DownloadsAfterKeys(bytes: Bytes, chunks: seq<Chunk>, baseUri: string)
      requires JsonChunksReadable(bytes, chunks)
      ensures forall k | k in DownloadsAfter(bytes, chunks, baseUri) :: 0 <= k < MostBuffers(bytes, chunks)
    {
      if chunks != [] {
        var front := chunks[..|chunks| - 1];
        DownloadsAfterKeys(bytes, front, baseUri);
        var last := chunks[|chunks| - 1];
        if last.chunkType == ChunkJson {
          var doc := DocumentOf(bytes, last);
          BufferUrlsExactly(doc.buffers, baseUri, |doc.buffers|);
        }
      }
    }

    /**
     * The JSON branch of `LoadGlb`'s walk: decode the chunk's bytes and parse
     * them. The result is the outcome `LoadGlb` ends with, if it ends here.
     */
    method LoadJsonChunk(bytes: Bytes, c: Chunk, baseUri: string) returns (stop: Option<Completion>)
      requires Valid() && 0 <= c.start && IsUInt32(c.length)
      modifies this`gltfRoot, this`loadingError, this`buffers, this`binChunks, this`downloads
      ensures Valid()
      ensures stop.None? ==> !loadingError
      ensures !JsonReadable(bytes, c) <==> stop == Some(Threw(ArgumentException))
      ensures JsonReadable(bytes, c) ==> gltfRoot == Some(DocumentOf(bytes, c))
      ensures !JsonReadable(bytes, c) ==> unchanged(this`gltfRoot) && unchanged(this`loadingError)
      ensures !JsonReadable(bytes, c) ==> unchanged(this`buffers) && unchanged(this`binChunks) && unchanged(this`downloads)
      // a document that loads without error replaces the arrays when it lists buffers, and requests its downloads
      ensures stop.None? ==> JsonReadable(bytes, c)
      ensures stop.None? ==>
        var doc := DocumentOf(bytes, c);
        && buffers == (if doc.buffers != [] then ResolvedEntries(doc.buffers, fromBase64) else old(buffers))
        && binChunks == (if doc.buffers != [] then Unmeasured(|doc.buffers|) else old(binChunks))
        && downloads == old(downloads) + BufferUrls(doc.buffers, baseUri, |doc.buffers|)
      ensures stop.Some? && stop.value.Returned? ==> stop.value == Returned(false) && loadingError
      ensures stop.Some? && stop.value.Threw? ==> stop.value.error in {ArgumentException, FormatException}
    {
      if c.length >= TwoTo31 || c.start + c.length > |bytes| {
        return Some(Threw(ArgumentException));
      }
      var json := decodeUtf8(bytes[c.start..c.start + c.length]);
      var thrown := ParseJsonAndLoadBuffers(json, baseUri);
      if thrown.Some? {
        return Some(Threw(thrown.value));
      }
      if loadingError {
        return Some(Returned(false));
      }
      return None;
    }

    /** The body of the chunk loop of `LoadGlb` for one chunk `c`. */
    method LoadChunk(bytes: Bytes, c: Chunk, baseUri: string) returns (stop: Option<Completion>)
      requires Valid() && 0 <= c.start && IsUInt32(c.length)
      modifies this`gltfRoot, this`loadingError, this`buffers, this`binChunks, this`downloads, this`glbBinChunk
      ensures Valid()
      ensures stop.Some? ==> c.chunkType == ChunkJson
      ensures stop == Some(Threw(ArgumentException)) <==> c.chunkType == ChunkJson && !JsonReadable(bytes, c)
      ensures stop.Some? && stop.value.Returned? ==> stop.value == Returned(false) && loadingError
      ensures stop.None? ==>
        && (c.chunkType == ChunkJson ==> JsonReadable(bytes, c) && gltfRoot == Some(DocumentOf(bytes, c)) && !loadingError)
        && (c.chunkType != ChunkJson ==> gltfRoot == old(gltfRoot) && loadingError == old(loadingError))
        && glbBinChunk == (if c.chunkType == ChunkBin then Some(BinRegion(c)) else old(glbBinChunk))
      ensures c.chunkType != ChunkJson ==> unchanged(this`buffers) && unchanged(this`binChunks) && unchanged(this`downloads)
      ensures stop.None? && c.chunkType == ChunkJson ==>
        var doc := DocumentOf(bytes, c);
        && buffers == (if doc.buffers != [] then ResolvedEntries(doc.buffers, fromBase64) else old(buffers))
        && binChunks == (if doc.buffers != [] then Unmeasured(|doc.buffers|) else old(binChunks))
        && downloads == old(downloads) + BufferUrls(doc.buffers, baseUri, |doc.buffers|)
    {
      if c.chunkType == ChunkBin {
        glbBinChunk := Some(GlbBinChunk(c.start, c.length));
        stop := None;
      } else if c.chunkType == ChunkJson {
        stop := LoadJsonChunk(bytes, c, baseUri);
      } else {
        stop := None;
      }
    }

    /**
     * The chunk loop of `LoadGlb`, from the first chunk header at offset 12: a
     * BIN chunk becomes `glbBinChunk`, a JSON chunk is decoded and parsed as by
     * `ParseJsonAndLoadBuffers`. The result is the outcome `LoadGlb` ends
     * with when it ends inside the loop.
     */
    method ReadChunks(bytes: Bytes, baseUri: string) returns (stop: Option<Completion>)
      requires Valid()
      modifies this`gltfRoot, this`loadingError, this`buffers, this`binChunks, this`downloads, this`glbBinChunk
      ensures Valid()
      ensures stop.None? ==>
        var w := ChunkWalk(bytes, FirstChunk);
        && !w.truncated
        && JsonChunksReadable(bytes, w.chunks)
        && gltfRoot == RootAfter(bytes, w.chunks, old(gltfRoot))
        && glbBinChunk == BinAfter(w.chunks, old(glbBinChunk))
        && loadingError == (old(loadingError) && !HasChunkOfType(w.chunks, ChunkJson))
        && buffers == BuffersAfter(bytes, w.chunks, old(buffers))
        && binChunks == BinChunksAfter(bytes, w.chunks, old(binChunks))
        && downloads == old(downloads) + DownloadsAfter(bytes, w.chunks, baseUri)
      ensures stop == Some(Threw(ArgumentException)) ==>
        var w := ChunkWalk(bytes, FirstChunk);
        w.truncated || !JsonChunksReadable(bytes, w.chunks)
      ensures stop.Some? && stop.value.Returned? ==> stop.value == Returned(false) && loadingError
      ensures stop.Some? ==>
        var w := ChunkWalk(bytes, FirstChunk);
        w.truncated || HasChunkOfType(w.chunks, ChunkJson)
    {
      var index := FirstChunk;
      ghost var seen: seq<Chunk> := [];
      ghost var root0, bin0, error0 := gltfRoot, glbBinChunk, loadingError;
      ghost var buffers0, binChunks0, downloads0 := buffers, binChunks, downloads;
      assert downloads == downloads0 + DownloadsAfter(bytes, seen, baseUri);
      while index < |bytes|
        invariant FirstChunk <= index
        invariant ReadInTurn(bytes, seen, index)
        invariant AfterChunks(bytes, baseUri, seen, root0, bin0, error0, buffers0, binChunks0, downloads0)
        decreases |bytes| - index
      {
        var c;
        stop, c := ReadNextChunk(bytes, index, baseUri, seen, root0, bin0, error0, buffers0, binChunks0, downloads0);
        if stop.Some? {
          ReadInTurnWalk(bytes, seen, index);
          WalkStops(bytes, seen, index, c);
          return;
        }
        ReadInTurnStep(bytes, seen, index, c);
        seen := seen + [c];
        index := c.start + c.length;
      }
      ReadInTurnWalk(bytes, seen, index);
      assert seen == ChunkWalk(bytes, FirstChunk).chunks;
      return None;
    }

    /**
     * The state the chunk loop of `LoadGlb` has reached once it has handled
     * the chunks `seen`, from the document `root0`, the BIN region `bin0` and
     * the error flag `error0` it started with.
     */
    predicate AfterChunks(bytes: Bytes, baseUri: string, seen: seq<Chunk>, root0: Option<Root>, bin0: Option<GlbBinChunk>,
                          error0: bool, buffers0: seq<Option<Bytes>>, binChunks0: seq<GlbBinChunk>, downloads0: map<int, string>)
      reads this
    {
      && Valid()
      && JsonChunksReadable(bytes, seen)
      && gltfRoot == RootAfter(bytes, seen, root0)
      && glbBinChunk == BinAfter(seen, bin0)
      && loadingError == (error0 && !HasChunkOfType(seen, ChunkJson))
      && buffers == BuffersAfter(bytes, seen, buffers0)
      && binChunks == BinChunksAfter(bytes, seen, binChunks0)
      && downloads == downloads0 + DownloadsAfter(bytes, seen, baseUri)
    }

    /** One turn of the chunk loop of `LoadGlb`: read the header at `index`, then handle the chunk `c` after it. */
    method ReadNextChunk(bytes: Bytes, index: nat, baseUri: string, ghost seen: seq<Chunk>, ghost root0: Option<Root>,
                         ghost bin0: Option<GlbBinChunk>, ghost error0: bool, ghost buffers0: seq<Option<Bytes>>,
                         ghost binChunks0: seq<GlbBinChunk>, ghost downloads0: map<int, string>)
      returns (stop: Option<Completion>, c: Chunk)
      requires AfterChunks(bytes, baseUri, seen, root0, bin0, error0, buffers0, binChunks0, downloads0)
      modifies this`gltfRoot, this`loadingError, this`buffers, this`binChunks, this`downloads, this`glbBinChunk
      ensures Valid()
      ensures UInt32At(bytes, index).None? || UInt32At(bytes, index + 4).None? ==> stop == Some(Threw(ArgumentException))
      ensures UInt32At(bytes, index).Some? && UInt32At(bytes, index + 4).Some? ==>
        && c == Chunk(index + ChunkHeaderLength, UInt32At(bytes, index).value, UInt32At(bytes, index + 4).value)
        && (stop.Some? ==> c.chunkType == ChunkJson)
        && (stop == Some(Threw(ArgumentException)) <==> c.chunkType == ChunkJson && !JsonReadable(bytes, c))
      ensures stop.Some? && stop.value.Returned? ==> stop.value == Returned(false) && loadingError
      ensures stop.None? ==> UInt32At(bytes, index) == Some(c.length) && UInt32At(bytes, index + 4) == Some(c.chunkType)
      ensures stop.None? ==>
        && c.start == index + ChunkHeaderLength
        && AfterChunks(bytes, baseUri, seen + [c], root0, bin0, error0, buffers0, binChunks0, downloads0)
    {
      var chunkLength := UInt32At(bytes, index);
      var chunkType := UInt32At(bytes, index + 4);
      if chunkLength.None? || chunkType.None? {
        return Some(Threw(ArgumentException)), Chunk(index + ChunkHeaderLength, 0, 0);
      }
      c := Chunk(index + ChunkHeaderLength, chunkLength.value, chunkType.value);
      stop := LoadChunk(bytes, c, baseUri);
      if stop.None? {
        OneMoreChunk(bytes, seen, c, root0, bin0, buffers0, binChunks0, baseUri);
        if c.chunkType == ChunkJson {
          var doc := DocumentOf(bytes, c);
          UnionAssociates(downloads0, DownloadsAfter(bytes, seen, baseUri), BufferUrls(doc.buffers, baseUri, |doc.buffers|));
        }
      }
    }

    /**
     * `LoadGlb`: check the 12-byte header, then walk the chunks with
     * `ReadChunks`. Once the walk is done, the BIN chunk becomes
     * buffer 0 and the images are loaded. The result is whether no error has
     * been recorded; exceptions are outcomes of their own.
     */
    method LoadGlb(bytes: Bytes, baseUri: string) returns (r: Completion)
      requires Valid()
      modifies this`gltfRoot, this`loadingError, this`buffers, this`binChunks, this`downloads
      modifies this`glbBinChunk, this`images, this`textureDownloads
      ensures Valid()
      ensures r.Returned? ==> r.value == !loadingError
      // the header
      ensures UInt32At(bytes, 0).None? ==> r == Threw(ArgumentException)
      ensures UInt32At(bytes, 0).Some? && UInt32At(bytes, 0).value != GlbMagic ==> r == Returned(false)
      ensures UInt32At(bytes, 0) == Some(GlbMagic) && UInt32At(bytes, 4).None? ==> r == Threw(ArgumentException)
      ensures UInt32At(bytes, 0) == Some(GlbMagic) && UInt32At(bytes, 4).Some? && UInt32At(bytes, 4).value != GlbVersion ==>
        r == Returned(false)
      // the chunks
      ensures r == Returned(true) ==>
        var w := ChunkWalk(bytes, FirstChunk);
        && UInt32At(bytes, 0) == Some(GlbMagic) && UInt32At(bytes, 4) == Some(GlbVersion)
        && !w.truncated
        && JsonChunksReadable(bytes, w.chunks)
        && gltfRoot == RootAfter(bytes, w.chunks, old(gltfRoot))
        && gltfRoot.Some?
        && glbBinChunk == BinAfter(w.chunks, old(glbBinChunk))
        && (glbBinChunk.Some? ==> buffers != [] && binChunks[0] == glbBinChunk.value && buffers[0] == Some(bytes))
        && images == LoadedTextures(gltfRoot.value.images, baseUri, fromBase64)
        && textureDownloads == old(textureDownloads) + ImageUrls(gltfRoot.value.images, baseUri, |gltfRoot.value.images|)
      // the buffers: those of the last JSON chunk that lists any, with the BIN chunk as buffer 0
      ensures r == Returned(true) ==>
        var w := ChunkWalk(bytes, FirstChunk);
        && JsonChunksReadable(bytes, w.chunks)
        && |BinChunksAfter(bytes, w.chunks, old(binChunks))| == |BuffersAfter(bytes, w.chunks, old(buffers))|
        && (glbBinChunk.Some? ==> BuffersAfter(bytes, w.chunks, old(buffers)) != [])
        && buffers == (if glbBinChunk.Some? then BuffersAfter(bytes, w.chunks, old(buffers))[0 := Some(bytes)]
                       else BuffersAfter(bytes, w.chunks, old(buffers)))
        && binChunks == (if glbBinChunk.Some? then BinChunksAfter(bytes, w.chunks, old(binChunks))[0 := glbBinChunk.value]
                         else BinChunksAfter(bytes, w.chunks, old(binChunks)))
        && downloads == old(downloads) + DownloadsAfter(bytes, w.chunks, baseUri)
        && (forall k | k in DownloadsAfter(bytes, w.chunks, baseUri) :: 0 <= k < MostBuffers(bytes, w.chunks))
        && (HasChunkOfType(w.chunks, ChunkJson) && gltfRoot.value.buffers != [] ==> |buffers| == |gltfRoot.value.buffers|)
      ensures r == Threw(ArgumentException) ==>
        var w := ChunkWalk(bytes, FirstChunk);
        UInt32At(bytes, 4).None? || w.truncated || !JsonChunksReadable(bytes, w.chunks)
      ensures UInt32At(bytes, 0) == Some(GlbMagic) && UInt32At(bytes, 4) == Some(GlbVersion) ==>
        var w := ChunkWalk(bytes, FirstChunk);
        (!w.truncated && !HasChunkOfType(w.chunks, ChunkJson) && old(gltfRoot).None? ==> r == Returned(false))
    {
      var magic := UInt32At(bytes, 0);
      if magic.None? {
        return Threw(ArgumentException);
      }
      if magic.value != GlbMagic {
        loadingError := true;
        return Returned(false);
      }
      var version := UInt32At(bytes, 4);
      if version.None? {
        return Threw(ArgumentException);
      }
      if version.value != GlbVersion {
        loadingError := true;
        return Returned(false);
      }
      var stop := ReadChunks(bytes, baseUri);
      if stop.Some? {
        return stop.value;
      }
      ghost var chunks := ChunkWalk(bytes, FirstChunk).chunks;
      RootAfterWithoutJson(bytes, chunks, old(gltfRoot));
      DownloadsAfterKeys(bytes, chunks, baseUri);
      ArraysAfterAgree(bytes, chunks, old(buffers), old(binChunks));
      ArraysAfterFollowRoot(bytes, chunks, old(gltfRoot), old(buffers), old(binChunks));
      if gltfRoot.None? {
        loadingError := true;
        return Returned(false);
      }
      if glbBinChunk.Some? {
        if buffers == [] {
          return Threw(NullReferenceException);
        }
        binChunks := binChunks[0 := glbBinChunk.value];
        buffers := buffers[0 := Some(bytes)];
      }
      var thrown := LoadImages(baseUri);
      if thrown.Some? {
        return Threw(thrown.value);
      }
      return Returned(!loadingError);
    }

    /**
     * The first loop of `WaitForBufferDownloads`, once every download has
     * finished: `fetched` gives the data a download delivered, or None for a
     * network or HTTP error, which is only logged. Each delivered download
     * fills its own entry, so without a throw the order the dictionary yields
     * them in does not matter. A delivered download whose key is past the end
     * of `buffers` throws `IndexOutOfRangeException`; which entries were filled
     * before it depends on that order and is not described.
     */
    method DeliverDownloads(fetched: int -> Option<Bytes>) returns (thrown: Option<Exception>)
      modifies this`buffers
      ensures |buffers| == |old(buffers)|
      ensures thrown.None? <==> forall k :: !StrayDelivery(fetched, k)
      ensures thrown.Some? ==> thrown.value == IndexOutOfRangeException
      ensures thrown.None? ==> forall k | 0 <= k < |buffers| ::
        buffers[k] == if k in downloads && fetched(k).Some? then fetched(k) else old(buffers)[k]
    {
      var pending := downloads.Keys;
      while pending != {}
        invariant pending <= downloads.Keys && |buffers| == |old(buffers)|
        invariant forall k | k in downloads && k !in pending :: !StrayDelivery(fetched, k)
        invariant forall k | 0 <= k < |buffers| ::
          buffers[k] == if k in downloads && k !in pending && fetched(k).Some? then fetched(k) else old(buffers)[k]
        decreases |pending|
      {
        var key := AnyElement(pending);
        var data := fetched(key);
        if data.Some? {
          if !(0 <= key < |buffers|) {
            assert StrayDelivery(fetched, key);
            return Some(IndexOutOfRangeException);
          }
          buffers := buffers[key := data];
        }
        pending := pending - {key};
      }
      return None;
    }

    /**
     * A finished download whose key is no index of `buffers`: storing its data
     * throws. This happens when a later JSON chunk of a GLB lists fewer buffers
     * than an earlier one that requested the download.
     */
    predicate StrayDelivery(fetched: int -> Option<Bytes>, k: int)
      reads this
    {
      k in downloads && fetched(k).Some? && !(0 <= k < |buffers|)
    }

    /**
     * The second loop of `WaitForBufferDownloads`: every buffer but a GLB's
     * buffer 0 (whose region `LoadGlb` set to the BIN chunk) gets the region of
     * its whole array. A buffer still null, or no buffers at all, throws.
     */
    method MeasureBuffers() returns (thrown: Option<Exception>)
      requires Valid()
      modifies this`binChunks
      ensures Valid()
      ensures thrown.None? <==> buffers != [] && AllMeasurable(buffers, glbBinChunk.Some?)
      ensures thrown.Some? ==> thrown.value == NullReferenceException
      ensures thrown.None? ==> forall i | 0 <= i < |buffers| ::
        binChunks[i] == if i == 0 && glbBinChunk.Some? then old(binChunks)[0] else GlbBinChunk(0, |buffers[i].value|)
    {
      if buffers == [] {
        return Some(NullReferenceException);
      }
      var i := 0;
      while i < |buffers|
        invariant 0 <= i <= |buffers| && |binChunks| == |buffers|
        invariant AllMeasurable(buffers[..i], glbBinChunk.Some?)
        invariant forall k | 0 <= k < |buffers| ::
          binChunks[k] == if k < i && !(k == 0 && glbBinChunk.Some?) then GlbBinChunk(0, |buffers[k].value|) else old(binChunks)[k]
      {
        if !(i == 0 && glbBinChunk.Some?) {
          var b := buffers[i];
          if b.None? {
            return Some(NullReferenceException);
          }
          binChunks := binChunks[i := GlbBinChunk(0, |b.value|)];
        }
        i := i + 1;
      }
      assert buffers[..i] == buffers;
      return None;
    }

    /** `WaitForBufferDownloads`: store what the downloads delivered, then give each buffer its region. */
    method WaitForBufferDownloads(fetched: int -> Option<Bytes>) returns (thrown: Option<Exception>)
      requires Valid()
      modifies this`buffers, this`binChunks
      ensures Valid()
      ensures |buffers| == |old(buffers)|
      // a delivered download with no buffer entry to go to throws before any region is set
      ensures thrown == Some(IndexOutOfRangeException) <==> exists k :: StrayDelivery(fetched, k)
      ensures thrown == Some(IndexOutOfRangeException) ==> unchanged(this`binChunks)
      ensures (forall k :: !StrayDelivery(fetched, k)) ==>
        && (forall k | 0 <= k < |buffers| ::
              buffers[k] == if k in downloads && fetched(k).Some? then fetched(k) else old(buffers)[k])
        && (thrown.None? <==> buffers != [] && AllMeasurable(buffers, glbBinChunk.Some?))
        && (thrown.Some? ==> thrown.value == NullReferenceException)
        && (thrown.None? ==> forall i | 0 <= i < |buffers| ::
              binChunks[i] == if i == 0 && glbBinChunk.Some? then old(binChunks)[0] else GlbBinChunk(0, |buffers[i].value|))
    {
      thrown := DeliverDownloads(fetched);
      if thrown.Some? {
        return;
      }
      thrown := MeasureBuffers();
    }

    /**
     * `GetBufferView`: the bytes of a buffer view, as a slice of the array that
     * holds its buffer. A null buffer has no native copy to slice.
     */
    function GetBufferView(view: BufferView): (r: Result<BufferSlice, Exception>)
      reads this
      requires Valid() && 0 <= view.buffer < |buffers|
      ensures r.Failure? <==> buffers[view.buffer].None?
      ensures r.Failure? ==> r.error == ArgumentNullException
      ensures r.Success? ==> r.value.data == buffers[view.buffer].value && r.value.length == view.byteLength
      // an accessor of the view reads from its own offset past where the slice starts
      ensures r.Success? ==> forall acc: Accessor ::
        ReadStart(acc, view, binChunks[view.buffer]) == WrapInt32(r.value.start + acc.byteOffset)
      // a view that fits its buffer's region, at a start that fits an int, gives a slice inside that region
      ensures r.Success? ==>
        var chunk := binChunks[view.buffer];
        (0 <= view.byteOffset && view.byteOffset + view.byteLength <= chunk.length && IsInt32(chunk.start + view.byteOffset)) ==>
        chunk.start <= r.value.start && r.value.start + r.value.length <= chunk.start + chunk.length
    {
      match buffers[view.buffer]
      case None => Failure(ArgumentNullException)
      case Some(data) =>
        var chunk := binChunks[view.buffer];
        ReadStartFromSlice(view, chunk);
        Success(BufferSlice(data, WrapInt32(chunk.start + view.byteOffset), view.byteLength))
    }

    /**
     * `CreateTexturesFromBuffers`: every image of known type stored in a buffer
     * view gets an empty texture and a copy of the view's bytes, scheduled in
     * image order; the loop stops at the first copy that cannot be scheduled.
     */
    method CreateTexturesFromBuffers(imgs: seq<Image>, views: seq<BufferView>) returns (thrown: Option<Exception>)
      requires Valid() && CopiesResolve(imgs, views, binChunks, |images|)
      requires imageCopies == []
      modifies this`images, this`imageCopies
      ensures |images| == |old(images)|
      ensures thrown == FirstCopyFault(imgs, views, binChunks, buffers, 0, |images|)
      ensures thrown.None? ==> imageCopies == ScheduledCopies(imgs, views, binChunks, |images|)
      ensures thrown.None? ==> forall i | 0 <= i < |images| ::
        images[i] == if IsKnownImageType(imgs[i]) && imgs[i].bufferView >= 0 then AwaitingCopy else old(images)[i]
    {
      ghost var images0 := images;
      var i := 0;
      while i < |images|
        invariant 0 <= i <= |images| && |images| == |images0|
        invariant FirstCopyFault(imgs, views, binChunks, buffers, 0, |images|) ==
          FirstCopyFault(imgs, views, binChunks, buffers, i, |images|)
        invariant imageCopies == ScheduledCopies(imgs, views, binChunks, i)
        invariant forall k | 0 <= k < |images| ::
          images[k] == if k < i && IsKnownImageType(imgs[k]) && imgs[k].bufferView >= 0 then AwaitingCopy else images0[k]
      {
        assert ScheduledCopies(imgs, views, binChunks, i + 1) ==
          ScheduledCopies(imgs, views, binChunks, i) +
            match BufferImageCopy(i, imgs[i], views, binChunks) case Some(copy) => [copy] case None => [];
        var fault := ScheduleImageCopy(i, imgs, views);
        assert FirstCopyFault(imgs, views, binChunks, buffers, i, |images|) ==
          if fault.Some? then fault else FirstCopyFault(imgs, views, binChunks, buffers, i + 1, |images|);
        if fault.Some? {
          return fault;
        }
        i := i + 1;
      }
      return None;
    }

    /** One turn of the loop of `CreateTexturesFromBuffers`: image `i`. */
    method ScheduleImageCopy(i: nat, imgs: seq<Image>, views: seq<BufferView>) returns (fault: Option<Exception>)
      requires Valid() && CopiesResolve(imgs, views, binChunks, i + 1) && i < |images|
      modifies this`images, this`imageCopies
      ensures |images| == |old(images)|
      ensures fault == CopyFaultAt(i, imgs, views, binChunks, buffers)
      ensures fault.None? ==>
        imageCopies == old(imageCopies) +
          match BufferImageCopy(i, imgs[i], views, binChunks) case Some(copy) => [copy] case None => []
      ensures fault.None? ==>
        images == if IsKnownImageType(imgs[i]) && imgs[i].bufferView >= 0 then old(images)[i := AwaitingCopy] else old(images)
    {
      fault := None;
      var img := imgs[i];
      if IsKnownImageType(img) && img.bufferView >= 0 {
        var view := views[img.bufferView];
        var chunk := binChunks[view.buffer];
        var copy := ImageCopy(i, view.buffer, WrapInt32(view.byteOffset + chunk.start), view.byteLength);
        fault := CopyFault(copy, buffers[view.buffer]);
        if fault.Some? {
          return;
        }
        imageCopies := imageCopies + [copy];
        images := images[i := AwaitingCopy];
      }
    }

    /**
     * `PreparePrimitives`: number the primitives of all meshes in
     * `meshPrimitiveIndex`, allocate one empty slot per primitive, and record
     * a context for each primitive, mesh by mesh, in slot order.
     */
    method PreparePrimitives(root: Root) returns (thrown: Option<Exception>)
      requires MeshesResolve(root, root.meshes) && Valid() && |binChunks| == |root.buffers|
      requires meshPrimitiveIndex.Length == |root.meshes| + 1
      modifies meshPrimitiveIndex, this`primitives, this`primitiveContexts
      ensures meshPrimitiveIndex[..] == PrimitiveTable(root.meshes)
      ensures primitives == seq(TotalPrimitives(root.meshes), _ => None)
      ensures thrown == MeshesFault(root, binChunks, buffers, root.meshes, 0)
      ensures thrown.None? ==> primitiveContexts == Contexts(root, binChunks, root.meshes)
    {
      var totalPrimitives := NumberPrimitives(root.meshes);
      primitives := seq(totalPrimitives, _ => None);
      primitiveContexts := [];
      thrown := ScheduleContexts(root);
    }

    /** The first loop of `PreparePrimitives`: the running total before each mesh, and after the last. */
    method NumberPrimitives(meshes: seq<Mesh>) returns (totalPrimitives: nat)
      requires meshPrimitiveIndex.Length == |meshes| + 1
      modifies meshPrimitiveIndex
      ensures meshPrimitiveIndex[..] == PrimitiveTable(meshes)
      ensures totalPrimitives == TotalPrimitives(meshes)
    {
      totalPrimitives := 0;
      var meshIndex := 0;
      while meshIndex < |meshes|
        invariant 0 <= meshIndex <= |meshes|
        invariant totalPrimitives == TotalPrimitives(meshes[..meshIndex])
        invariant forall k | 0 <= k < meshIndex :: meshPrimitiveIndex[k] == TotalPrimitives(meshes[..k])
      {
        meshPrimitiveIndex[meshIndex] := totalPrimitives;
        assert meshes[..meshIndex + 1][..meshIndex] == meshes[..meshIndex];
        totalPrimitives := totalPrimitives + |meshes[meshIndex].primitives|;
        meshIndex := meshIndex + 1;
      }
      assert meshes[..|meshes|] == meshes;
      meshPrimitiveIndex[|meshes|] := totalPrimitives;
      assert forall k | 0 <= k <= |meshes| :: meshPrimitiveIndex[..][k] == PrimitiveTable(meshes)[k];
    }

    /** The second loop of `PreparePrimitives`: the contexts of each mesh in turn, up to the first exception. */
    method ScheduleContexts(root: Root) returns (thrown: Option<Exception>)
      requires MeshesResolve(root, root.meshes) && Valid() && |binChunks| == |root.buffers|
      requires primitiveContexts == []
      modifies this`primitiveContexts
      ensures thrown == MeshesFault(root, binChunks, buffers, root.meshes, 0)
      ensures thrown.None? ==> primitiveContexts == Contexts(root, binChunks, root.meshes)
    {
      var meshes := root.meshes;
      var i := 0;
      var meshIndex := 0;
      while meshIndex < |meshes|
        invariant 0 <= meshIndex <= |meshes|
        invariant MeshesResolve(root, meshes[..meshIndex])
        invariant primitiveContexts == Contexts(root, binChunks, meshes[..meshIndex])
        invariant i == |primitiveContexts|
        invariant MeshesFault(root, binChunks, buffers, meshes, 0) == MeshesFault(root, binChunks, buffers, meshes, meshIndex)
      {
        var mesh := meshes[meshIndex];
        assert meshes[..meshIndex + 1][..meshIndex] == meshes[..meshIndex];
        assert meshes[..meshIndex + 1][meshIndex] == mesh;
        i, thrown := ScheduleMeshContexts(root, mesh.primitives, i);
        if thrown.Some? {
          return;
        }
        meshIndex := meshIndex + 1;
        assert MeshesResolve(root, meshes[..meshIndex]);
      }
      assert meshes[..|meshes|] == meshes;
      thrown := None;
    }

    /**
     * The primitives of one mesh, the first of which goes to slot `i`; returns
     * the next slot, or the exception of the first primitive whose preparation
     * throws.
     */
    method ScheduleMeshContexts(root: Root, ps: seq<MeshPrimitive>, i: int) returns (next: int, thrown: Option<Exception>)
      requires forall q | 0 <= q < |ps| :: !ps[q].dracoCompressed ==> PrimitiveResolves(root, ps[q])
      requires Valid() && |binChunks| == |root.buffers|
      modifies this`primitiveContexts
      ensures thrown == MeshFault(root, binChunks, buffers, ps, 0)
      ensures thrown.None? ==> next == i + |ps|
      ensures thrown.None? ==> primitiveContexts == old(primitiveContexts) + MeshContexts(root, binChunks, i, ps)
    {
      next := i;
      var q := 0;
      while q < |ps|
        invariant 0 <= q <= |ps| && next == i + q
        invariant primitiveContexts == old(primitiveContexts) + MeshContexts(root, binChunks, i, ps[..q])
        invariant MeshFault(root, binChunks, buffers, ps, 0) == MeshFault(root, binChunks, buffers, ps, q)
      {
        var primitive := ps[q];
        var context;
        if primitive.dracoCompressed {
          context := DracoContext(next, primitive);
        } else {
          var prepared := PreparePrimitive(root, next, primitive);
          if prepared.Failure? {
            return next, Some(prepared.error);
          }
          context := prepared.value;
        }
        assert ps[..q + 1][..q] == ps[..q];
        primitiveContexts := primitiveContexts + [context];
        next := next + 1;
        q := q + 1;
      }
      assert ps[..|ps|] == ps;
      thrown := None;
    }

    /**
     * `Prepare`: allocate `meshPrimitiveIndex`; when the document has images,
     * allocate `images` if need be and schedule the copies of those stored in
     * buffer views; prepare the primitives, then build them. An exception
     * while scheduling the copies or preparing a primitive aborts the rest.
     */
    method Prepare() returns (thrown: Option<Exception>)
      requires Valid() && gltfRoot.Some? && Resolves(gltfRoot.value)
      requires |binChunks| == |gltfRoot.value.buffers|
      requires gltfRoot.value.images != [] ==> |images| <= |gltfRoot.value.images|
      modifies this`meshPrimitiveIndex, this`images, this`imageCopies
      modifies this`primitives, this`primitiveContexts, this`loadingError
      ensures fresh(meshPrimitiveIndex) && meshPrimitiveIndex.Length == |gltfRoot.value.meshes| + 1
      ensures var root := gltfRoot.value;
        var copyFault := if root.images == [] then None
          else FirstCopyFault(root.images, root.bufferViews, binChunks, buffers, 0, |AllocatedImages(root.images, old(images))|);
        thrown == if copyFault.Some? then copyFault else MeshesFault(root, binChunks, buffers, root.meshes, 0)
      ensures var root := gltfRoot.value;
        thrown.None? && root.images != [] ==>
          && images == TexturesAfterCopies(root.images, AllocatedImages(root.images, old(images)))
          && imageCopies == ScheduledCopies(root.images, root.bufferViews, binChunks, |images|)
      ensures var root := gltfRoot.value;
        thrown.None? ==>
          && meshPrimitiveIndex[..] == PrimitiveTable(root.meshes)
          && primitiveContexts == []
          && |primitives| == TotalPrimitives(root.meshes)
          && (forall k | 0 <= k < |primitives| ::
                primitives[k] == BuildPrimitive(Contexts(root, binChunks, root.meshes)[k], createPrimitive))
          && (loadingError <==> (old(loadingError) || exists k | 0 <= k < |primitives| :: primitives[k].None?))
    {
      var root := gltfRoot.value;
      meshPrimitiveIndex := new int[|root.meshes| + 1];
      if root.images != [] {
        thrown := ScheduleImageCopies(root);
        if thrown.Some? {
          return;
        }
      }
      thrown := PrepareMeshes(root);
    }

    /** The image block of `Prepare`, for a document with images. */
    method ScheduleImageCopies(root: Root) returns (thrown: Option<Exception>)
      requires Valid() && Resolves(root) && |binChunks| == |root.buffers|
      requires root.images != [] && |images| <= |root.images|
      modifies this`images, this`imageCopies
      ensures thrown ==
        FirstCopyFault(root.images, root.bufferViews, binChunks, buffers, 0, |AllocatedImages(root.images, old(images))|)
      ensures thrown.None? ==>
        && images == TexturesAfterCopies(root.images, AllocatedImages(root.images, old(images)))
        && imageCopies == ScheduledCopies(root.images, root.bufferViews, binChunks, |images|)
    {
      images := AllocatedImages(root.images, images);
      imageCopies := [];
      thrown := CreateTexturesFromBuffers(root.images, root.bufferViews);
    }

    /**
     * The mesh part of `Prepare`: number and prepare the primitives, then
     * build each into its slot; the slots of primitives that build none stay
     * empty and set `loadingError`.
     */
    method PrepareMeshes(root: Root) returns (thrown: Option<Exception>)
      requires Resolves(root) && Valid() && |binChunks| == |root.buffers|
      requires meshPrimitiveIndex.Length == |root.meshes| + 1
      modifies meshPrimitiveIndex, this`primitives, this`primitiveContexts, this`loadingError
      ensures meshPrimitiveIndex[..] == PrimitiveTable(root.meshes)
      ensures thrown == MeshesFault(root, binChunks, buffers, root.meshes, 0)
      ensures thrown.None? ==> primitiveContexts == []
      ensures thrown.None? ==> |primitives| == TotalPrimitives(root.meshes)
      ensures thrown.None? ==> forall k | 0 <= k < |primitives| ::
        primitives[k] == BuildPrimitive(Contexts(root, binChunks, root.meshes)[k], createPrimitive)
      ensures thrown.None? ==>
        (loadingError <==> (old(loadingError) || exists k | 0 <= k < |primitives| :: primitives[k].None?))
    {
      thrown := PreparePrimitives(root);
      if thrown.Some? {
        return;
      }
      ghost var contexts := primitiveContexts;
      ghost var empty := primitives;
      forall k | 0 <= k < |contexts| ensures contexts[k].primitiveIndex == k {
        ContextsRecordSlots(root, binChunks, root.meshes, k);
      }
      AssembledInSlots(primitives, contexts, createPrimitive);
      AssemblePrimitives();
      assert forall k | 0 <= k < |primitives| :: primitives[k] == BuildPrimitive(contexts[k], createPrimitive);
    }

    /**
     * The assembly loop of `Prepare`: build each primitive from its context,
     * store it in the context's slot, and set `loadingError` for every
     * context that builds none; then drop the contexts.
     */
    method AssemblePrimitives()
      requires forall k | 0 <= k < |primitiveContexts| :: 0 <= primitiveContexts[k].primitiveIndex < |primitives|
      modifies this`primitives, this`loadingError, this`primitiveContexts
      ensures primitives == Assembled(old(primitives), old(primitiveContexts), createPrimitive)
      ensures loadingError <==>
        (old(loadingError) ||
         exists k | 0 <= k < |old(primitiveContexts)| :: BuildPrimitive(old(primitiveContexts)[k], createPrimitive).None?)
      ensures primitiveContexts == []
    {
      ghost var slots := primitives;
      ghost var failed := loadingError;
      var i := 0;
      while i < |primitiveContexts|
        invariant 0 <= i <= |primitiveContexts|
        invariant primitiveContexts == old(primitiveContexts) && |primitives| == |slots|
        invariant primitives == Assembled(slots, primitiveContexts[..i], createPrimitive)
        invariant loadingError <==>
          (failed || exists k | 0 <= k < i :: BuildPrimitive(primitiveContexts[k], createPrimitive).None?)
      {
        var primitiveContext := primitiveContexts[i];
        assert primitiveContexts[..i + 1][..i] == primitiveContexts[..i];
        assert primitiveContexts[..i + 1][i] == primitiveContext;
        var primitive := BuildPrimitive(primitiveContext, createPrimitive);
        if primitive.Some? {
          primitives := primitives[primitiveContext.primitiveIndex := primitive];
        } else {
          loadingError := true;
        }
        i := i + 1;
      }
      assert primitiveContexts[..i] == primitiveContexts;
      primitiveContexts := [];
    }

    /**
     * `PreparePrimitive`: count the job handles the primitive needs, allocate
     * them, then let each reader fill the next one through the running
     * counter, in the order positions, indices, normals, both UV sets,
     * tangents, colours. A reader that selects no job leaves its handle
     * empty, and the context then fails (see `BuildPrimitive`); a reader that
     * throws ends the preparation with its exception.
     */
    method PreparePrimitive(root: Root, slot: int, p: MeshPrimitive) returns (r: Result<PrimitiveContext, Exception>)
      requires PrimitiveResolves(root, p) && Valid() && |binChunks| == |root.buffers|
      ensures r.Failure? <==> PrimitiveFault(root, binChunks, buffers, p).Some?
      ensures r.Failure? ==> Some(r.error) == PrimitiveFault(root, binChunks, buffers, p)
      ensures r.Success? ==>
        r.value == StandardContext(slot, p, TopologyOf(p.mode).topology, PrimitiveJobs(root, binChunks, p))
      ensures r.Success? ==> |r.value.jobs| == JobSlotCount(p.attributes)
    {
      ghost var faults := PrimitiveFaults(root, binChunks, buffers, p);
      ghost var optional := OptionalFaults(root, binChunks, buffers, p);
      FirstFaultAppend(faults[..2], optional);
      assert faults == faults[..2] + optional;
      var handleCount := CountJobHandles(p.attributes);
      var jobHandles := new Option<Job>[handleCount](_ => None);
      // from here on the count is the next handle to fill
      var count, fault := PutRequiredJobs(root, p, jobHandles);
      if fault.Some? {
        return Failure(fault.value);
      }
      ghost var head := jobHandles[..count];
      count, fault := PutAttributeJobs(root, p, jobHandles, count, head);
      if fault.Some? {
        return Failure(fault.value);
      }
      assert jobHandles[..count] == PrimitiveJobs(root, binChunks, p);
      assert jobHandles[..] == jobHandles[..count];
      r := Success(StandardContext(slot, p, TopologyOf(p.mode).topology, jobHandles[..]));
    }

    /**
     * The two readers every primitive runs, into the first two handles:
     * positions, then indices, read from their accessor or calculated from
     * the vertex count when the primitive has none.
     */
    method PutRequiredJobs(root: Root, p: MeshPrimitive, jobHandles: array<Option<Job>>) returns (count: nat, fault: Option<Exception>)
      requires PrimitiveResolves(root, p) && Valid() && |binChunks| == |root.buffers|
      requires 2 <= jobHandles.Length
      modifies jobHandles
      ensures fault == FirstFault(PrimitiveFaults(root, binChunks, buffers, p)[..2])
      ensures fault.None? ==>
        && count == 2
        && jobHandles[..count] == [Vector3At(root, binChunks, p.attributes.position), IndexJobOf(root, binChunks, p)]
    {
      ghost var faults := PrimitiveFaults(root, binChunks, buffers, p)[..2];
      assert faults[1..][1..] == [];
      var at := p.attributes;
      count := 0;
      var positions := Vector3At(root, binChunks, at.position);
      SelectsIffJob(Vector3Reader, root, binChunks, at.position);
      fault := ReaderFaultAt(root, binChunks, buffers, at.position, positions.Some?);
      if fault.Some? {
        return;
      }
      count := Put(jobHandles, count, positions);
      var indices;
      if p.indices < 0 {
        var vertexCount := root.accessors[at.position].count;
        indices := Some(CalculateIndices(vertexCount, TopologyOf(p.mode).topology, p.mode));
      } else {
        var source := SourceOf(root, binChunks, p.indices);
        indices := IndicesJob(source.accessor, source.view, source.chunk);
      }
      fault := IndexFaultOf(root, binChunks, buffers, p);
      if fault.Some? {
        return;
      }
      count := Put(jobHandles, count, indices);
    }

    /** How many job handles `PreparePrimitive` allocates: positions and indices, plus one per optional attribute. */
    static method CountJobHandles(at: Attributes) returns (handleCount: nat)
      ensures handleCount == JobSlotCount(at)
      ensures 2 <= handleCount <= 7
    {
      handleCount := 2;
      if at.normal >= 0 { handleCount := handleCount + 1; }
      if at.tangent >= 0 { handleCount := handleCount + 1; }
      if at.texCoord0 >= 0 { handleCount := handleCount + 1; }
      if at.texCoord1 >= 0 { handleCount := handleCount + 1; }
      if at.color0 >= 0 { handleCount := handleCount + 1; }
    }

    /**
     * The optional readers of `PreparePrimitive`, in order, each filling the
     * next handle when the primitive has its attribute, up to the first that
     * throws; `head` is what the handles before the counter already hold.
     */
    method PutAttributeJobs(root: Root, p: MeshPrimitive, jobHandles: array<Option<Job>>, count: nat,
                            ghost head: seq<Option<Job>>) returns (next: nat, fault: Option<Exception>)
      requires PrimitiveResolves(root, p) && Valid() && |binChunks| == |root.buffers|
      requires count <= jobHandles.Length && jobHandles[..count] == head
      requires var at := p.attributes;
        count + |OptionalJob(Vector3Reader, root, binChunks, at.normal)|
          + |OptionalJob(UvReader, root, binChunks, at.texCoord0)|
          + |OptionalJob(UvReader, root, binChunks, at.texCoord1)|
          + |OptionalJob(TangentReader, root, binChunks, at.tangent)|
          + |OptionalJob(ColorReader, root, binChunks, at.color0)| <= jobHandles.Length
      modifies jobHandles
      ensures fault == FirstFault(OptionalFaults(root, binChunks, buffers, p))
      ensures fault.None? ==> count <= next <= jobHandles.Length
      ensures fault.None? ==> var at := p.attributes;
        jobHandles[..next] == head
          + OptionalJob(Vector3Reader, root, binChunks, at.normal)
          + OptionalJob(UvReader, root, binChunks, at.texCoord0)
          + OptionalJob(UvReader, root, binChunks, at.texCoord1)
          + OptionalJob(TangentReader, root, binChunks, at.tangent)
          + OptionalJob(ColorReader, root, binChunks, at.color0)
    {
      var at := p.attributes;
      ghost var fn := OptionalFault(Vector3Reader, root, binChunks, buffers, at.normal);
      ghost var fu0 := OptionalFault(UvReader, root, binChunks, buffers, at.texCoord0);
      ghost var fu1 := OptionalFault(UvReader, root, binChunks, buffers, at.texCoord1);
      ghost var ft := OptionalFault(TangentReader, root, binChunks, buffers, at.tangent);
      ghost var fc := OptionalFault(ColorReader, root, binChunks, buffers, at.color0);
      FirstFaultAppend(fn + fu0 + fu1 + ft, fc);
      FirstFaultAppend(fn + fu0 + fu1, ft);
      FirstFaultAppend(fn + fu0, fu1);
      FirstFaultAppend(fn, fu0);
      next, fault := PutOptional(Vector3Reader, root, at.normal, jobHandles, count);
      if fault.Some? { return; }
      next, fault := PutOptional(UvReader, root, at.texCoord0, jobHandles, next);
      if fault.Some? { return; }
      next, fault := PutOptional(UvReader, root, at.texCoord1, jobHandles, next);
      if fault.Some? { return; }
      next, fault := PutOptional(TangentReader, root, at.tangent, jobHandles, next);
      if fault.Some? { return; }
      next, fault := PutOptional(ColorReader, root, at.color0, jobHandles, next);
    }

    /**
     * One optional reader of `PreparePrimitive`: when the primitive has the
     * attribute, its reader runs and, unless it throws, its job fills the next
     * handle.
     */
    method PutOptional(reader: AttributeReader, root: Root, index: int, jobHandles: array<Option<Job>>, count: nat)
      returns (next: nat, fault: Option<Exception>)
      requires index >= 0 ==> AccessorResolves(root, index)
      requires Valid() && |binChunks| == |root.buffers|
      requires count + |OptionalJob(reader, root, binChunks, index)| <= jobHandles.Length
      modifies jobHandles
      ensures fault == FirstFault(OptionalFault(reader, root, binChunks, buffers, index))
      ensures fault.None? ==> next == count + |OptionalJob(reader, root, binChunks, index)|
      ensures fault.None? ==> jobHandles[..next] == old(jobHandles[..count]) + OptionalJob(reader, root, binChunks, index)
    {
      next := count;
      fault := None;
      if index >= 0 {
        var job := ReadAttribute(reader, root, binChunks, index);
        SelectsIffJob(reader, root, binChunks, index);
        fault := ReaderFaultAt(root, binChunks, buffers, index, job.Some?);
        assert OptionalFault(reader, root, binChunks, buffers, index) == [fault];
        assert [fault][1..] == [];
        if fault.Some? {
          return;
        }
        next := Put(jobHandles, count, job);
      }
    }
  }
}

=== FILE: primitives.dfy ===
/**
 * Preparing mesh primitives: the draw mode to Unity topology switch, the
 * synthesised index buffer of a primitive without indices, the jobs one
 * primitive schedules, and the `meshPrimitiveIndex` table that numbers all
 * primitives of all meshes consecutively.
 */
module Primitives {
  import opened Wrappers
  import opened DotNet
  import opened Schema
  import opened Accessors

  /** Unity's `MeshTopology`, as far as the loader uses it. */
  datatype Topology = TrianglesTopology | PointsTopology | LinesTopology | LineStripTopology

  /** `c.topology` and whether the "unsupported primitive mode" error is logged. */
  datatype TopologyChoice = TopologyChoice(topology: Topology, logsError: bool)

  /**
   * The draw-mode switch of `PreparePrimitive`: triangles, points and lines
   * keep their topology, both line strips and loops are drawn as a strip,
   * every other mode falls back to triangles; all but triangles log an error.
   */
  function TopologyOf(mode: DrawMode): (r: TopologyChoice)
    ensures r.logsError <==> mode != Triangles
    ensures r.topology == PointsTopology <==> mode == Points
    ensures r.topology == LinesTopology <==> mode == Lines
    ensures r.topology == LineStripTopology <==> mode in {LineStrip, LineLoop}
    ensures r.topology == TrianglesTopology <==> mode !in {Points, Lines, LineStrip, LineLoop}
  {
    match mode
    case Triangles => TopologyChoice(TrianglesTopology, false)
    case Points => TopologyChoice(PointsTopology, true)
    case Lines => TopologyChoice(LinesTopology, true)
    case LineStrip => TopologyChoice(LineStripTopology, true)
    case LineLoop => TopologyChoice(LineStripTopology, true)
    case _ => TopologyChoice(TrianglesTopology, true)
  }

  /**
   * `CalculateIndicesJob`: a line loop gets one index more, to close the loop
   * on the first vertex; triangles get the flipped sequence (Unity's winding
   * order), everything else the plain one.
   */
  function CalculateIndices(vertexCount: int, topology: Topology, mode: DrawMode): (r: Job)
    ensures r.CreateIndicesFlipped? <==> topology == TrianglesTopology
    ensures r.CreateIndicesFlipped? || r.CreateIndices?
    ensures r.count == vertexCount + (if mode == LineLoop then 1 else 0)
    ensures r.CreateIndices? ==> (r.lineLoop <==> mode == LineLoop)
  {
    var lineLoop := mode == LineLoop;
    var count := vertexCount + (if lineLoop then 1 else 0);
    if topology == TrianglesTopology then CreateIndicesFlipped(count) else CreateIndices(count, lineLoop)
  }

  /** With the topology the switch chooses, a line loop is never flipped and always closed. */
  lemma LineLoopIndices(vertexCount: int)
    ensures var j := CalculateIndices(vertexCount, TopologyOf(LineLoop).topology, LineLoop);
      j == CreateIndices(vertexCount + 1, true)
  {
  }

  /** The number of jobs `PreparePrimitive` allocates handles for: positions, indices, and one per optional attribute. */
  function JobSlotCount(at: Attributes): nat {
    2 + (if at.normal >= 0 then 1 else 0) + (if at.tangent >= 0 then 1 else 0)
      + (if at.texCoord0 >= 0 then 1 else 0) + (if at.texCoord1 >= 0 then 1 else 0)
      + (if at.color0 >= 0 then 1 else 0)
  }

  /** The parts one reader looks at: the accessor, its buffer view and the region of that view's buffer. */
  datatype AccessorSource = AccessorSource(accessor: Accessor, view: BufferView, chunk: GlbBinChunk)

  function SourceOf(root: Root, chunks: seq<GlbBinChunk>, index: int): AccessorSource
    requires AccessorResolves(root, index) && |chunks| == |root.buffers|
  {
    var acc := root.accessors[index];
    var view := root.bufferViews[acc.bufferView];
    AccessorSource(acc, view, chunks[view.buffer])
  }

  function Vector3At(root: Root, chunks: seq<GlbBinChunk>, index: int): Option<Job>
    requires AccessorResolves(root, index) && |chunks| == |root.buffers|
  {
    var s := SourceOf(root, chunks, index);
    Vector3Job(s.accessor, s.view, s.chunk)
  }

  function UvAt(root: Root, chunks: seq<GlbBinChunk>, index: int): Option<Job>
    requires AccessorResolves(root, index) && |chunks| == |root.buffers|
  {
    var s := SourceOf(root, chunks, index);
    UvJob(s.accessor, s.view, s.chunk)
  }

  function TangentAt(root: Root, chunks: seq<GlbBinChunk>, index: int): Option<Job>
    requires AccessorResolves(root, index) && |chunks| == |root.buffers|
  {
    var s := SourceOf(root, chunks, index);
    TangentJob(s.accessor, s.view, s.chunk)
  }

  function ColorAt(root: Root, chunks: seq<GlbBinChunk>, index: int): Option<Job>
    requires AccessorResolves(root, index) && |chunks| == |root.buffers|
  {
    var s := SourceOf(root, chunks, index);
    ColorJob(s.accessor, s.view, s.chunk).job
  }

  /** The index job: synthesised when the primitive has no `indices`, read otherwise. */
  function IndexJobOf(root: Root, chunks: seq<GlbBinChunk>, p: MeshPrimitive): Option<Job>
    requires PrimitiveResolves(root, p) && |chunks| == |root.buffers|
  {
    if p.indices < 0 then
      var vertexCount := root.accessors[p.attributes.position].count;
      Some(CalculateIndices(vertexCount, TopologyOf(p.mode).topology, p.mode))
    else
      var s := SourceOf(root, chunks, p.indices);
      IndicesJob(s.accessor, s.view, s.chunk)
  }

  /** The readers of the optional attributes. */
  datatype AttributeReader = Vector3Reader | UvReader | TangentReader | ColorReader

  function ReadAttribute(reader: AttributeReader, root: Root, chunks: seq<GlbBinChunk>, index: int): Option<Job>
    requires AccessorResolves(root, index) && |chunks| == |root.buffers|
  {
    match reader
    case Vector3Reader => Vector3At(root, chunks, index)
    case UvReader => UvAt(root, chunks, index)
    case TangentReader => TangentAt(root, chunks, index)
    case ColorReader => ColorAt(root, chunks, index)
  }

  /** The handle an optional attribute takes: one when the primitive has the attribute, none otherwise. */
  function OptionalJob(reader: AttributeReader, root: Root, chunks: seq<GlbBinChunk>, index: int): (r: seq<Option<Job>>)
    requires index >= 0 ==> AccessorResolves(root, index)
    requires |chunks| == |root.buffers|
    ensures |r| == if index >= 0 then 1 else 0
    ensures index >= 0 ==> r[0] == ReadAttribute(reader, root, chunks, index)
  {
    if index >= 0 then [ReadAttribute(reader, root, chunks, index)] else []
  }

  /**
   * The jobs `PreparePrimitive` schedules, in the order it schedules them:
   * positions, indices, normals, both UV sets, tangents, colours. None stands
   * for a reader that selected no job. They fill exactly the handles
   * allocated for them, although those are counted in a different order.
   */
  function PrimitiveJobs(root: Root, chunks: seq<GlbBinChunk>, p: MeshPrimitive): (r: seq<Option<Job>>)
    requires PrimitiveResolves(root, p) && |chunks| == |root.buffers|
    ensures |r| == JobSlotCount(p.attributes)
  {
    var at := p.attributes;
    [Vector3At(root, chunks, at.position), IndexJobOf(root, chunks, p)]
      + OptionalJob(Vector3Reader, root, chunks, at.normal)
      + OptionalJob(UvReader, root, chunks, at.texCoord0)
      + OptionalJob(UvReader, root, chunks, at.texCoord1)
      + OptionalJob(TangentReader, root, chunks, at.tangent)
      + OptionalJob(ColorReader, root, chunks, at.color0)
  }

  /** Whether the color reader accepts an accessor, in the reader's own terms. */
  predicate ColorReadable(a: Accessor, view: BufferView) {
    a.attributeType in {Vec3, Vec4} && a.componentType in {Float, UnsignedByte, UnsignedShort} && !IsInterleaved(a, view)
  }

  /**
   * Some reader of the primitive selects no job exactly when one of its
   * accessors has a component type (or, for colours, a layout) its reader
   * does not handle.
   */
  predicate Unreadable(root: Root, p: MeshPrimitive)
    requires PrimitiveResolves(root, p)
  {
    var at := p.attributes;
    || !IsAttributeComponent(root.accessors[at.position].componentType)
    || (p.indices >= 0 && root.accessors[p.indices].componentType !in {UnsignedByte, UnsignedShort, UnsignedInt})
    || (at.normal >= 0 && !IsAttributeComponent(root.accessors[at.normal].componentType))
    || (at.texCoord0 >= 0 && !IsAttributeComponent(root.accessors[at.texCoord0].componentType))
    || (at.texCoord1 >= 0 && !IsAttributeComponent(root.accessors[at.texCoord1].componentType))
    || (at.tangent >= 0 && root.accessors[at.tangent].componentType !in {Float, Short, Byte})
    || (at.color0 >= 0 &&
        !ColorReadable(root.accessors[at.color0], root.bufferViews[root.accessors[at.color0].bufferView]))
  }

  lemma {:induction false} MissingJobIffUnreadable(root: Root, chunks: seq<GlbBinChunk>, p: MeshPrimitive)
    requires PrimitiveResolves(root, p) && |chunks| == |root.buffers|
    ensures None in PrimitiveJobs(root, chunks, p) <==> Unreadable(root, p)
  {
    var at := p.attributes;
    var jobs := PrimitiveJobs(root, chunks, p);
    var head := [Vector3At(root, chunks, at.position), IndexJobOf(root, chunks, p)];
    var n := OptionalJob(Vector3Reader, root, chunks, at.normal);
    var u0 := OptionalJob(UvReader, root, chunks, at.texCoord0);
    var u1 := OptionalJob(UvReader, root, chunks, at.texCoord1);
    var t := OptionalJob(TangentReader, root, chunks, at.tangent);
    var c := OptionalJob(ColorReader, root, chunks, at.color0);
    assert jobs == head + n + u0 + u1 + t + c;
    assert None in jobs <==> None in head || None in n || None in u0 || None in u1 || None in t || None in c;
  }

  // --- What the readers throw ---

  /**
   * Whether a reader selects a job for an accessor, in terms of the accessor
   * alone: the component types (and, for colours, the layouts) the reader's
   * switch has a branch for.
   */
  predicate Selects(reader: AttributeReader, acc: Accessor, view: BufferView) {
    match reader
    case Vector3Reader => IsAttributeComponent(acc.componentType)
    case UvReader => IsAttributeComponent(acc.componentType)
    case TangentReader => acc.componentType in {Float, Short, Byte}
    case ColorReader => ColorReadable(acc, view)
  }

  /** A reader selects a job exactly when `Selects` says so. */
  lemma SelectsIffJob(reader: AttributeReader, root: Root, chunks: seq<GlbBinChunk>, index: int)
    requires AccessorResolves(root, index) && |chunks| == |root.buffers|
    ensures var s := SourceOf(root, chunks, index);
      ReadAttribute(reader, root, chunks, index).Some? <==> Selects(reader, s.accessor, s.view)
  {
  }

  /**
   * An optional attribute's handle is missing exactly when the primitive has
   * the attribute and its reader has no branch for the attribute's accessor.
   */
  lemma OptionalJobMissingIff(reader: AttributeReader, root: Root, chunks: seq<GlbBinChunk>, index: int)
    requires index >= 0 ==> AccessorResolves(root, index)
    requires |chunks| == |root.buffers|
    ensures None in OptionalJob(reader, root, chunks, index) <==>
      index >= 0 && !Selects(reader, SourceOf(root, chunks, index).accessor, SourceOf(root, chunks, index).view)
  {
    if index >= 0 {
      SelectsIffJob(reader, root, chunks, index);
    }
  }

  /**
   * What the reader of accessor `index` throws, given whether it selects a
   * job: every reader allocates its result array of `count` elements before
   * choosing, and pins its buffer at the accessor's start and its result only
   * in the branches that schedule a job.
   */
  function ReaderFaultAt(root: Root, chunks: seq<GlbBinChunk>, buffers: seq<Option<Bytes>>, index: int,
                         selected: bool): (r: Option<Exception>)
    requires AccessorResolves(root, index) && |chunks| == |root.buffers| && |buffers| == |root.buffers|
    ensures var s := SourceOf(root, chunks, index);
      r.None? <==>
        && s.accessor.count >= 0
        && (selected ==>
              && s.accessor.count > 0 && buffers[s.view.buffer].Some?
              && 0 <= ReadStart(s.accessor, s.view, s.chunk) < |buffers[s.view.buffer].value|)
  {
    var s := SourceOf(root, chunks, index);
    AllocateAndPinFault(s.accessor.count, selected, buffers[s.view.buffer], ReadStart(s.accessor, s.view, s.chunk))
  }

  /** The number of indices `CalculateIndicesJob` synthesises for a primitive. */
  function CalculatedIndexCount(root: Root, p: MeshPrimitive): int
    requires AccessorResolves(root, p.attributes.position)
  {
    root.accessors[p.attributes.position].count + (if p.mode == LineLoop then 1 else 0)
  }

  /**
   * What the index step throws: a read index buffer as any reader; a
   * synthesised one allocates its indices and pins the first, so it throws
   * when there are none.
   */
  function IndexFaultOf(root: Root, chunks: seq<GlbBinChunk>, buffers: seq<Option<Bytes>>, p: MeshPrimitive)
    : (r: Option<Exception>)
    requires PrimitiveResolves(root, p) && |chunks| == |root.buffers| && |buffers| == |root.buffers|
    ensures p.indices < 0 ==> (r.None? <==> CalculatedIndexCount(root, p) > 0)
    ensures p.indices < 0 && CalculatedIndexCount(root, p) < 0 ==> r == Some(OverflowException)
  {
    if p.indices < 0 then
      var count := CalculatedIndexCount(root, p);
      if count < 0 then Some(OverflowException)
      else if count == 0 then Some(IndexOutOfRangeException)
      else None
    else
      var s := SourceOf(root, chunks, p.indices);
      ReaderFaultAt(root, chunks, buffers, p.indices, s.accessor.componentType in {UnsignedByte, UnsignedShort, UnsignedInt})
  }

  /** The synthesised index count is the one `CalculateIndices` gives its job. */
  lemma CalculatedIndexCountIsJobCount(root: Root, chunks: seq<GlbBinChunk>, p: MeshPrimitive)
    requires PrimitiveResolves(root, p) && |chunks| == |root.buffers| && p.indices < 0
    ensures IndexJobOf(root, chunks, p).Some? && IndexJobOf(root, chunks, p).value.count == CalculatedIndexCount(root, p)
  {
  }

  /** What the reader of an optional attribute throws: nothing to throw when the primitive lacks it. */
  function OptionalFault(reader: AttributeReader, root: Root, chunks: seq<GlbBinChunk>, buffers: seq<Option<Bytes>>,
                         index: int): (r: seq<Option<Exception>>)
    requires index >= 0 ==> AccessorResolves(root, index)
    requires |chunks| == |root.buffers| && |buffers| == |root.buffers|
    ensures |r| == if index >= 0 then 1 else 0
  {
    if index >= 0 then
      var s := SourceOf(root, chunks, index);
      [ReaderFaultAt(root, chunks, buffers, index, Selects(reader, s.accessor, s.view))]
    else []
  }

  /**
   * The faults of the readers of a primitive, in the order `PreparePrimitive`
   * calls them; fault k belongs to the reader that fills handle k.
   */
  function PrimitiveFaults(root: Root, chunks: seq<GlbBinChunk>, buffers: seq<Option<Bytes>>, p: MeshPrimitive)
    : (r: seq<Option<Exception>>)
    requires PrimitiveResolves(root, p) && |chunks| == |root.buffers| && |buffers| == |root.buffers|
    ensures |r| == JobSlotCount(p.attributes)
  {
    var position := SourceOf(root, chunks, p.attributes.position);
    [ReaderFaultAt(root, chunks, buffers, p.attributes.position, Selects(Vector3Reader, position.accessor, position.view)),
     IndexFaultOf(root, chunks, buffers, p)]
      + OptionalFaults(root, chunks, buffers, p)
  }

  /** The faults of the optional readers, in the order normals, both UV sets, tangents, colours. */
  function OptionalFaults(root: Root, chunks: seq<GlbBinChunk>, buffers: seq<Option<Bytes>>, p: MeshPrimitive)
    : (r: seq<Option<Exception>>)
    requires PrimitiveResolves(root, p) && |chunks| == |root.buffers| && |buffers| == |root.buffers|
    ensures |r| == JobSlotCount(p.attributes) - 2
  {
    var at := p.attributes;
    OptionalFault(Vector3Reader, root, chunks, buffers, at.normal)
      + OptionalFault(UvReader, root, chunks, buffers, at.texCoord0)
      + OptionalFault(UvReader, root, chunks, buffers, at.texCoord1)
      + OptionalFault(TangentReader, root, chunks, buffers, at.tangent)
      + OptionalFault(ColorReader, root, chunks, buffers, at.color0)
  }

  /** The first fault of a sequence of steps run in order: the one that ends the run, if any. */
  function FirstFault(faults: seq<Option<Exception>>): (r: Option<Exception>)
    ensures r.None? <==> forall k | 0 <= k < |faults| :: faults[k].None?
    ensures r.Some? ==> exists k | 0 <= k < |faults| :: faults[k] == r && forall l | 0 <= l < k :: faults[l].None?
  {
    if faults == [] then None
    else if faults[0].Some? then faults[0]
    else
      var rest := FirstFault(faults[1..]);
      assert forall k | 1 <= k < |faults| :: faults[k] == faults[1..][k - 1];
      rest
  }

  /** Running two sequences of steps one after the other: the second runs only when the first throws nothing. */
  lemma {:induction false} FirstFaultAppend(a: seq<Option<Exception>>, b: seq<Option<Exception>>)
    ensures FirstFault(a + b) == if FirstFault(a).Some? then FirstFault(a) else FirstFault(b)
  {
    if a != [] {
      assert (a + b)[1..] == a[1..] + b;
      FirstFaultAppend(a[1..], b);
    } else {
      assert a + b == b;
    }
  }

  /** What preparing a primitive throws: the fault of its first reader that faults. */
  function PrimitiveFault(root: Root, chunks: seq<GlbBinChunk>, buffers: seq<Option<Bytes>>, p: MeshPrimitive)
    : Option<Exception>
    requires PrimitiveResolves(root, p) && |chunks| == |root.buffers| && |buffers| == |root.buffers|
  {
    FirstFault(PrimitiveFaults(root, chunks, buffers, p))
  }

  // --- A job that was not selected, as written and as intended ---

  /**
   * The handles as `PreparePrimitive` stores them, as written: each is read
   * with `jh.Value`, which throws `InvalidOperationException` on the first
   * reader that selected no job, aborting the whole `Prepare` coroutine.
   */
  function JobHandlesAsWritten(jobs: seq<Option<Job>>): (r: Result<seq<Job>, Exception>)
    ensures r.Failure? <==> None in jobs
    ensures r.Failure? ==> r.error == InvalidOperationException
    ensures r.Success? ==> |r.value| == |jobs| && forall k :: 0 <= k < |jobs| ==> jobs[k] == Some(r.value[k])
  {
    if jobs == [] then Success([])
    else match (jobs[0], JobHandlesAsWritten(jobs[1..]))
      case (None, _) => Failure(InvalidOperationException)
      case (_, Failure(e)) => Failure(e)
      case (Some(j), Success(rest)) =>
        assert forall k :: 1 <= k < |jobs| ==> jobs[k] == jobs[1..][k - 1];
        Success([j] + rest)
  }

  /** The mesh a finished primitive holds; what is in it is up to the mesh builder. */
  datatype Primitive = Primitive(mesh: nat)

  /** What `PreparePrimitives` records for one primitive. */
  datatype PrimitiveContext =
    | StandardContext(primitiveIndex: int, primitive: MeshPrimitive, topology: Topology, jobs: seq<Option<Job>>)
    | DracoContext(primitiveIndex: int, primitive: MeshPrimitive)
  {
    /** A reader of this primitive selected no job, so it has nothing to build a mesh from. */
    predicate Failed() {
      StandardContext? && None in jobs
    }
  }

  /** The context `PreparePrimitives` records for primitive `p` in slot `slot`. */
  function ContextFor(root: Root, chunks: seq<GlbBinChunk>, slot: int, p: MeshPrimitive): PrimitiveContext
    requires !p.dracoCompressed ==> PrimitiveResolves(root, p)
    requires |chunks| == |root.buffers|
  {
    if p.dracoCompressed then DracoContext(slot, p)
    else StandardContext(slot, p, TopologyOf(p.mode).topology, PrimitiveJobs(root, chunks, p))
  }

  /**
   * `CreatePrimitive` as the rest of the model uses it: a primitive whose
   * context failed yields none (so that `Prepare` sets `loadingError` and
   * carries on); otherwise the mesh builder, a parameter, decides.
   */
  function BuildPrimitive(c: PrimitiveContext, create: PrimitiveContext -> Option<Primitive>): (r: Option<Primitive>)
    ensures c.Failed() ==> r.None?
    ensures !c.Failed() ==> r == create(c)
  {
    if c.Failed() then None else create(c)
  }

  /**
   * A primitive fails on its own and builds nothing exactly when one of its
   * readers has no branch for its accessor; any other primitive, and every
   * Draco one, is what the mesh builder makes of its context.
   */
  lemma {:induction false} BuildFailsOnlyUnreadable(root: Root, chunks: seq<GlbBinChunk>, slot: int, p: MeshPrimitive,
                                                    create: PrimitiveContext -> Option<Primitive>)
    requires !p.dracoCompressed ==> PrimitiveResolves(root, p)
    requires |chunks| == |root.buffers|
    ensures var c := ContextFor(root, chunks, slot, p);
      c.Failed() <==> !p.dracoCompressed && Unreadable(root, p)
    ensures var c := ContextFor(root, chunks, slot, p);
      !p.dracoCompressed && Unreadable(root, p) ==> BuildPrimitive(c, create).None?
    ensures var c := ContextFor(root, chunks, slot, p);
      !(!p.dracoCompressed && Unreadable(root, p)) ==> BuildPrimitive(c, create) == create(c)
  {
    if !p.dracoCompressed {
      MissingJobIffUnreadable(root, chunks, p);
    }
  }

  /**
   * The input that shows it: any primitive whose positions are 32-bit unsigned
   * integers, which no position reader handles. The code as written throws;
   * the intended behaviour fails only this primitive.
   */
  lemma UIntPositionsThrow(root: Root, chunks: seq<GlbBinChunk>, p: MeshPrimitive,
                           create: PrimitiveContext -> Option<Primitive>)
    requires PrimitiveResolves(root, p) && |chunks| == |root.buffers|
    requires root.accessors[p.attributes.position].componentType == UnsignedInt
    ensures JobHandlesAsWritten(PrimitiveJobs(root, chunks, p)) == Failure(InvalidOperationException)
    ensures BuildPrimitive(StandardContext(0, p, TopologyOf(p.mode).topology, PrimitiveJobs(root, chunks, p)), create).None?
  {
    assert PrimitiveJobs(root, chunks, p)[0] == None;
  }

  // --- Numbering the primitives of all meshes ---

  /** How many primitives the meshes hold together. */
  function TotalPrimitives(meshes: seq<Mesh>): nat {
    if meshes == [] then 0
    else TotalPrimitives(meshes[..|meshes| - 1]) + |meshes[|meshes| - 1].primitives|
  }

  /** `meshPrimitiveIndex`: entry m is the number of primitives of the meshes before mesh m. */
  function PrimitiveTable(meshes: seq<Mesh>): (t: seq<int>)
    ensures |t| == |meshes| + 1
  {
    seq(|meshes| + 1, m requires 0 <= m <= |meshes| => TotalPrimitives(meshes[..m]))
  }

  /** The table starts at 0, grows by each mesh's primitive count, and ends at the total. */
  lemma {:induction false} PrimitiveTableSteps(meshes: seq<Mesh>)
    ensures PrimitiveTable(meshes)[0] == 0
    ensures forall m :: 0 <= m < |meshes| ==>
      PrimitiveTable(meshes)[m + 1] == PrimitiveTable(meshes)[m] + |meshes[m].primitives|
    ensures PrimitiveTable(meshes)[|meshes|] == TotalPrimitives(meshes)
  {
    var t := PrimitiveTable(meshes);
    forall m | 0 <= m < |meshes| ensures t[m + 1] == t[m] + |meshes[m].primitives| {
      assert meshes[..m + 1][..m] == meshes[..m];
    }
    assert meshes[..|meshes|] == meshes;
  }

  /** The table never decreases. */
  lemma {:induction false} PrimitiveTableMonotone(meshes: seq<Mesh>, a: int, b: int)
    requires 0 <= a <= b <= |meshes|
    ensures PrimitiveTable(meshes)[a] <= PrimitiveTable(meshes)[b]
    decreases b - a
  {
    if a < b {
      PrimitiveTableSteps(meshes);
      PrimitiveTableMonotone(meshes, a + 1, b);
    }
  }

  /** The slot `PreparePrimitives` gives primitive p of mesh m. */
  function Slot(meshes: seq<Mesh>, m: int, p: int): int
    requires 0 <= m <= |meshes|
  {
    PrimitiveTable(meshes)[m] + p
  }

  /** Slot i belongs to some primitive. */
  predicate IsSlot(meshes: seq<Mesh>, i: int) {
    exists m, p :: 0 <= m < |meshes| && 0 <= p < |meshes[m].primitives| && i == Slot(meshes, m, p)
  }

  /**
   * Primitive p of mesh m gets slot `table[m] + p`: the slots of a mesh are the
   * slice `[table[m], table[m+1])` `CreateGameObjects` reads, slots of different
   * primitives differ, and every slot below the total belongs to a primitive.
   */
  lemma {:induction false} SlotsNumberPrimitives(meshes: seq<Mesh>)
    ensures forall m, p | 0 <= m < |meshes| && 0 <= p < |meshes[m].primitives| ::
      PrimitiveTable(meshes)[m] <= Slot(meshes, m, p) < PrimitiveTable(meshes)[m + 1]
    ensures forall m1, p1, m2, p2 |
      && 0 <= m1 < |meshes| && 0 <= p1 < |meshes[m1].primitives|
      && 0 <= m2 < |meshes| && 0 <= p2 < |meshes[m2].primitives|
      && Slot(meshes, m1, p1) == Slot(meshes, m2, p2) :: m1 == m2 && p1 == p2
    ensures forall i | 0 <= i < TotalPrimitives(meshes) :: IsSlot(meshes, i)
  {
    var t := PrimitiveTable(meshes);
    PrimitiveTableSteps(meshes);
    forall m1, p1, m2, p2 |
        && 0 <= m1 < |meshes| && 0 <= p1 < |meshes[m1].primitives|
        && 0 <= m2 < |meshes| && 0 <= p2 < |meshes[m2].primitives|
        && Slot(meshes, m1, p1) == Slot(meshes, m2, p2)
      ensures m1 == m2 && p1 == p2
    {
      if m1 < m2 {
        PrimitiveTableMonotone(meshes, m1 + 1, m2);
      } else if m2 < m1 {
        PrimitiveTableMonotone(meshes, m2 + 1, m1);
      }
    }
    forall i | 0 <= i < TotalPrimitives(meshes) ensures IsSlot(meshes, i) {
      var m := MeshOfSlot(meshes, i, |meshes|);
      assert 0 <= m < |meshes| && 0 <= i - t[m] < |meshes[m].primitives| && i == Slot(meshes, m, i - t[m]);
    }
  }

  /** The mesh whose slice holds slot i, searching the meshes before `bound`. */
  function MeshOfSlot(meshes: seq<Mesh>, i: int, bound: int): (m: int)
    requires 0 <= bound <= |meshes| && 0 <= i < PrimitiveTable(meshes)[bound]
    ensures 0 <= m < bound && PrimitiveTable(meshes)[m] <= i < PrimitiveTable(meshes)[m + 1]
    decreases bound
  {
    PrimitiveTableSteps(meshes);
    if PrimitiveTable(meshes)[bound - 1] <= i then bound - 1
    else MeshOfSlot(meshes, i, bound - 1)
  }

  // --- The contexts of all primitives, and the primitives built from them ---

  /** Every standard primitive of the meshes resolves. */
  predicate MeshesResolve(root: Root, meshes: seq<Mesh>) {
    forall m, q | 0 <= m < |meshes| && 0 <= q < |meshes[m].primitives| ::
      !meshes[m].primitives[q].dracoCompressed ==> PrimitiveResolves(root, meshes[m].primitives[q])
  }

  /** The contexts of the primitives `ps` of one mesh, whose first slot is `first`. */
  function MeshContexts(root: Root, chunks: seq<GlbBinChunk>, first: int, ps: seq<MeshPrimitive>): (r: seq<PrimitiveContext>)
    requires forall q | 0 <= q < |ps| :: !ps[q].dracoCompressed ==> PrimitiveResolves(root, ps[q])
    requires |chunks| == |root.buffers|
    ensures |r| == |ps|
  {
    if ps == [] then []
    else MeshContexts(root, chunks, first, ps[..|ps| - 1]) + [ContextFor(root, chunks, first + |ps| - 1, ps[|ps| - 1])]
  }

  /** The contexts `PreparePrimitives` records: mesh by mesh, primitive by primitive. */
  function Contexts(root: Root, chunks: seq<GlbBinChunk>, meshes: seq<Mesh>): (r: seq<PrimitiveContext>)
    requires MeshesResolve(root, meshes) && |chunks| == |root.buffers|
    ensures |r| == TotalPrimitives(meshes)
  {
    if meshes == [] then []
    else
      var front := meshes[..|meshes| - 1];
      assert MeshesResolve(root, front);
      Contexts(root, chunks, front) + MeshContexts(root, chunks, TotalPrimitives(front), meshes[|meshes| - 1].primitives)
  }

  lemma {:induction false} MeshContextsAt(root: Root, chunks: seq<GlbBinChunk>, first: int, ps: seq<MeshPrimitive>, q: int)
    requires forall q | 0 <= q < |ps| :: !ps[q].dracoCompressed ==> PrimitiveResolves(root, ps[q])
    requires |chunks| == |root.buffers| && 0 <= q < |ps|
    ensures MeshContexts(root, chunks, first, ps)[q] == ContextFor(root, chunks, first + q, ps[q])
    decreases |ps|
  {
    if q < |ps| - 1 {
      MeshContextsAt(root, chunks, first, ps[..|ps| - 1], q);
    }
  }

  lemma {:induction false} ContextsAtPrefix(root: Root, chunks: seq<GlbBinChunk>, meshes: seq<Mesh>, m: int, q: int)
    requires MeshesResolve(root, meshes) && |chunks| == |root.buffers|
    requires 0 <= m < |meshes| && 0 <= q < |meshes[m].primitives|
    ensures TotalPrimitives(meshes[..m]) + q < TotalPrimitives(meshes)
    ensures Contexts(root, chunks, meshes)[TotalPrimitives(meshes[..m]) + q] ==
      ContextFor(root, chunks, TotalPrimitives(meshes[..m]) + q, meshes[m].primitives[q])
    decreases |meshes|
  {
    var n := |meshes| - 1;
    var front := meshes[..n];
    assert MeshesResolve(root, front);
    var earlier := Contexts(root, chunks, front);
    var own := MeshContexts(root, chunks, TotalPrimitives(front), meshes[n].primitives);
    assert Contexts(root, chunks, meshes) == earlier + own;
    if m < n {
      assert front[..m] == meshes[..m] && front[m] == meshes[m];
      ContextsAtPrefix(root, chunks, front, m, q);
    } else {
      assert front == meshes[..m];
      MeshContextsAt(root, chunks, TotalPrimitives(front), meshes[m].primitives, q);
    }
  }

  /**
   * Primitive q of mesh m has, in the slot the table gives it, the context made
   * for it, and that context records the slot: the contexts number the
   * primitives exactly as `meshPrimitiveIndex` does.
   */
  lemma ContextsAt(root: Root, chunks: seq<GlbBinChunk>, meshes: seq<Mesh>, m: int, q: int)
    requires MeshesResolve(root, meshes) && |chunks| == |root.buffers|
    requires 0 <= m < |meshes| && 0 <= q < |meshes[m].primitives|
    ensures 0 <= Slot(meshes, m, q) < TotalPrimitives(meshes)
    ensures Contexts(root, chunks, meshes)[Slot(meshes, m, q)] ==
      ContextFor(root, chunks, Slot(meshes, m, q), meshes[m].primitives[q])
  {
    ContextsAtPrefix(root, chunks, meshes, m, q);
    assert Slot(meshes, m, q) == TotalPrimitives(meshes[..m]) + q;
  }

  /** Each context records the slot it sits in. */
  lemma {:induction false} ContextsRecordSlots(root: Root, chunks: seq<GlbBinChunk>, meshes: seq<Mesh>, k: int)
    requires MeshesResolve(root, meshes) && |chunks| == |root.buffers|
    requires 0 <= k < TotalPrimitives(meshes)
    ensures Contexts(root, chunks, meshes)[k].primitiveIndex == k
  {
    SlotsNumberPrimitives(meshes);
    assert IsSlot(meshes, k);
    var m, q :| 0 <= m < |meshes| && 0 <= q < |meshes[m].primitives| && k == Slot(meshes, m, q);
    ContextsAt(root, chunks, meshes, m, q);
  }

  /** What preparing the context of `p` throws; the preparation of a Draco primitive is not part of this model. */
  function ContextFault(root: Root, chunks: seq<GlbBinChunk>, buffers: seq<Option<Bytes>>, p: MeshPrimitive)
    : (r: Option<Exception>)
    requires !p.dracoCompressed ==> PrimitiveResolves(root, p)
    requires |chunks| == |root.buffers| && |buffers| == |root.buffers|
    ensures p.dracoCompressed ==> r.None?
  {
    if p.dracoCompressed then None else PrimitiveFault(root, chunks, buffers, p)
  }

  /** What preparing the primitives `ps[q..]` of one mesh throws: the fault of the first of them that faults. */
  function MeshFault(root: Root, chunks: seq<GlbBinChunk>, buffers: seq<Option<Bytes>>, ps: seq<MeshPrimitive>, q: nat)
    : Option<Exception>
    requires forall q | 0 <= q < |ps| :: !ps[q].dracoCompressed ==> PrimitiveResolves(root, ps[q])
    requires |chunks| == |root.buffers| && |buffers| == |root.buffers| && q <= |ps|
    decreases |ps| - q
  {
    if q == |ps| then None
    else
      var fault := ContextFault(root, chunks, buffers, ps[q]);
      if fault.Some? then fault else MeshFault(root, chunks, buffers, ps, q + 1)
  }

  /** What preparing the meshes `meshes[m..]` throws: the fault of the first mesh that faults. */
  function MeshesFault(root: Root, chunks: seq<GlbBinChunk>, buffers: seq<Option<Bytes>>, meshes: seq<Mesh>, m: nat)
    : Option<Exception>
    requires MeshesResolve(root, meshes) && |chunks| == |root.buffers| && |buffers| == |root.buffers| && m <= |meshes|
    decreases |meshes| - m
  {
    if m == |meshes| then None
    else
      var fault := MeshFault(root, chunks, buffers, meshes[m].primitives, 0);
      if fault.Some? then fault else MeshesFault(root, chunks, buffers, meshes, m + 1)
  }

  /** The primitives of a mesh from `q` on throw nothing exactly when none of them faults. */
  lemma {:induction false} MeshFaultNone(root: Root, chunks: seq<GlbBinChunk>, buffers: seq<Option<Bytes>>,
                                         ps: seq<MeshPrimitive>, q: nat)
    requires forall q | 0 <= q < |ps| :: !ps[q].dracoCompressed ==> PrimitiveResolves(root, ps[q])
    requires |chunks| == |root.buffers| && |buffers| == |root.buffers| && q <= |ps|
    ensures MeshFault(root, chunks, buffers, ps, q).None? <==>
      forall k | q <= k < |ps| :: ContextFault(root, chunks, buffers, ps[k]).None?
    decreases |ps| - q
  {
    if q < |ps| {
      MeshFaultNone(root, chunks, buffers, ps, q + 1);
    }
  }

  /** When the primitives of a mesh from `q` on throw, they throw the fault of the first that faults. */
  lemma {:induction false} MeshFaultIsFirst(root: Root, chunks: seq<GlbBinChunk>, buffers: seq<Option<Bytes>>,
                                            ps: seq<MeshPrimitive>, q: nat)
    requires forall q | 0 <= q < |ps| :: !ps[q].dracoCompressed ==> PrimitiveResolves(root, ps[q])
    requires |chunks| == |root.buffers| && |buffers| == |root.buffers| && q <= |ps|
    ensures MeshFault(root, chunks, buffers, ps, q).Some? ==> exists k | q <= k < |ps| ::
      && ContextFault(root, chunks, buffers, ps[k]) == MeshFault(root, chunks, buffers, ps, q)
      && forall l | q <= l < k :: ContextFault(root, chunks, buffers, ps[l]).None?
    decreases |ps| - q
  {
    if q < |ps| {
      var fault := ContextFault(root, chunks, buffers, ps[q]);
      if fault.None? {
        MeshFaultIsFirst(root, chunks, buffers, ps, q + 1);
        var later := MeshFault(root, chunks, buffers, ps, q + 1);
        if later.Some? {
          var k :| q + 1 <= k < |ps| && ContextFault(root, chunks, buffers, ps[k]) == later
            && forall l | q + 1 <= l < k :: ContextFault(root, chunks, buffers, ps[l]).None?;
          assert forall l | q <= l < k :: ContextFault(root, chunks, buffers, ps[l]).None?;
        }
      }
    }
  }

  /**
   * No primitive before primitive q of mesh k, from mesh m on, throws: in slot
   * order, the primitives of meshes m to k - 1 and the first q of mesh k.
   */
  predicate NoFaultBefore(root: Root, chunks: seq<GlbBinChunk>, buffers: seq<Option<Bytes>>, meshes: seq<Mesh>,
                          m: int, k: int, q: int)
    requires MeshesResolve(root, meshes) && |chunks| == |root.buffers| && |buffers| == |root.buffers|
    requires 0 <= m <= k < |meshes| && 0 <= q <= |meshes[k].primitives|
  {
    && (forall l, r | m <= l < k && 0 <= r < |meshes[l].primitives| ::
          ContextFault(root, chunks, buffers, meshes[l].primitives[r]).None?)
    && forall r | 0 <= r < q :: ContextFault(root, chunks, buffers, meshes[k].primitives[r]).None?
  }

  /** Nothing faults before the first primitive of mesh `m`, counting from mesh `m`. */
  lemma NoFaultBeforeOwnMesh(root: Root, chunks: seq<GlbBinChunk>, buffers: seq<Option<Bytes>>, meshes: seq<Mesh>,
                             m: int, q: int)
    requires MeshesResolve(root, meshes) && |chunks| == |root.buffers| && |buffers| == |root.buffers|
    requires 0 <= m < |meshes| && 0 <= q <= |meshes[m].primitives|
    requires forall l | 0 <= l < q :: ContextFault(root, chunks, buffers, meshes[m].primitives[l]).None?
    ensures NoFaultBefore(root, chunks, buffers, meshes, m, m, q)
  {
  }

  /** A mesh none of whose primitives faults can be put in front of a fault-free stretch. */
  lemma NoFaultBeforeExtend(root: Root, chunks: seq<GlbBinChunk>, buffers: seq<Option<Bytes>>, meshes: seq<Mesh>,
                            m: int, k: int, q: int)
    requires MeshesResolve(root, meshes) && |chunks| == |root.buffers| && |buffers| == |root.buffers|
    requires 0 <= m < k < |meshes| && 0 <= q <= |meshes[k].primitives|
    requires forall r | 0 <= r < |meshes[m].primitives| :: ContextFault(root, chunks, buffers, meshes[m].primitives[r]).None?
    requires NoFaultBefore(root, chunks, buffers, meshes, m + 1, k, q)
    ensures NoFaultBefore(root, chunks, buffers, meshes, m, k, q)
  {
  }

  /** Preparing the meshes from `m` on throws nothing exactly when no primitive of theirs faults. */
  lemma {:induction false} MeshesFaultNone(root: Root, chunks: seq<GlbBinChunk>, buffers: seq<Option<Bytes>>,
                                           meshes: seq<Mesh>, m: nat)
    requires MeshesResolve(root, meshes) && |chunks| == |root.buffers| && |buffers| == |root.buffers| && m <= |meshes|
    ensures MeshesFault(root, chunks, buffers, meshes, m).None? <==>
      forall k, q | m <= k < |meshes| && 0 <= q < |meshes[k].primitives| ::
        ContextFault(root, chunks, buffers, meshes[k].primitives[q]).None?
    decreases |meshes| - m
  {
    if m < |meshes| {
      MeshFaultNone(root, chunks, buffers, meshes[m].primitives, 0);
      MeshesFaultNone(root, chunks, buffers, meshes, m + 1);
    }
  }

  /**
   * When preparing the meshes from `m` on throws, it throws the fault of some
   * primitive q of mesh k, and every primitive before it, in slot order,
   * throws nothing.
   */
  lemma {:induction false} MeshesFaultIsFirst(root: Root, chunks: seq<GlbBinChunk>, buffers: seq<Option<Bytes>>,
                                              meshes: seq<Mesh>, m: nat)
    requires MeshesResolve(root, meshes) && |chunks| == |root.buffers| && |buffers| == |root.buffers| && m <= |meshes|
    ensures MeshesFault(root, chunks, buffers, meshes, m).Some? ==>
      exists k, q | m <= k < |meshes| && 0 <= q < |meshes[k].primitives| ::
        && ContextFault(root, chunks, buffers, meshes[k].primitives[q]) == MeshesFault(root, chunks, buffers, meshes, m)
        && NoFaultBefore(root, chunks, buffers, meshes, m, k, q)
    decreases |meshes| - m
  {
    if m < |meshes| {
      var ps := meshes[m].primitives;
      var own := MeshFault(root, chunks, buffers, ps, 0);
      if own.Some? {
        MeshFaultIsFirst(root, chunks, buffers, ps, 0);
        assert MeshesFault(root, chunks, buffers, meshes, m) == own;
        var q :| 0 <= q < |ps| && ContextFault(root, chunks, buffers, ps[q]) == own
          && forall l | 0 <= l < q :: ContextFault(root, chunks, buffers, ps[l]).None?;
        NoFaultBeforeOwnMesh(root, chunks, buffers, meshes, m, q);
        assert ContextFault(root, chunks, buffers, meshes[m].primitives[q]) == MeshesFault(root, chunks, buffers, meshes, m);
      } else {
        MeshFaultNone(root, chunks, buffers, ps, 0);
        MeshesFaultIsFirst(root, chunks, buffers, meshes, m + 1);
        var rest := MeshesFault(root, chunks, buffers, meshes, m + 1);
        assert MeshesFault(root, chunks, buffers, meshes, m) == rest;
        if rest.Some? {
          var k, q :| m + 1 <= k < |meshes| && 0 <= q < |meshes[k].primitives|
            && ContextFault(root, chunks, buffers, meshes[k].primitives[q]) == rest
            && NoFaultBefore(root, chunks, buffers, meshes, m + 1, k, q);
          NoFaultBeforeExtend(root, chunks, buffers, meshes, m, k, q);
        }
      }
    }
  }

  /**
   * `primitives` after the assembly loop of `Prepare` has gone through the
   * contexts `cs`: each built primitive is stored in its context's slot, a
   * context that builds none leaves its slot as it was.
   */
  function Assembled(ps: seq<Option<Primitive>>, cs: seq<PrimitiveContext>,
                     create: PrimitiveContext -> Option<Primitive>): (r: seq<Option<Primitive>>)
    requires forall k | 0 <= k < |cs| :: 0 <= cs[k].primitiveIndex < |ps|
    ensures |r| == |ps|
  {
    if cs == [] then ps
    else
      var earlier := Assembled(ps, cs[..|cs| - 1], create);
      var last := cs[|cs| - 1];
      match BuildPrimitive(last, create)
      case Some(p) => earlier[last.primitiveIndex := Some(p)]
      case None => earlier
  }

  /**
   * When every context sits in its own slot, slot k holds what its context
   * builds, or what it held before when that builds nothing; slots past the
   * contexts are untouched.
   */
  lemma {:induction false} AssembledInSlots(ps: seq<Option<Primitive>>, cs: seq<PrimitiveContext>,
                                            create: PrimitiveContext -> Option<Primitive>)
    requires |cs| <= |ps| && forall k | 0 <= k < |cs| :: cs[k].primitiveIndex == k
    ensures forall k | 0 <= k < |ps| ::
      Assembled(ps, cs, create)[k] ==
        if k < |cs| && BuildPrimitive(cs[k], create).Some? then BuildPrimitive(cs[k], create) else ps[k]
  {
    if cs != [] {
      AssembledInSlots(ps, cs[..|cs| - 1], create);
    }
  }
}

=== FILE: schema.dfy ===
/**
 * The parts of the glTF 2.0 document (the parsed `Root`) that the loader reads.
 * Integer references that the JSON may leave out (`bufferView`, `indices`, the
 * vertex attributes) are -1 when absent, as the deserialised schema has them;
 * a null string is the empty string, so a missing URI and an empty one are
 * the same value here.
 */
module Schema {

  /** `GLTFComponentType`; any other code in the JSON is `OtherComponent`. */
  datatype ComponentType =
    | Byte           // 5120
    | UnsignedByte   // 5121
    | Short          // 5122
    | UnsignedShort  // 5123
    | UnsignedInt    // 5125
    | Float          // 5126
    | OtherComponent(code: int)

  /** `GLTFAccessorAttributeType`. */
  datatype AttributeType = Scalar | Vec2 | Vec3 | Vec4 | Mat2 | Mat3 | Mat4

  /** `DrawMode`, the `mode` of a mesh primitive; any other code is `OtherMode`. */
  datatype DrawMode =
    | Points | Lines | LineLoop | LineStrip | Triangles | TriangleStrip | TriangleFan
    | OtherMode(code: int)

  datatype Buffer = Buffer(uri: string, byteLength: int)

  /** `byteStride` is 0 or negative when the JSON declares none. */
  datatype BufferView = BufferView(buffer: int, byteOffset: int, byteLength: int, byteStride: int)

  datatype Accessor = Accessor(
    bufferView: int,
    byteOffset: int,
    componentType: ComponentType,
    normalized: bool,
    count: int,
    attributeType: AttributeType)

  datatype Attributes = Attributes(
    position: int, normal: int, tangent: int, texCoord0: int, texCoord1: int, color0: int)

  /** `dracoCompressed` stands for a non-null `extensions.KHR_draco_mesh_compression`. */
  datatype MeshPrimitive = MeshPrimitive(
    attributes: Attributes, indices: int, mode: DrawMode, material: int, dracoCompressed: bool)

  datatype Mesh = Mesh(primitives: seq<MeshPrimitive>)

  datatype Image = Image(uri: string, mimeType: string, bufferView: int)

  /** The document; a null array of the JSON is the empty sequence. */
  datatype Root = Root(
    extensionsRequired: seq<string>,
    extensionsUsed: seq<string>,
    buffers: seq<Buffer>,
    bufferViews: seq<BufferView>,
    accessors: seq<Accessor>,
    meshes: seq<Mesh>,
    images: seq<Image>)

  /** The usable region of one buffer: where its bytes start in the array that holds them, and how many. */
  datatype GlbBinChunk = GlbBinChunk(start: int, length: int)

  /** Size in bytes of one component. */
  function ComponentSize(t: ComponentType): nat {
    match t
    case Byte => 1
    case UnsignedByte => 1
    case Short => 2
    case UnsignedShort => 2
    case UnsignedInt => 4
    case Float => 4
    case OtherComponent(_) => 0
  }

  /** Number of components of one element. */
  function ComponentCount(t: AttributeType): nat {
    match t
    case Scalar => 1
    case Vec2 => 2
    case Vec3 => 3
    case Vec4 => 4
    case Mat2 => 4
    case Mat3 => 9
    case Mat4 => 16
  }

  /** Size in bytes of one tightly packed element of an accessor. */
  function ElementSize(a: Accessor): nat {
    ComponentCount(a.attributeType) * ComponentSize(a.componentType)
  }

  /**
   * `Root.IsAccessorInterleaved`, taken to hold when the accessor's buffer
   * view declares a stride larger than one tightly packed element.
   * `Runtime/Scripts/Schema/Root.cs`, which defines it, is not part of this
   * model, so this reading is an assumption of the model.
   */
  predicate IsInterleaved(a: Accessor, view: BufferView) {
    view.byteStride > ElementSize(a)
  }

  /** The accessor, its buffer view and that view's buffer all exist. */
  predicate AccessorResolves(root: Root, index: int) {
    && 0 <= index < |root.accessors|
    && 0 <= root.accessors[index].bufferView < |root.bufferViews|
    && 0 <= root.bufferViews[root.accessors[index].bufferView].buffer < |root.buffers|
  }

  /** Every accessor a standard (not Draco-compressed) primitive names resolves; POSITION is mandatory. */
  predicate PrimitiveResolves(root: Root, p: MeshPrimitive) {
    var at := p.attributes;
    && AccessorResolves(root, at.position)
    && (p.indices >= 0 ==> AccessorResolves(root, p.indices))
    && (at.normal >= 0 ==> AccessorResolves(root, at.normal))
    && (at.tangent >= 0 ==> AccessorResolves(root, at.tangent))
    && (at.texCoord0 >= 0 ==> AccessorResolves(root, at.texCoord0))
    && (at.texCoord1 >= 0 ==> AccessorResolves(root, at.texCoord1))
    && (at.color0 >= 0 ==> AccessorResolves(root, at.color0))
  }

  /** Reference integrity of the meshes and images, which the loader indexes without checking. */
  predicate Resolves(root: Root) {
    && (forall m, p | 0 <= m < |root.meshes| && 0 <= p < |root.meshes[m].primitives| ::
          !root.meshes[m].primitives[p].dracoCompressed ==> PrimitiveResolves(root, root.meshes[m].primitives[p]))
    && (forall i | 0 <= i < |root.images| && root.images[i].bufferView >= 0 ::
          && root.images[i].bufferView < |root.bufferViews|
          && 0 <= root.bufferViews[root.images[i].bufferView].buffer < |root.buffers|)
  }
}

=== FILE: wrappers.dfy ===
/** Option and Result, for C# null references and for operations that can fail. */
module Wrappers {

  datatype Option<+T> = None | Some(value: T)

  datatype Result<+T, +E> = Success(value: T) | Failure(error: E)
}
